=== FILE: README.md ===
# projeto_ecommerce in Dafny

A model of the core of the projeto_ecommerce shop: the NestJS services behind
orders, products, addresses and role checks, and the React-side helpers that
talk to them (the two shopping carts and the orders and users API modules).
Money is held in integer cents throughout, as the `decimal(12,2)` columns hold
it; databases are immutable snapshots (maps from auto-increment ids to rows
plus the next id), and every service call maps a snapshot either to the
exception it throws or to the new snapshot and the row it returns.

Modules, following the program's structure:

- `Wrappers` holds `Option`, `Result` and `Check`, with the `:-` failure protocol used to
  model exceptions.
- `Entities` holds the persisted records and the `NotFoundException` / `BadRequestException`
  reasons.
- `OrderLines` is the `order_items` table seen from one order: its rows in ascending id order,
  the sums `recalcTotals` folds over them, and the lookup of a product's row.
- `Orders` is `OrdersService`: `create`, `addItem`, `updateItem`, `removeItem`, `pay`,
  `setStatus`, and the helpers `recalcTotals`, `getOrThrow` and `ensureEditable`.
- `OrderProperties` holds the database invariant (ids below the counters, foreign keys, one row
  per product per order, non-negative stock, stored totals equal to the rows' sums). It proves
  that every order operation keeps the invariant, and it states the workflow's quirks.
- `OrdersDist` covers the compiled orders service where it departs from the source: a paged
  `findAll`, and a `removeItem` that deletes every row of the order.
- `Paging` holds the clamps of the list endpoints, `skip`/`take` windows, and `Math.ceil`
  page counts.
- `Text` models `trim`, `split` on one character, and `toUpperCase` as far as the sort
  parser needs it.
- `Products` models both products services: the searchable `findAll`, `findOne`,
  `update` and `remove` of the source, and the filtered, sorted `findPaged` and
  category-checking `update` of the compiled copy.
- `Addresses` is `AddressesService`, where at most one address per customer is the default.
- `Roles` is `RolesGuard.canActivate`.
- `Cart` is the reducer cart of the app shell with `inc`/`dec` and the derived totals.
- `LegacyCart` is the older `useState` cart.
- `Json` models the untyped `any` data of the frontend helpers, with property access,
  `??`, `||`, truthiness, `Number`, `String`, `toNum` and `prune`.
- `ApiLists` holds `coerceListAndTotal` and the client-side page slice.
- `OrdersApi` holds `normalizeOrder`, `listOrders` and `createOrderFromCart`.
- `UsersApi` holds `normalizeCustomer`, `listUsers`, and the `createUser`/`updateUser`
  body.

Where the code and its comments disagree, the model follows the code. The comment above
`addItem` says lineTotal keeps the captured unit price; the code recomputes it from the
product's current price when merging. `pay` only refuses PAGO, so a canceled order can be
paid. The stock check of `addItem` looks at the requested quantity, not at the row's new
total. Each of these is stated as a lemma below.

## Model

| member | source | states |
|---|---|---|
| Orders.GetOrThrow | project-ecommerce/src/modules/orders/orders.service.ts:166-170 | succeeds exactly for an existing order and returns its row; otherwise "Order not found" |
| Orders.EnsureEditable | project-ecommerce/src/modules/orders/orders.service.ts:172-175 | passes exactly for ABERTO and AGUARDANDO_PAGAMENTO; PAGO and CANCELADO each fail with their own message |
| Orders.RecalcTotals | project-ecommerce/src/modules/orders/orders.service.ts:156-164 | afterwards the order's stored subtotal and totalItems are the sums over its current rows and total equals subtotal; nothing else in the database changes |
| Orders.Create | project-ecommerce/src/modules/orders/orders.service.ts:28-33 | fails with "Customer not found" exactly for an unknown customer; otherwise adds one ABERTO order with zero totals at the next id and changes nothing else |
| Orders.AddItem | project-ecommerce/src/modules/orders/orders.service.ts:35-65 | the error cases in the source's order (order, editable, product, stock against the requested quantity); success exactly when none applies; merges into the product's existing row, with lineTotal at the current price, or appends a row priced at the current price; the order's totals match its rows |
| Orders.UpdateItem | project-ecommerce/src/modules/orders/orders.service.ts:67-84 | errors for a missing order, a non-editable order, an item not in this order, and stock below the new quantity; on success only that row changes, to the new quantity repriced from its stored unitPrice |
| Orders.RemoveItem | project-ecommerce/src/modules/orders/orders.service.ts:86-94 | errors for a missing order, a non-editable order and an item not in this order; on success exactly that row is deleted and the order re-totalled |
| Orders.Shortfall | project-ecommerce/src/modules/orders/orders.service.ts:128-133 | no shortfall exactly when every row's product exists with enough stock; otherwise names the product of the first uncovered row |
| Orders.Debit | project-ecommerce/src/modules/orders/orders.service.ts:140-142 | every product's stock drops by the total quantity the rows order of it; the set of products is unchanged |
| Orders.Pay | project-ecommerce/src/modules/orders/orders.service.ts:122-153 | a paid order is returned unchanged; no rows is "Order has no items"; success exactly when every row is covered; on success all stocks are debited and the status becomes PAGO, rows untouched |
| Orders.SetStatus | project-ecommerce/src/modules/orders/orders.service.ts:96-119 | a PAGO order never changes; target PAGO is exactly `pay`; any other target is written as is, from any non-PAGO status |
| OrderLines.LineIds | project-ecommerce/src/modules/orders/orders.service.ts:158 | the ids of an order's rows, ascending, each below the bound and owned by the order, and every such row listed |
| OrderLines.SumsAfterChange | project-ecommerce/src/modules/orders/orders.service.ts:159-161 | changing, adding or deleting one row moves an order's sums by exactly that row's old and new contribution |
| OrderLines.FindLine | project-ecommerce/src/modules/orders/orders.service.ts:48 | finds the order's row for a product when there is one (the first), and none exactly when no row of the order has that product |
| OrderProperties.CreateKeepsValid | project-ecommerce/src/modules/orders/orders.service.ts:28-33 | `create` keeps the database invariant and the new order has no rows |
| OrderProperties.AddItemKeepsValid | project-ecommerce/src/modules/orders/orders.service.ts:35-65 | `addItem` keeps the invariant, one row per product included, and raises totalItems by exactly the requested quantity |
| OrderProperties.AddItemMergeKeepsValid | project-ecommerce/src/modules/orders/orders.service.ts:50-52 | merging into an existing row keeps the invariant and adds the quantity to totalItems |
| OrderProperties.AddItemAppendKeepsValid | project-ecommerce/src/modules/orders/orders.service.ts:53-61 | appending a new row keeps the invariant |
| OrderProperties.AddItemAppendCount | project-ecommerce/src/modules/orders/orders.service.ts:53-63 | appending a new row raises totalItems by exactly the requested quantity |
| OrderProperties.UpdateItemKeepsValid | project-ecommerce/src/modules/orders/orders.service.ts:67-84 | `updateItem` keeps the invariant; totalItems moves by the difference between the new and old quantity |
| OrderProperties.RemoveItemKeepsValid | project-ecommerce/src/modules/orders/orders.service.ts:86-94 | `removeItem` keeps the invariant; totalItems and subtotal lose exactly the removed row's quantity and lineTotal |
| OrderProperties.PayDebits | project-ecommerce/src/modules/orders/orders.service.ts:140-142 | each product of the order loses exactly its row's quantity and every other product keeps its stock |
| OrderProperties.PayKeepsStock | project-ecommerce/src/modules/orders/orders.service.ts:128-142 | because of the pre-check no stock goes negative after `pay` |
| OrderProperties.PayKeepsValid | project-ecommerce/src/modules/orders/orders.service.ts:122-153 | `pay` keeps the database invariant |
| OrderProperties.SetStatusKeepsValid | project-ecommerce/src/modules/orders/orders.service.ts:96-119 | `setStatus` keeps the database invariant |
| OrderProperties.PayIdempotent | project-ecommerce/src/modules/orders/orders.service.ts:124 | paying a paid order returns it and changes nothing, so paying twice is paying once |
| OrderProperties.CanceledOrderCanBePaid | project-ecommerce/src/modules/orders/orders.service.ts:122-125 | a CANCELADO order with covered rows is paid and debited, and `setStatus(PAGO)` does the same |
| OrderProperties.CanceledOrderCanBeReopened | project-ecommerce/src/modules/orders/orders.service.ts:110-118 | a CANCELADO order can be moved to any status other than PAGO |
| OrderProperties.MergeReprices | project-ecommerce/src/modules/orders/orders.service.ts:49-52 | a merged row keeps its unitPrice but its lineTotal is the current price times the new quantity, so lineTotal = unitPrice * quantity holds iff the price has not changed |
| OrderProperties.AddItemOverfillsThenPayFails | project-ecommerce/src/modules/orders/orders.service.ts:42-45 | a merge can succeed while leaving a row above its product's stock, and `pay` then fails |
| OrdersDist.FindAll | project-ecommerce/dist/modules/orders/orders.service.js:34-58 | page at least 1 and limit clamped into 1..100 (12 by default); the items are the rows from (page-1)*limit on, at most limit of them; total counts all matching rows |
| OrdersDist.RemoveAllItems | project-ecommerce/dist/modules/orders/orders.service.js:131-139 | errors for a missing or non-editable order and for an order with no rows; otherwise deletes exactly the order's rows and keeps the order's customer and status and every other order |
| OrdersDist.RemoveAllItemsKeepsValid | project-ecommerce/dist/modules/orders/orders.service.js:131-139 | the variant keeps the invariant, so the emptied order's totals are zero, and leaves every other order's rows as they were |
| Paging.ClampPage | project-ecommerce/src/modules/products/products.service.ts:21 | the page is the requested one when at least 1, else 1 |
| Paging.ClampLimit | project-ecommerce/src/modules/products/products.service.ts:22 | the limit is the requested one when within 1..100, 12 when missing, 1 below that range and 100 above it |
| Paging.ClampLimitOuter | project-ecommerce/dist/modules/orders/orders.service.js:35-36 | the compiled orders listing caps the limit at 100 before raising it to 1: the requested limit within 1..100, 12 when missing, 1 below and 100 above |
| Paging.ClampsAgree | project-ecommerce/dist/modules/orders/orders.service.js:36 | both clamp orders give the same limit for every request |
| Paging.ClampIdempotent | project-ecommerce/src/modules/products/products.service.ts:21-22 | a clamped page or limit passes through its clamp unchanged |
| Paging.Window | project-ecommerce/src/modules/products/products.service.ts:29-33 | the window holds the rows from `skip` on, `take` of them or as many as remain |
| Paging.PageOf | project-ecommerce/src/modules/products/products.service.ts:29-40 | page p of size l holds at most l rows, row i being row (p-1)*l+i of the full result, and reports the full count |
| Paging.PagesTileRows | project-ecommerce/dist/modules/products/products.service.js:82-92 | pages 1, 2, ... in turn yield the rows in order, each once; the first totalPages pages yield all of them |
| Paging.TotalPagesIsCeiling | project-ecommerce/dist/modules/products/products.service.js:92 | `Math.ceil(total / limit)` is the least page count whose pages hold every row; it is 0 only for no rows |
| Paging.PageNonEmptyIff | project-ecommerce/dist/modules/products/products.service.js:84-92 | a page has rows exactly when its number is at most the page count |
| Text.Trim | project-ecommerce/src/modules/products/products.service.ts:23 | the result is a slice of the input with only white space cut on either side, and it neither starts nor ends with white space |
| Text.TrimEmptyIffBlank | project-ecommerce/src/modules/products/products.service.ts:23-27 | a string trims to '' exactly when it is all white space |
| Text.TrimIdempotent | project-ecommerce/src/modules/products/products.service.ts:23 | trimming twice is trimming once |
| Text.Split | project-ecommerce/dist/modules/products/products.service.js:77 | the parts contain no separator and join back to the input |
| Text.SplitJoin | project-ecommerce/dist/modules/products/products.service.js:77 | splitting undoes joining separator-free parts |
| Text.ToUpper | project-ecommerce/dist/modules/products/products.service.js:79 | the model's upper-casing maps each character by itself: a–z to A–Z, the long s to S, everything else unchanged |
| Products.SearchTerm | project-ecommerce/src/modules/products/products.service.ts:23-27 | no filter exactly when the search is missing or blank; otherwise the trimmed search, never empty or padded |
| Products.SearchTermIdempotent | project-ecommerce/src/modules/products/products.service.ts:23 | a search term is its own search term |
| Products.ListQueryOf | project-ecommerce/src/modules/products/products.service.ts:19-33 | the query `findAll` sends: clamped page and limit, and the search term |
| Products.FindAll | project-ecommerce/src/modules/products/products.service.ts:19-41 | page is the requested one when at least 1, else 1; limit the requested one within 1..100, 12 when missing, else the nearest bound; at most limit products, each at its place (page-1)*limit+i of the matching rows; total is the count of matching rows |
| Products.FindOne | project-ecommerce/src/modules/products/products.service.ts:46-52 | returns the product exactly when it exists, else "Produto não encontrado" |
| Products.Apply | project-ecommerce/src/modules/products/products.service.ts:65-69 | every column the patch carries is overwritten and every other column kept |
| Products.ApplyLaws | project-ecommerce/src/modules/products/products.service.ts:67 | an empty patch changes nothing and a patch applied twice acts once |
| Products.Update | project-ecommerce/src/modules/products/products.service.ts:65-69 | an unknown product is "not found"; a known one fails on the category foreign key exactly when the given category does not exist; otherwise the patched product, with the given category if any, is written back |
| Products.UpdateLocal | project-ecommerce/src/modules/products/products.service.ts:65-69 | a successful `update` changes no other product, and an empty patch with no category succeeds and changes nothing |
| Products.Remove | project-ecommerce/src/modules/products/products.service.ts:74-77 | an unknown product is "not found"; a product that order rows point at fails on their foreign key; otherwise only that product is gone |
| Products.UpdateKeepsValid | project-ecommerce/src/entity/Product.ts:28 | after a successful `update` every product still points at an existing category and every product an order row points at still exists |
| Products.RemoveKeepsValid | project-ecommerce/src/entity/OrderItem.ts:13 | after a successful `remove` no order row points at a missing product, and every product keeps an existing category |
| Products.FieldNameRoundTrip | project-ecommerce/dist/modules/products/products.service.js:78 | every whitelisted sort column is read back as itself |
| Products.IsAscLetters | project-ecommerce/dist/modules/products/products.service.js:79 | the directions read as ascending are exactly the three-letter spellings of "asc" in any case, long s included |
| Products.ParseSort | project-ecommerce/dist/modules/products/products.service.js:77-80 | a sort text without ':' sorts by its whitelisted field, descending; ascending needs a ':' |
| Products.SortRoundTrip | project-ecommerce/dist/modules/products/products.service.js:77-80 | writing a sort as "field:dir" and parsing it gives it back |
| Products.SortPair | project-ecommerce/dist/modules/products/products.service.js:77-79 | "field:dir" selects the field through the whitelist and ascending exactly when dir upper-cases to ASC |
| Products.DefaultSortIsNewestFirst | project-ecommerce/dist/modules/products/products.service.js:77 | without a sort the order is id descending |
| Products.UnknownFieldSortsById | project-ecommerce/dist/modules/products/products.service.js:78 | a column outside the whitelist sorts by id |
| Products.ParseActive | project-ecommerce/dist/modules/products/products.service.js:64-67 | 'true' and 'false' select the flag, anything else no filter |
| Products.PlanOf | project-ecommerce/dist/modules/products/products.service.js:58-84 | each filter is present exactly when its parameter is truthy; the sort as parsed; page 1 and limit 10 by default; skip is (page-1)*limit |
| Products.FindPaged | project-ecommerce/dist/modules/products/products.service.js:58-95 | meta reports the page, limit, the count of matches and their ceiling page count; data is non-empty exactly when the page is within that count |
| Products.UpdateChecked | project-ecommerce/dist/modules/products/products.service.js:39-51 | fails for an unknown product, then for a truthy unknown category; otherwise patches the product and sets the category when one is given |
| Products.UpdateCheckedKeepsCategories | project-ecommerce/dist/modules/products/products.service.js:43-49 | if every product pointed at an existing category before, it still does after the checked `update` |
| Addresses.ClearDefaults | project-ecommerce/src/modules/addresses/addresses.service.ts:36 | the customer's addresses lose the default flag and all others are untouched |
| Addresses.Get | project-ecommerce/src/modules/addresses/addresses.service.ts:22-26 | returns the address exactly when it exists, else "Address not found" |
| Addresses.Create | project-ecommerce/src/modules/addresses/addresses.service.ts:31-41 | fails exactly for an unknown customer; otherwise adds the address at the next id, and when it is the default clears the flag on the customer's other addresses only |
| Addresses.Patch | project-ecommerce/src/modules/addresses/addresses.service.ts:51 | the given columns are overwritten, the rest and the owner kept |
| Addresses.Update | project-ecommerce/src/modules/addresses/addresses.service.ts:43-53 | fails exactly for an unknown address; `isDefault === true` clears the owner's other defaults, any other value leaves them |
| Addresses.Remove | project-ecommerce/src/modules/addresses/addresses.service.ts:55-59 | fails exactly for an unknown address; otherwise only that address is gone |
| Addresses.Scan | project-ecommerce/src/modules/addresses/addresses.service.ts:15-19 | lists exactly the customer's addresses with the given flag, highest id first |
| Addresses.DefaultsThenOthers | project-ecommerce/src/modules/addresses/addresses.service.ts:17 | default rows before the others, each run by descending id, is the `isDefault DESC, id DESC` order |
| Addresses.ListByCustomer | project-ecommerce/src/modules/addresses/addresses.service.ts:15-20 | exactly the customer's addresses, ordered by isDefault then id, both descending |
| Addresses.ListHasOneDefault | project-ecommerce/src/modules/addresses/addresses.service.ts:15-20 | in a valid book only the first listed address can be the default |
| Addresses.CreateKeepsValid | project-ecommerce/src/modules/addresses/addresses.service.ts:28-41 | `create` keeps every customer to at most one default, and a new default is the only one |
| Addresses.UpdateKeepsValid | project-ecommerce/src/modules/addresses/addresses.service.ts:43-53 | `update` keeps at most one default per customer; with `isDefault: true` the address is the customer's only default |
| Roles.CanActivate | project-ecommerce/src/auth/roles.guard.ts:7-13 | admits every request when no roles are required, and otherwise exactly a user whose role is listed |
| Roles.Includes | project-ecommerce/src/auth/roles.guard.ts:12 | true exactly when the role is present and listed |
| Roles.NoUserOnlyUnrestricted | project-ecommerce/src/auth/roles.guard.ts:9-12 | a request without a user passes exactly the routes that require no role |
| Roles.WideningKeepsAccess | project-ecommerce/src/auth/roles.guard.ts:9-12 | adding roles to a list never revokes access, and a list naming a role admits it |
| Cart.FindIndex | project-ecommerce/frontend/src/app/cart/CartContext.tsx:56 | the index of the product's first row, none exactly when it has no row |
| Cart.Without | project-ecommerce/frontend/src/app/cart/CartContext.tsx:64-65 | keeps exactly the rows of other products, and none of the removed one |
| Cart.WithoutConcat | project-ecommerce/frontend/src/app/cart/CartContext.tsx:64-65 | filtering works row by row, so the surviving rows keep their order |
| Cart.WithoutAbsent | project-ecommerce/frontend/src/app/cart/CartContext.tsx:64-65 | removing a product that has no row leaves the cart unchanged |
| Cart.WithQty | project-ecommerce/frontend/src/app/cart/CartContext.tsx:69 | rewrites the qty of the product's rows only |
| Cart.AddEffect | project-ecommerce/frontend/src/app/cart/CartContext.tsx:54-63 | ADD raises the existing row's qty by the amount (1 by default) and nothing else, or appends one row |
| Cart.SetQtyEffect | project-ecommerce/frontend/src/app/cart/CartContext.tsx:66-74 | SET_QTY at or below 0 removes the product; above 0 it sets only its qty; CLEAR empties; other actions change nothing |
| Cart.ReduceKeepsUnique | project-ecommerce/frontend/src/app/cart/CartContext.tsx:52-76 | every action keeps one row per product |
| Cart.Find | project-ecommerce/frontend/src/app/cart/CartContext.tsx:100 | finds a row of the product exactly when it has one |
| Cart.DecTarget | project-ecommerce/frontend/src/app/cart/CartContext.tsx:103-106 | `dec` asks for the current qty minus the step, and for 0 when the step exceeds the qty (or the product is absent); never a negative qty |
| Cart.IncDecEffect | project-ecommerce/frontend/src/app/cart/CartContext.tsx:99-106 | `inc` raises only its product's row; `inc` of a product not in the cart does nothing; `dec` down to 0 removes the row |
| Cart.AddTotals | project-ecommerce/frontend/src/app/cart/CartContext.tsx:86-87 | ADD of q units raises the item count by q and the subtotal by q times the price already in the row (the payload's price for a new row) |
| Cart.TotalsOf | project-ecommerce/frontend/src/app/cart/CartContext.tsx:85-93 | the counts are the sums over the rows; from R$ 200.00 on the total is the subtotal, below it R$ 19.90 of freight is added, an empty subtotal totals 0, there is no discount, and the total is never negative |
| Cart.TotalsOfPlainCart | project-ecommerce/frontend/src/app/cart/CartContext.tsx:86-92 | with no negative qty or price the counts are non-negative, and an empty cart's totals are all zero |
| LegacyCart.Add | project-ecommerce/frontend/src/cart/CartContext.tsx:19-27 | for a product already in the cart only its first row changes, its qty raised by qty (1 by default); a new product is appended with that qty |
| LegacyCart.AddEffect | project-ecommerce/frontend/src/cart/CartContext.tsx:21-23 | in a cart with one row per product, `add` of a product already there raises exactly that row's qty and leaves every other row as it was |
| LegacyCart.Remove | project-ecommerce/frontend/src/cart/CartContext.tsx:28 | keeps exactly the rows of other products, and none of the removed one |
| LegacyCart.RemoveConcat | project-ecommerce/frontend/src/cart/CartContext.tsx:28 | filtering works row by row, so the surviving rows keep their order and repeats |
| LegacyCart.RemoveAbsent | project-ecommerce/frontend/src/cart/CartContext.tsx:28 | removing a product that has no row leaves the cart unchanged |
| LegacyCart.SetQty | project-ecommerce/frontend/src/cart/CartContext.tsx:29 | rewrites the qty of the product's rows, whatever the value, and keeps every row |
| LegacyCart.Clear | project-ecommerce/frontend/src/cart/CartContext.tsx:30 | the cart is empty |
| LegacyCart.AddTotal | project-ecommerce/frontend/src/cart/CartContext.tsx:19-31 | `add` raises the total by qty times the row's stored price, which for a product already in the cart is the price it was first added at |
| LegacyCart.OperationsKeepUnique | project-ecommerce/frontend/src/cart/CartContext.tsx:19-30 | `add`, `remove`, `setQty` and `clear` keep one row per product |
| LegacyCart.SetQtyLaws | project-ecommerce/frontend/src/cart/CartContext.tsx:29 | qty 0 keeps the row, and setting a qty twice is setting it once |
| Json.Coalesce | project-ecommerce/frontend/src/features/orders/api.ts:72-74 | `a ?? b` is a unless a is null or undefined |
| Json.Or | project-ecommerce/frontend/src/features/orders/api.ts:121 | `a || b` is a exactly when a is truthy |
| Json.NumberOf | project-ecommerce/frontend/src/features/orders/api.ts:71-72 | `Number(v)`: numbers as themselves, null as 0, booleans as 0/1, undefined as NaN, strings through the number parser |
| Json.CommaToDot | project-ecommerce/frontend/src/features/orders/api.ts:56 | a text without a comma is unchanged; otherwise its first comma, and only that, becomes a point |
| Json.ToNum | project-ecommerce/frontend/src/features/orders/api.ts:54-58 | null for null, undefined and ''; a number as itself; any other string read by the number parser with its first comma as a decimal point |
| Json.ToNumIsNumber | project-ecommerce/frontend/src/features/orders/api.ts:56 | on a number, and on a non-empty string without a comma, `toNum` reads what `Number` reads |
| Json.ToNumDecimalComma | project-ecommerce/frontend/src/features/orders/api.ts:56 | a text "whole,fraction" is read as "whole.fraction", so "1,5" reads as 1.5 |
| Json.Prune | project-ecommerce/frontend/src/features/orders/api.ts:60-66 | keeps no '', null or undefined value |
| Json.PruneKeepsExactly | project-ecommerce/frontend/src/features/orders/api.ts:60-66 | an entry survives exactly when its value is not '', null or undefined, and unchanged |
| Json.PruneConcat | project-ecommerce/frontend/src/features/orders/api.ts:62-64 | pruning works entry by entry, keeping the survivors' order |
| Json.PruneIdempotent | project-ecommerce/frontend/src/features/orders/api.ts:60-66 | pruning twice is pruning once, and 0 and false are kept |
| Json.PruneKey | project-ecommerce/frontend/src/features/users/api.ts:33-39 | a key that occurs once is sent with its value exactly when the value is kept |
| ApiLists.Envelope | project-ecommerce/frontend/src/features/orders/api.ts:113-116 | `raw.data` replaces the response only when it carries an items or rows array |
| ApiLists.CoerceListAndTotal | project-ecommerce/frontend/src/features/orders/api.ts:111-122 | throws exactly on null or undefined; an array is its own list with its length; otherwise the first items source, with its truthy total or else the list's length |
| ApiLists.ItemsTotalShape | project-ecommerce/frontend/src/features/users/api.ts:59-82 | `{ items, total }` yields the items and the total, a total of 0 being replaced by the length |
| ApiLists.RowsCountShape | project-ecommerce/frontend/src/features/users/api.ts:59-82 | `{ rows, count }` reads like `{ items, total }` |
| ApiLists.DataEnvelopeShape | project-ecommerce/frontend/src/features/orders/api.ts:113-121 | `{ data: { items, total } }` is unwrapped to its inner object |
| ApiLists.NonArrayItemsShape | project-ecommerce/frontend/src/features/orders/api.ts:117-120 | an items field that is not an array yields no rows and a total of 0 |
| ApiLists.JsSlice | project-ecommerce/frontend/src/features/orders/api.ts:152 | `slice` with negative indices counted from the end and both ends clamped |
| ApiLists.PageRows | project-ecommerce/frontend/src/features/orders/api.ts:148-153 | a server-paged response is shown whole; otherwise page p shows at most limit rows, row i being row (p-1)*limit+i, and a full page when enough rows remain |
| ApiLists.NonPositivePages | project-ecommerce/frontend/src/features/orders/api.ts:149-153 | a client-side page 0 is empty, and page -1 shows the rows before the last limit |
| ApiLists.ConsecutivePages | project-ecommerce/frontend/src/features/users/api.ts:105-111 | client-side pages tile the list: page p+1 starts where page p ends |
| OrdersApi.NormalizeItem | project-ecommerce/frontend/src/features/orders/api.ts:70-74 | numeric `quantity`, `unitPrice` and `lineTotal` are taken as sent; with neither `quantity` nor `qty` the quantity is 0; a missing lineTotal is unitPrice times `quantity` |
| OrdersApi.NormalizeOrder | project-ecommerce/frontend/src/features/orders/api.ts:68-108 | throws exactly on a null order or line; subtotal is the server's, else the sum of line totals; total is the server's `total` (or `totalValue` when that is missing) whenever it reads as a number, else the subtotal; totalItems sums the quantities; status defaults to "pending" |
| OrdersApi.RenderedSums | project-ecommerce/frontend/src/features/orders/api.ts:69-91 | normalizing the rendered rows gives back the stored line totals and quantities, so the frontend's sums equal the backend's |
| OrdersApi.NormalizeRendered | project-ecommerce/frontend/src/features/orders/api.ts:86-102 | an order as the backend renders it normalizes to its own subtotal and total and to the sum of its quantities |
| OrdersApi.NormalizeStoredOrder | project-ecommerce/frontend/src/features/orders/api.ts:68-108 | for an order of a valid database the UI shows the stored subtotal, total and totalItems, and the subtotal is the sum of the rows' line totals |
| OrdersApi.TotalsFromLines | project-ecommerce/frontend/src/features/orders/api.ts:86-102 | an order sent without totals gets subtotal and total as the sum of quantity times unit price and totalItems as the sum of quantities |
| OrdersApi.BareSums | project-ecommerce/frontend/src/features/orders/api.ts:72-91 | rows sent with only quantity and unit price normalize to line totals summing to the sum of quantity times price |
| OrdersApi.QtyAliasLineTotal | project-ecommerce/frontend/src/features/orders/api.ts:72-74 | a line giving its quantity as `qty` keeps it, but its fallback lineTotal reads `quantity` alone and is 0 |
| OrdersApi.ListParams | project-ecommerce/frontend/src/features/orders/api.ts:131-142 | no parameter sent is '', null or undefined |
| OrdersApi.ListParamsWindow | project-ecommerce/frontend/src/features/orders/api.ts:128-133 | page and limit are always sent, 1 and 12 by default |
| OrdersApi.ListParamsAliases | project-ecommerce/frontend/src/features/orders/api.ts:139-140 | skip is (page-1)*limit and take is limit |
| OrdersApi.ListParamsFilters | project-ecommerce/frontend/src/features/orders/api.ts:134-135 | search and status are sent exactly when given and not empty |
| OrdersApi.ListParamsCustomer | project-ecommerce/frontend/src/features/orders/api.ts:137 | customerId is the given one, else userId, and absent when neither is given |
| OrdersApi.ListOrders | project-ecommerce/frontend/src/features/orders/api.ts:127-158 | throws exactly when the body is null or undefined or a row of the page cannot be read; page and limit as asked (1 and 12 by default); the total is the coerced one; every shown order is the normalization of its row of the page |
| OrdersApi.ClientPagedOrders | project-ecommerce/frontend/src/features/orders/api.ts:148-157 | a bare array is paged on the client: page p shows the orders from (p-1)*limit on, and the total is the array's length |
| OrdersApi.WrappedPageIsSlicedAgain | project-ecommerce/frontend/src/features/orders/api.ts:146-153 | `{ data: { items, total } }` is unwrapped for the list but sliced again on the client, so page 2 of a server's page 2 shows nothing |
| OrdersApi.CreateOrderFromCart | project-ecommerce/frontend/src/features/orders/api.ts:229-252 | throws before any request when the customer id is missing or 0, then when the cart is empty; otherwise the order body carries the customer as userId and customerId and the status (ABERTO by default), and one item body per line in order |
| UsersApi.NormalizeCustomer | project-ecommerce/frontend/src/features/users/api.ts:42-51 | throws exactly on null; username is `name`, else `username`, else ''; email and role default to null |
| UsersApi.NormalizeStoredCustomer | project-ecommerce/frontend/src/features/users/api.ts:42-51 | a customer as the backend sends it becomes the user with its id, name as username, its email and no role |
| UsersApi.EmptyNameWins | project-ecommerce/frontend/src/features/users/api.ts:45 | an empty `name` wins over a non-empty `username`, since `??` only skips null and undefined |
| UsersApi.ListParams | project-ecommerce/frontend/src/features/users/api.ts:91-98 | no parameter sent is '', null or undefined |
| UsersApi.ListParamsWindow | project-ecommerce/frontend/src/features/users/api.ts:86-95 | page and limit are always sent, 1 and 12 by default, and skip is (page-1)*limit |
| UsersApi.ListParamsSearch | project-ecommerce/frontend/src/features/users/api.ts:94 | the search is sent exactly when given and not empty |
| UsersApi.ListUsers | project-ecommerce/frontend/src/features/users/api.ts:85-121 | throws exactly when the body is null or undefined or a row of the page is; page and limit as asked; the total is the coerced one; every user shown is the normalization of its row of the page |
| UsersApi.ServerPagedUsers | project-ecommerce/frontend/src/features/users/api.ts:103-113 | `{ items, total }` is shown whole with the server's total (the row count when that is 0) |
| UsersApi.TrimmedName | project-ecommerce/frontend/src/features/users/api.ts:132 | `username?.trim()`: present exactly when the username is, and then trimmed |
| UsersApi.Body | project-ecommerce/frontend/src/features/users/api.ts:131-135 | at most the three fields, none of them '', null or undefined |
| UsersApi.BodyFields | project-ecommerce/frontend/src/features/users/api.ts:131-135 | name, email and role are each sent exactly when given and not empty |
| UsersApi.UserBodyName | project-ecommerce/frontend/src/features/users/api.ts:131-132 | the name is sent exactly when a username is given and not blank, and then trimmed |
| UsersApi.UserBodyNameIsClean | project-ecommerce/frontend/src/features/users/api.ts:141-147 | a name sent is never empty and neither starts nor ends with white space |

## Left out

- HTTP, dependency injection, controllers, DTO validation and authentication are left out. Each
  service call is a function of the database snapshot, and each frontend helper is a function
  of the server's response.
- How the repositories build SQL is left out: the `LIKE` search, the category and price filters
  of `findPaged`, and the customer, status and text filters of the compiled orders `findAll`.
  The rows a query matches are an input, in the order the query sorts them.
- Money is integer cents, so `toFixed(2)`, decimal strings and float rounding are not modelled.
- `Number(string)` is the `NumberParser` parameter, and NaN and Infinity are its `None`. The
  helpers' numbers are integers.
- Transactions and concurrency are left out: `pay`'s query runner becomes one atomic update after
  the stock pre-check, and two requests never interleave.
- `list`/`get` of the orders service, the compiled products `findAll`/`findOne`/`create`, and the
  source products `create` only read or insert rows. They carry no rule beyond what `Orders.Create`
  and `Products.FindOne` state.
- `normalizeOrder`'s `code`, `userId`, `customer`, `createdAt`/`updatedAt` and per-line product and
  id fields are left out, as are `normalizeCustomer`'s timestamps. They are copied through with `??`
  defaults and do not feed any total.
- `getOrder`, `createOrder`, `updateOrder`, `deleteOrderApi`, `addOrderItemApi`, `getUser` and
  `deleteUserApi` are single requests followed by `normalizeOrder` or `normalizeCustomer`. Their
  bodies are the `prune` of fixed fields that `CreateOrderFromCart` and `UsersApi.Body` already show.
- The cart's `localStorage` load and save, React state plumbing and rendering are left out.
- Text.ToUpper: `toUpperCase` is modelled only for a–z and U+017F, the characters that upper-case
  to A, S or C. Other characters that JavaScript upper-cases (é to É, ß to SS) are left as they
  are, which never changes whether a text upper-cases to ASC.
- Orders.Shortfall: the rows of `order.items` are taken in ascending id order. The relation is
  loaded with no ORDER BY, so the database may hand `pay` another order; that order decides which
  product the "Insufficient stock for product" message names, though not whether `pay` fails.
- The compiled products `remove` deletes by id and is "not found" when nothing was deleted; under
  the same RESTRICT key it fails and succeeds exactly as `Products.Remove` does.
- Products.FindAll: the search term is `ListQueryOf`'s business. `FindAll` is given the rows that
  term matched, so its contract does not mention the term.
- OrdersApi.NormalizeItem: only the fields that feed the totals are modelled: quantity, unitPrice
  and lineTotal.

=== FILE: addresses.dfy ===
/** `AddressesService` (src/modules/addresses/addresses.service.ts): a
    customer's addresses, of which at most one is the default. Creating or
    updating an address as the default first clears the flag on the
    customer's other addresses. */
module Addresses {
  import opened Wrappers
  import opened Entities

  /** The `addresses` table, the ids of `customers`, and the next address id. */
  datatype AddressBook = AddressBook(customers: set<Id>, addresses: map<Id, Address>, nextId: Id)

  /** The body of a create request (`isDefault` defaults to false). */
  datatype NewAddress = NewAddress(
    street: string, number: string, complement: Option<string>, district: string,
    city: string, state: string, zipCode: string, isDefault: bool)

  /** The body of an update request; `None` leaves a column as it is. */
  datatype AddressPatch = AddressPatch(
    street: Option<string>, number: Option<string>, complement: Option<string>,
    district: Option<string>, city: Option<string>, state: Option<string>,
    zipCode: Option<string>, isDefault: Option<bool>)

  /** No customer has two default addresses. */
  predicate OneDefault(addresses: map<Id, Address>) {
    forall a: Id, b: Id ::
      (a in addresses && b in addresses && addresses[a].customer == addresses[b].customer
       && addresses[a].isDefault && addresses[b].isDefault) ==> a == b
  }

  /** Ids are below the auto-increment counter and every address has its customer. */
  predicate Valid(book: AddressBook) {
    && (forall id :: id in book.addresses ==> id < book.nextId && book.addresses[id].customer in book.customers)
    && OneDefault(book.addresses)
  }

  /** `update({ customer, isDefault: true }, { isDefault: false })`. */
  function ClearDefaults(addresses: map<Id, Address>, customer: Id): (m: map<Id, Address>)
    ensures m.Keys == addresses.Keys
    ensures forall id :: id in m && addresses[id].customer == customer ==>
      m[id] == addresses[id].(isDefault := false)
    ensures forall id :: id in m && addresses[id].customer != customer ==> m[id] == addresses[id]
  {
    map id | id in addresses ::
      if addresses[id].customer == customer then addresses[id].(isDefault := false) else addresses[id]
  }

  /** `get`. */
  function Get(book: AddressBook, id: Id): (r: Result<Address, Error>)
    ensures r.Ok? <==> id in book.addresses
    ensures r.Ok? ==> r.value == book.addresses[id]
    ensures r.Err? ==> r.error == NotFound(AddressEntity)
  {
    if id in book.addresses then Ok(book.addresses[id]) else Err(NotFound(AddressEntity))
  }

  /** `create`: a new address for an existing customer; when it is the
      default, the customer's other addresses stop being default. */
  function Create(book: AddressBook, customer: Id, dto: NewAddress): (r: Result<(AddressBook, Id), Error>)
    ensures r.Ok? <==> customer in book.customers
    ensures r.Err? ==> r.error == NotFound(CustomerEntity)
    ensures r.Ok? ==> var (book', id) := r.value;
      && id == book.nextId && book'.nextId == id + 1
      && book'.customers == book.customers
      && book'.addresses.Keys == book.addresses.Keys + {id}
      && book'.addresses[id] == Address(customer, dto.street, dto.number, dto.complement, dto.district,
                                        dto.city, dto.state, dto.zipCode, dto.isDefault)
      && (forall k :: k in book.addresses && k != id && book.addresses[k].customer != customer ==>
            book'.addresses[k] == book.addresses[k])
      && (forall k :: k in book.addresses && k != id && book.addresses[k].customer == customer ==>
            book'.addresses[k] == book.addresses[k].(isDefault := book.addresses[k].isDefault && !dto.isDefault))
  {
    if customer !in book.customers then Err(NotFound(CustomerEntity))
    else
      var cleared := if dto.isDefault then ClearDefaults(book.addresses, customer) else book.addresses;
      var a := Address(customer, dto.street, dto.number, dto.complement, dto.district,
                       dto.city, dto.state, dto.zipCode, dto.isDefault);
      Ok((book.(addresses := cleared[book.nextId := a], nextId := book.nextId + 1), book.nextId))
  }

  /** `Object.assign(addr, dto)`. */
  function Patch(a: Address, p: AddressPatch): (b: Address)
    ensures b.customer == a.customer
    ensures b.isDefault == p.isDefault.GetOr(a.isDefault)
    ensures b.street == p.street.GetOr(a.street) && b.number == p.number.GetOr(a.number)
    ensures b.complement == (if p.complement.Some? then p.complement else a.complement)
    ensures b.district == p.district.GetOr(a.district) && b.city == p.city.GetOr(a.city)
    ensures b.state == p.state.GetOr(a.state) && b.zipCode == p.zipCode.GetOr(a.zipCode)
  {
    Address(a.customer, p.street.GetOr(a.street), p.number.GetOr(a.number),
            if p.complement.Some? then p.complement else a.complement,
            p.district.GetOr(a.district), p.city.GetOr(a.city), p.state.GetOr(a.state),
            p.zipCode.GetOr(a.zipCode), p.isDefault.GetOr(a.isDefault))
  }

  /** `update`: overwrite the given columns; `isDefault === true` first clears
      the flag on all of the customer's addresses. */
  function Update(book: AddressBook, id: Id, p: AddressPatch): (r: Result<AddressBook, Error>)
    ensures r.Ok? <==> id in book.addresses
    ensures r.Err? ==> r.error == NotFound(AddressEntity)
    ensures r.Ok? ==> var book' := r.value; var owner := book.addresses[id].customer;
      && book'.customers == book.customers && book'.nextId == book.nextId
      && book'.addresses.Keys == book.addresses.Keys
      && book'.addresses[id] == Patch(book.addresses[id], p)
      && (forall k :: k in book.addresses && k != id && (book.addresses[k].customer != owner || p.isDefault != Some(true)) ==>
            book'.addresses[k] == book.addresses[k])
      && (forall k :: k in book.addresses && k != id && book.addresses[k].customer == owner && p.isDefault == Some(true) ==>
            book'.addresses[k] == book.addresses[k].(isDefault := false))
  {
    var a :- Get(book, id);
    var cleared := if p.isDefault == Some(true) then ClearDefaults(book.addresses, a.customer) else book.addresses;
    Ok(book.(addresses := cleared[id := Patch(a, p)]))
  }

  /** `remove`. */
  function Remove(book: AddressBook, id: Id): (r: Result<AddressBook, Error>)
    ensures r.Ok? <==> id in book.addresses
    ensures r.Err? ==> r.error == NotFound(AddressEntity)
    ensures r.Ok? ==>
      && r.value.addresses.Keys == book.addresses.Keys - {id}
      && (forall k :: k in r.value.addresses ==> r.value.addresses[k] == book.addresses[k])
  {
    var _ :- Get(book, id);
    Ok(book.(addresses := book.addresses - {id}))
  }

  /** The addresses of `customer` with the given flag and an id below `bound`, highest id first. */
  function Scan(addresses: map<Id, Address>, customer: Id, isDefault: bool, bound: nat): (rows: seq<(Id, Address)>)
    ensures forall i :: 0 <= i < |rows| ==>
      && rows[i].0 < bound && rows[i].0 in addresses && addresses[rows[i].0] == rows[i].1
      && rows[i].1.customer == customer && rows[i].1.isDefault == isDefault
    ensures forall id: Id :: (id < bound && id in addresses && addresses[id].customer == customer
                             && addresses[id].isDefault == isDefault) ==>
      (id, addresses[id]) in rows
    ensures forall i, j :: 0 <= i < j < |rows| ==> rows[i].0 > rows[j].0
  {
    if bound == 0 then []
    else
      var id := bound - 1;
      var rest := Scan(addresses, customer, isDefault, id);
      if id in addresses && addresses[id].customer == customer && addresses[id].isDefault == isDefault then
        [(id, addresses[id])] + rest
      else rest
  }

  /** `listByCustomer`: the customer's addresses ordered by `isDefault DESC, id DESC`. */
  function ListByCustomer(book: AddressBook, customer: Id): (rows: seq<(Id, Address)>)
    ensures forall i :: 0 <= i < |rows| ==>
      rows[i].0 in book.addresses && book.addresses[rows[i].0] == rows[i].1 && rows[i].1.customer == customer
    ensures forall id: Id :: id < book.nextId && id in book.addresses && book.addresses[id].customer == customer ==>
      (id, book.addresses[id]) in rows
    ensures forall i, j :: 0 <= i < j < |rows| ==>
      (rows[i].1.isDefault && !rows[j].1.isDefault) || (rows[i].1.isDefault == rows[j].1.isDefault && rows[i].0 > rows[j].0)
  {
    var defaults := Scan(book.addresses, customer, true, book.nextId);
    var others := Scan(book.addresses, customer, false, book.nextId);
    DefaultsThenOthers(defaults, others);
    defaults + others
  }

  /** Defaults before non-defaults, each run by descending id, is the
      `isDefault DESC, id DESC` order. */
  lemma DefaultsThenOthers(defaults: seq<(Id, Address)>, others: seq<(Id, Address)>)
    requires forall i :: 0 <= i < |defaults| ==> defaults[i].1.isDefault
    requires forall i :: 0 <= i < |others| ==> !others[i].1.isDefault
    requires forall i, j :: 0 <= i < j < |defaults| ==> defaults[i].0 > defaults[j].0
    requires forall i, j :: 0 <= i < j < |others| ==> others[i].0 > others[j].0
    ensures var rows := defaults + others;
      && (forall i :: |defaults| <= i < |rows| ==> rows[i] == others[i - |defaults|])
      && forall i, j :: 0 <= i < j < |rows| ==>
           (rows[i].1.isDefault && !rows[j].1.isDefault) || (rows[i].1.isDefault == rows[j].1.isDefault && rows[i].0 > rows[j].0)
  {
    var rows := defaults + others;
    assert forall i :: |defaults| <= i < |rows| ==> rows[i] == others[i - |defaults|];
  }

  /** In a valid book the listing holds at most one default, and it comes first. */
  lemma {:induction false} ListHasOneDefault(book: AddressBook, customer: Id)
    requires Valid(book)
    ensures var rows := ListByCustomer(book, customer);
      forall i :: 0 < i < |rows| ==> !rows[i].1.isDefault
  {
    var rows := ListByCustomer(book, customer);
    forall i | 0 < i < |rows|
      ensures !rows[i].1.isDefault
    {
      assert (rows[0].1.isDefault && !rows[i].1.isDefault)
          || (rows[0].1.isDefault == rows[i].1.isDefault && rows[0].0 > rows[i].0);
    }
  }

  /** `create` and `update` keep every customer to at most one default. */
  lemma {:induction false} CreateKeepsValid(book: AddressBook, customer: Id, dto: NewAddress)
    requires Valid(book)
    requires Create(book, customer, dto).Ok?
    ensures var (book', id) := Create(book, customer, dto).value;
      && Valid(book')
      && (dto.isDefault ==> forall k :: k in book'.addresses && k != id && book'.addresses[k].customer == customer ==>
            !book'.addresses[k].isDefault)
  {
    var (book', id) := Create(book, customer, dto).value;
    forall a: Id, b: Id |
      (a in book'.addresses && b in book'.addresses && book'.addresses[a].customer == book'.addresses[b].customer
       && book'.addresses[a].isDefault && book'.addresses[b].isDefault)
      ensures a == b
    {
      if a != id && b != id {
        assert book.addresses[a].isDefault && book.addresses[b].isDefault;
      }
    }
  }

  lemma {:induction false} UpdateKeepsValid(book: AddressBook, id: Id, p: AddressPatch)
    requires Valid(book)
    requires Update(book, id, p).Ok?
    ensures var book' := Update(book, id, p).value;
      && Valid(book')
      && (p.isDefault == Some(true) ==>
            && book'.addresses[id].isDefault
            && forall k :: k in book'.addresses && k != id && book'.addresses[k].customer == book.addresses[id].customer ==>
                 !book'.addresses[k].isDefault)
  {
    var book' := Update(book, id, p).value;
    forall a: Id, b: Id |
      (a in book'.addresses && b in book'.addresses && book'.addresses[a].customer == book'.addresses[b].customer
       && book'.addresses[a].isDefault && book'.addresses[b].isDefault)
      ensures a == b
    {
      if a != id && b != id {
        assert book.addresses[a].isDefault && book.addresses[b].isDefault;
      } else if p.isDefault != Some(true) {
        assert book.addresses[a].isDefault && book.addresses[b].isDefault;
      }
    }
  }
}

=== FILE: api_lists.dfy ===
/** The list plumbing shared by the orders and users API helpers of the
    frontend (frontend/src/features/orders/api.ts and
    frontend/src/features/users/api.ts carry identical copies):
    `coerceListAndTotal`, which accepts a bare array or one of several
    envelope shapes, and the client-side page slice taken when the server
    did not paginate. */
module ApiLists {
  import opened Wrappers
  import opened Json
  import Paging

  /** Why a helper throws: a property read on null or undefined, or an
      `Error` raised with a message. */
  datatype Throw = PropertyOfNullish | Error(message: string)

  /** `{ itemsRaw, total }`; a `None` total is NaN. */
  datatype Listing = Listing(itemsRaw: seq<Json>, total: Option<int>)

  /** The object the list is read from: `raw.data` when that is truthy and
      carries an `items` or `rows` array, `raw` otherwise. */
  function Envelope(raw: Json): (r: Json)
    ensures r == raw || r == Get(raw, "data")
    ensures r != raw ==> Get(r, "items").Arr? || Get(r, "rows").Arr?
  {
    var data := Get(raw, "data");
    if Truthy(data) && (Get(data, "items").Arr? || Get(data, "rows").Arr?) then data else raw
  }

  /** Where the list sits in a response: the first of `items`, `rows`,
      `results` and `data` that is not null or undefined; failing all four,
      the response itself when it is an array, else an empty array. */
  function ItemsSource(r: Json): Json {
    Coalesce(Get(r, "items"), Coalesce(Get(r, "rows"), Coalesce(Get(r, "results"),
      Coalesce(Get(r, "data"), if r.Arr? then r else Arr([])))))
  }

  /** Where the count sits in a response: the first of `total`, `count`,
      `totalCount` and `meta.total` that is not null or undefined; failing
      all four, the length of the list when it is an array, else 0. */
  function TotalSource(r: Json, items: Json): Json {
    Coalesce(Get(r, "total"), Coalesce(Get(r, "count"), Coalesce(Get(r, "totalCount"),
      Coalesce(Get(Get(r, "meta"), "total"), if items.Arr? then Num(|items.elems|) else Num(0)))))
  }

  /** `coerceListAndTotal`. */
  function CoerceListAndTotal(raw: Json, parse: NumberParser): (res: Result<Listing, Throw>)
    ensures res.Err? <==> Nullish(raw)
    ensures res.Err? ==> res.error == PropertyOfNullish
    ensures raw.Arr? ==> res == Ok(Listing(raw.elems, Some(|raw.elems|)))
    ensures res.Ok? && !raw.Arr? ==>
      var items := ItemsSource(Envelope(raw));
      && res.value.itemsRaw == (if items.Arr? then items.elems else [])
      && (Truthy(TotalSource(Envelope(raw), items)) ==>
            res.value.total == NumberOf(TotalSource(Envelope(raw), items), parse))
      && (!Truthy(TotalSource(Envelope(raw), items)) ==> res.value.total == Some(|res.value.itemsRaw|))
  {
    if raw.Arr? then Ok(Listing(raw.elems, Some(|raw.elems|)))
    else if Nullish(raw) then Err(PropertyOfNullish)
    else
      var r := Envelope(raw);
      var items := ItemsSource(r);
      var total := TotalSource(r, items);
      if !items.Arr? then Ok(Listing([], NumberOf(Or(total, Num(0)), parse)))
      else Ok(Listing(items.elems, NumberOf(Or(total, Or(Num(|items.elems|), Num(0))), parse)))
  }

  /** `{ items, total }` yields its array and its total, except that a total
      of 0 over a non-empty array is replaced by the array's length (the
      `||` fallback). */
  lemma ItemsTotalShape(xs: seq<Json>, n: int, parse: NumberParser)
    ensures CoerceListAndTotal(Obj(map["items" := Arr(xs), "total" := Num(n)]), parse)
      == Ok(Listing(xs, Some(if n != 0 then n else |xs|)))
  {
    var raw := Obj(map["items" := Arr(xs), "total" := Num(n)]);
    assert Get(raw, "data") == Undefined;
    assert Envelope(raw) == raw;
    assert ItemsSource(raw) == Arr(xs);
    assert TotalSource(raw, Arr(xs)) == Num(n);
  }

  /** `{ rows, count }` reads like `{ items, total }`. */
  lemma RowsCountShape(xs: seq<Json>, n: int, parse: NumberParser)
    ensures CoerceListAndTotal(Obj(map["rows" := Arr(xs), "count" := Num(n)]), parse)
      == Ok(Listing(xs, Some(if n != 0 then n else |xs|)))
  {
    var raw := Obj(map["rows" := Arr(xs), "count" := Num(n)]);
    assert Get(raw, "data") == Undefined;
    assert Envelope(raw) == raw;
    assert Get(raw, "items") == Undefined;
    assert ItemsSource(raw) == Arr(xs);
    assert Get(raw, "total") == Undefined;
    assert TotalSource(raw, Arr(xs)) == Num(n);
  }

  /** `{ data: { items, total } }` is unwrapped to its inner object. */
  lemma DataEnvelopeShape(xs: seq<Json>, n: int, parse: NumberParser)
    ensures CoerceListAndTotal(Obj(map["data" := Obj(map["items" := Arr(xs), "total" := Num(n)])]), parse)
      == Ok(Listing(xs, Some(if n != 0 then n else |xs|)))
  {
    var inner := Obj(map["items" := Arr(xs), "total" := Num(n)]);
    var raw := Obj(map["data" := inner]);
    assert Get(raw, "data") == inner;
    assert Get(inner, "items") == Arr(xs);
    assert Envelope(raw) == inner;
    assert ItemsSource(inner) == Arr(xs);
    assert TotalSource(inner, Arr(xs)) == Num(n);
  }

  /** An items field that is not an array yields no rows and a total of 0. */
  lemma NonArrayItemsShape(n: int, parse: NumberParser)
    ensures CoerceListAndTotal(Obj(map["items" := Num(n)]), parse) == Ok(Listing([], Some(0)))
  {
    var raw := Obj(map["items" := Num(n)]);
    assert Get(raw, "data") == Undefined;
    assert Envelope(raw) == raw;
    assert ItemsSource(raw) == Num(n);
    assert Get(raw, "meta") == Undefined;
    assert TotalSource(raw, Num(n)) == Num(0);
  }

  /** `Array.prototype.slice`'s reading of an index: negative counts from the
      end, and the result is clamped into [0, len]. */
  function RelIndex(k: int, len: nat): (i: nat)
    ensures i <= len
    ensures 0 <= k <= len ==> i == k
    ensures k > len ==> i == len
    ensures k < 0 ==> i == (if len + k < 0 then 0 else len + k)
  {
    if k < 0 then (if len + k < 0 then 0 else len + k)
    else if k > len then len
    else k
  }

  /** `xs.slice(start, end)`. */
  function JsSlice<T>(xs: seq<T>, start: int, end: int): (r: seq<T>)
    ensures |r| <= |xs|
    ensures RelIndex(start, |xs|) <= RelIndex(end, |xs|) ==> r == xs[RelIndex(start, |xs|)..RelIndex(end, |xs|)]
    ensures RelIndex(start, |xs|) > RelIndex(end, |xs|) ==> r == []
  {
    var s := RelIndex(start, |xs|);
    var e := RelIndex(end, |xs|);
    if s <= e then xs[s..e] else []
  }

  /** Whether the list helpers paginate on the client: the response had
      neither an `items` nor a `rows` field. */
  predicate ClientSide(data: Json) {
    Nullish(Get(data, "items")) && Nullish(Get(data, "rows"))
  }

  /** The rows of the requested page: the listing itself, or its slice from
      `(page - 1) * limit` of `limit` rows when the server did not paginate. */
  function PageRows(data: Json, rows: seq<Json>, page: int, limit: int): (out: seq<Json>)
    ensures !ClientSide(data) ==> out == rows
    ensures ClientSide(data) && page >= 1 && limit >= 0 ==>
      && |out| <= limit
      && (forall i :: 0 <= i < |out| ==> 0 <= (page - 1) * limit + i < |rows| && out[i] == rows[(page - 1) * limit + i])
      && ((page - 1) * limit + limit <= |rows| ==> |out| == limit)
  {
    if ClientSide(data) then
      var start := (page - 1) * limit;
      if page >= 1 && limit >= 0 then Paging.NonNegativeProduct(page - 1, limit); JsSlice(rows, start, start + limit)
      else JsSlice(rows, start, start + limit)
    else rows
  }

  /** Page 0 asks `slice` for the window from `-limit` to 0, which ends at
      index 0, so the client-side page is empty however many rows there are;
      page -1 counts back from the end and shows the rows before the last
      `limit`. */
  lemma NonPositivePages(data: Json, rows: seq<Json>, limit: int)
    requires ClientSide(data) && limit > 0
    ensures PageRows(data, rows, 0, limit) == []
    ensures 2 * limit <= |rows| ==> PageRows(data, rows, -1, limit) == rows[|rows| - 2 * limit..|rows| - limit]
  {
  }

  /** The client-side pages of limit `limit` tile the listing: page `p + 1`
      starts where page `p` ends. */
  lemma {:induction false} ConsecutivePages(data: Json, rows: seq<Json>, page: int, limit: int)
    requires ClientSide(data) && page >= 1 && limit >= 0
    requires page * limit + limit <= |rows|
    ensures PageRows(data, rows, page, limit) + PageRows(data, rows, page + 1, limit)
         == rows[(page - 1) * limit..(page + 1) * limit]
  {
    Paging.NonNegativeProduct(page - 1, limit);
    var start := (page - 1) * limit;
    assert page * limit == start + limit;
    assert (page + 1) * limit == start + 2 * limit;
    assert PageRows(data, rows, page, limit) == rows[start..start + limit];
    assert PageRows(data, rows, page + 1, limit) == rows[start + limit..start + 2 * limit];
  }
}

=== FILE: cart.dfy ===
/** The shopping cart of the app shell (frontend/src/app/cart/CartContext.tsx):
    a list of rows, one per product, changed only through `reducer`, with
    `inc`/`dec` built on `SET_QTY` and the totals derived from the rows.
    Prices are integer cents. */
module Cart {
  import opened Wrappers

  datatype CartItem = CartItem(productId: int, name: string, price: int, imageUrl: Option<string>, qty: int)

  /** The ADD payload is a row without `qty` plus an optional `qty` (default 1). */
  datatype Action =
    | Add(productId: int, name: string, price: int, imageUrl: Option<string>, amount: Option<int>)
    | Remove(productId: int)
    | SetQty(productId: int, qty: int)
    | Clear
    | Unrecognized  // an action of any other type

  /** The productId of every row differs from every other row's. */
  predicate Unique(items: seq<CartItem>) {
    forall i, j :: 0 <= i < j < |items| ==> items[i].productId != items[j].productId
  }

  predicate Has(items: seq<CartItem>, productId: int) {
    exists i :: 0 <= i < |items| && items[i].productId == productId
  }

  /** `findIndex`: the first row of the product. */
  function FindIndex(items: seq<CartItem>, productId: int): (r: Option<nat>)
    ensures r.Some? ==> r.value < |items| && items[r.value].productId == productId
    ensures r.Some? ==> forall k :: 0 <= k < r.value ==> items[k].productId != productId
    ensures r.None? <==> !Has(items, productId)
  {
    if items == [] then None
    else if items[0].productId == productId then Some(0)
    else
      match FindIndex(items[1..], productId)
      case None => None
      case Some(i) => Some(i + 1)
  }

  /** The cart without the rows of the product, the others in order. */
  function Without(items: seq<CartItem>, productId: int): (r: seq<CartItem>)
    ensures |r| <= |items|
    ensures forall x :: x in r <==> x in items && x.productId != productId
    ensures !Has(r, productId)
  {
    if items == [] then []
    else
      var rest := Without(items[1..], productId);
      if items[0].productId == productId then rest else [items[0]] + rest
  }

  /** Filtering keeps the surviving rows in their order. */
  lemma {:induction false} WithoutConcat(a: seq<CartItem>, b: seq<CartItem>, productId: int)
    ensures Without(a + b, productId) == Without(a, productId) + Without(b, productId)
  {
    if a != [] {
      assert (a + b)[1..] == a[1..] + b;
      WithoutConcat(a[1..], b, productId);
    } else {
      assert a + b == b;
    }
  }

  /** Filtering out a product that has no row changes nothing. */
  lemma {:induction false} WithoutAbsent(items: seq<CartItem>, productId: int)
    requires !Has(items, productId)
    ensures Without(items, productId) == items
  {
    if items != [] {
      assert !Has(items[1..], productId) by {
        forall i | 0 <= i < |items[1..]|
          ensures items[1..][i].productId != productId
        {
          assert items[1..][i] == items[i + 1];
        }
      }
      WithoutAbsent(items[1..], productId);
    }
  }

  /** Every row of the product gets the new quantity; the other rows stay. */
  function WithQty(items: seq<CartItem>, productId: int, qty: int): (r: seq<CartItem>)
    ensures |r| == |items|
    ensures forall i :: 0 <= i < |items| ==>
      r[i] == if items[i].productId == productId then items[i].(qty := qty) else items[i]
  {
    seq(|items|, i requires 0 <= i < |items| =>
      if items[i].productId == productId then items[i].(qty := qty) else items[i])
  }

  /** `reducer`. */
  function Reduce(items: seq<CartItem>, action: Action): (r: seq<CartItem>)
  {
    match action
    case Add(productId, name, price, imageUrl, qty) =>
      var q := qty.GetOr(1);
      (match FindIndex(items, productId)
       case Some(i) => items[i := items[i].(qty := items[i].qty + q)]
       case None => items + [CartItem(productId, name, price, imageUrl, q)])
    case Remove(productId) => Without(items, productId)
    case SetQty(productId, qty) =>
      if qty <= 0 then Without(items, productId) else WithQty(items, productId, qty)
    case Clear => []
    case Unrecognized => items
  }

  /** ADD of a product in the cart raises only that row's qty; ADD of a new
      product appends one row. */
  lemma AddEffect(items: seq<CartItem>, productId: int, name: string, price: int, imageUrl: Option<string>, qty: Option<int>)
    requires Unique(items)
    ensures var r := Reduce(items, Add(productId, name, price, imageUrl, qty));
      if Has(items, productId) then
        && |r| == |items|
        && forall i :: 0 <= i < |items| ==>
             r[i] == if items[i].productId == productId then items[i].(qty := items[i].qty + qty.GetOr(1)) else items[i]
      else
        r == items + [CartItem(productId, name, price, imageUrl, qty.GetOr(1))]
  {
  }

  /** SET_QTY with a positive qty changes only that product's qty; with
      qty <= 0 it removes the product; CLEAR empties the cart, and any other
      action leaves it as it is. */
  lemma SetQtyEffect(items: seq<CartItem>, productId: int, qty: int)
    ensures qty <= 0 ==> !Has(Reduce(items, SetQty(productId, qty)), productId)
    ensures qty > 0 ==> var r := Reduce(items, SetQty(productId, qty));
      && |r| == |items|
      && forall i :: 0 <= i < |items| ==>
           (items[i].productId == productId ==> r[i].qty == qty) && (items[i].productId != productId ==> r[i] == items[i])
    ensures Reduce(items, Clear) == [] && Reduce(items, Unrecognized) == items
  {
  }

  /** Every action keeps one row per product. */
  lemma {:induction false} ReduceKeepsUnique(items: seq<CartItem>, action: Action)
    requires Unique(items)
    ensures Unique(Reduce(items, action))
  {
    match action
    case Add(productId, name, price, imageUrl, qty) => {
      var r := Reduce(items, action);
      if FindIndex(items, productId).None? {
        assert forall i :: 0 <= i < |items| ==> r[i] == items[i];
      }
    }
    case Remove(productId) => WithoutKeepsUnique(items, productId);
    case SetQty(productId, qty) => {
      if qty <= 0 {
        WithoutKeepsUnique(items, productId);
      }
    }
    case Clear => {}
    case Unrecognized => {}
  }

  lemma {:induction false} WithoutKeepsUnique(items: seq<CartItem>, productId: int)
    requires Unique(items)
    ensures Unique(Without(items, productId))
  {
    if items != [] {
      var rest := Without(items[1..], productId);
      WithoutKeepsUnique(items[1..], productId);
      if items[0].productId != productId {
        var r := [items[0]] + rest;
        forall i, j | 0 <= i < j < |r|
          ensures r[i].productId != r[j].productId
        {
          if i == 0 {
            assert r[j] in rest;
            assert r[j] in items[1..];
          } else {
            assert r[i] == rest[i - 1] && r[j] == rest[j - 1];
          }
        }
      }
    }
  }

  /** The row of the product, if any (`find`). */
  function Find(items: seq<CartItem>, productId: int): (r: Option<CartItem>)
    ensures r.Some? <==> Has(items, productId)
    ensures r.Some? ==> r.value in items && r.value.productId == productId
  {
    match FindIndex(items, productId)
    case None => None
    case Some(i) => Some(items[i])
  }

  /** `inc(productId, step)`: SET_QTY to the current qty (0 when absent) plus `step`. */
  function Inc(items: seq<CartItem>, productId: int, step: Option<int>): (r: seq<CartItem>)
  {
    var current := match Find(items, productId) case Some(x) => x.qty case None => 0;
    Reduce(items, SetQty(productId, current + step.GetOr(1)))
  }

  /** `dec(productId, step)`: SET_QTY to the current qty minus `step`, but never below 0. */
  function DecTarget(items: seq<CartItem>, productId: int, step: Option<int>): (q: int)
    ensures q >= 0
    ensures Has(items, productId) && step.GetOr(1) <= Find(items, productId).value.qty ==>
      q == Find(items, productId).value.qty - step.GetOr(1)
    ensures Has(items, productId) && step.GetOr(1) > Find(items, productId).value.qty ==> q == 0
    ensures !Has(items, productId) && step.GetOr(1) >= 0 ==> q == 0
    ensures !Has(items, productId) && step.GetOr(1) < 0 ==> q == -step.GetOr(1)
  {
    var current := match Find(items, productId) case Some(x) => x.qty case None => 0;
    var q := current - step.GetOr(1);
    if q < 0 then 0 else q
  }

  function Dec(items: seq<CartItem>, productId: int, step: Option<int>): (r: seq<CartItem>)
  {
    Reduce(items, SetQty(productId, DecTarget(items, productId, step)))
  }

  /** `inc` and `dec` only ever touch their product's row: `inc` raises it by
      `step`, `dec` lowers it by `step` and removes it once it would reach 0;
      `inc` of a product not in the cart does nothing, since SET_QTY only
      rewrites existing rows. */
  lemma {:induction false} IncDecEffect(items: seq<CartItem>, productId: int, step: Option<int>)
    requires Unique(items)
    ensures Has(items, productId) && Find(items, productId).value.qty + step.GetOr(1) > 0 ==>
      var r := Inc(items, productId, step);
      && |r| == |items|
      && forall i :: 0 <= i < |items| ==>
           r[i] == if items[i].productId == productId then items[i].(qty := items[i].qty + step.GetOr(1)) else items[i]
    ensures !Has(items, productId) && step.GetOr(1) > 0 ==> Inc(items, productId, step) == items
    ensures Has(items, productId) && Find(items, productId).value.qty <= step.GetOr(1) ==>
      Dec(items, productId, step) == Without(items, productId)
  {
    if !Has(items, productId) {
      assert WithQty(items, productId, step.GetOr(1)) == items;
    }
    if Has(items, productId) {
      var i := FindIndex(items, productId).value;
      forall k | 0 <= k < |items| && items[k].productId == productId
        ensures items[k] == items[i]
      {
      }
    }
  }

  function SumQty(items: seq<CartItem>): int {
    if items == [] then 0 else items[0].qty + SumQty(items[1..])
  }

  function Subtotal(items: seq<CartItem>): int {
    if items == [] then 0 else items[0].qty * items[0].price + Subtotal(items[1..])
  }

  lemma {:induction false} SumsOfAppend(a: seq<CartItem>, x: CartItem)
    ensures SumQty(a + [x]) == SumQty(a) + x.qty
    ensures Subtotal(a + [x]) == Subtotal(a) + x.qty * x.price
  {
    if a != [] {
      assert (a + [x])[1..] == a[1..] + [x];
      SumsOfAppend(a[1..], x);
    }
  }

  lemma {:induction false} SumsOfUpdate(a: seq<CartItem>, i: nat, x: CartItem)
    requires i < |a|
    ensures SumQty(a[i := x]) == SumQty(a) - a[i].qty + x.qty
    ensures Subtotal(a[i := x]) == Subtotal(a) - a[i].qty * a[i].price + x.qty * x.price
  {
    if i > 0 {
      assert a[i := x][1..] == a[1..][i - 1 := x];
      SumsOfUpdate(a[1..], i - 1, x);
    }
  }

  /** ADD of `q` units raises the item count by `q` and the subtotal by `q`
      times the price already in the row (or the payload's price for a new row). */
  lemma AddTotals(items: seq<CartItem>, productId: int, name: string, price: int, imageUrl: Option<string>, qty: Option<int>)
    ensures var r := Reduce(items, Add(productId, name, price, imageUrl, qty)); var q := qty.GetOr(1);
      && SumQty(r) == SumQty(items) + q
      && Subtotal(r) == Subtotal(items) + q * (match Find(items, productId) case Some(x) => x.price case None => price)
  {
    var q := qty.GetOr(1);
    match FindIndex(items, productId)
    case Some(i) => {
      var x := items[i].(qty := items[i].qty + q);
      SumsOfUpdate(items, i, x);
      assert x.qty * x.price == items[i].qty * items[i].price + q * items[i].price;
    }
    case None => SumsOfAppend(items, CartItem(productId, name, price, imageUrl, q));
  }

  /** Freight in cents: free for an empty cart and from R$ 200.00 on, else R$ 19.90. */
  function Freight(subtotal: int): int {
    if subtotal == 0 then 0 else if subtotal >= 20000 then 0 else 1990
  }

  /** The coupon discount; always 0 here (applied on the page). */
  const Discount := 0

  /** The derived totals the provider exposes. */
  datatype Totals = Totals(totalItems: int, subtotal: int, freight: int, discount: int, total: int)

  function TotalsOf(items: seq<CartItem>): (t: Totals)
    ensures t.totalItems == SumQty(items) && t.subtotal == Subtotal(items)
    ensures t.freight == 0 || t.freight == 1990
    ensures t.discount == 0
    ensures t.total >= 0
    ensures t.subtotal >= 20000 ==> t.freight == 0 && t.total == t.subtotal
    ensures 0 < t.subtotal < 20000 ==> t.total == t.subtotal + 1990
    ensures t.subtotal == 0 ==> t.total == 0
    ensures t.total == if t.subtotal + t.freight - t.discount < 0 then 0 else t.subtotal + t.freight - t.discount
  {
    var subtotal := Subtotal(items);
    var freight := Freight(subtotal);
    var raw := subtotal + freight - Discount;
    Totals(SumQty(items), subtotal, freight, Discount, if raw < 0 then 0 else raw)
  }

  /** With no row of negative qty or price, the cart's totals are never
      negative and an empty cart costs nothing. */
  lemma {:induction false} TotalsOfPlainCart(items: seq<CartItem>)
    requires forall i :: 0 <= i < |items| ==> items[i].qty >= 0 && items[i].price >= 0
    ensures SumQty(items) >= 0 && Subtotal(items) >= 0
    ensures items == [] ==> TotalsOf(items) == Totals(0, 0, 0, 0, 0)
  {
    if items != [] {
      TotalsOfPlainCart(items[1..]);
      assert items[0].qty * items[0].price >= 0;
    }
  }
}

=== FILE: entities.dfy ===
/** The persisted records of the backend (the entity classes under src/entity) and the two
    exception kinds its services throw. Ids are the auto-increment primary
    keys; money is held in integer cents (the `decimal(12,2)` columns). */
module Entities {
  import opened Wrappers

  type Id = nat

  /** `OrderStatus`: the four values of the `orders.status` enum column. */
  datatype Status = Aberto | AguardandoPagamento | Pago | Cancelado

  datatype Customer = Customer(name: string, email: string)

  datatype Product = Product(
    name: string,
    description: Option<string>,
    price: int,      // cents
    stock: int,
    active: bool,
    imageUrl: Option<string>,
    category: Id)

  /** An order row; `items` are the OrderItem rows that point at it. */
  datatype Order = Order(
    customer: Id,
    status: Status,
    subtotal: int,   // cents
    totalItems: int,
    total: int)      // cents

  datatype OrderItem = OrderItem(
    order: Id,
    product: Id,
    quantity: int,
    unitPrice: int,  // cents, price captured when the row was created
    lineTotal: int)  // cents

  datatype Address = Address(
    customer: Id,
    street: string,
    number: string,
    complement: Option<string>,
    district: string,
    city: string,
    state: string,
    zipCode: string,
    isDefault: bool)

  /** Which record a `NotFoundException` is about. */
  datatype Entity = CustomerEntity | ProductEntity | OrderEntity | ItemEntity
                  | AddressEntity | CategoryEntity

  /** The distinct messages of the `BadRequestException`s. */
  datatype Reason =
    | PaidNotEditable          // 'Paid order cannot be edited'
    | CanceledNotEditable      // 'Canceled order cannot be edited'
    | InsufficientStock        // 'Insufficient stock for product'
    | InsufficientStockFor(product: Id) // 'Insufficient stock for product <id>'
    | NoItems                  // 'Order has no items'
    | PaidCannotChange         // 'Paid order cannot change'

  /** `ForeignKey` is the database refusing a write that would break a
      foreign key: a product pointing at a missing category, or the deletion
      of a product that order rows still point at. */
  datatype Error =
    | NotFound(entity: Entity)
    | BadRequest(reason: Reason)
    | ForeignKey(entity: Entity)
}

=== FILE: json.dfy ===
/** The untyped response data the frontend API helpers take apart (`any` in
    the source), with the JavaScript operations they apply to it: property
    access, `??`, truthiness, `Number(...)`, `String(...)` and `prune`.
    Numbers are integers (money in cents); how a string becomes a number is
    a parameter, the `NumberParser`. */
module Json {
  import opened Wrappers
  import opened Text

  datatype Json =
    | Undefined
    | Null
    | Bool(b: bool)
    | Num(n: int)
    | Str(s: string)
    | Arr(elems: seq<Json>)
    | Obj(fields: map<string, Json>)

  /** `Number(s)` on a string, `None` when that is NaN or infinite. */
  type NumberParser = string -> Option<int>

  /** `v.key` / `v?.key`: a field of an object, `undefined` for anything else. */
  function Get(v: Json, key: string): (r: Json)
    ensures v.Obj? && key in v.fields ==> r == v.fields[key]
    ensures !(v.Obj? && key in v.fields) ==> r == Undefined
  {
    if v.Obj? && key in v.fields then v.fields[key] else Undefined
  }

  /** `v == null`: null or undefined. */
  predicate Nullish(v: Json) {
    v.Undefined? || v.Null?
  }

  /** `a ?? b`. */
  function Coalesce(a: Json, b: Json): (r: Json)
    ensures !Nullish(a) ==> r == a
    ensures Nullish(a) ==> r == b
  {
    if Nullish(a) then b else a
  }

  /** JavaScript truthiness (NaN is not a value of this model). */
  predicate Truthy(v: Json) {
    match v
    case Undefined => false
    case Null => false
    case Bool(b) => b
    case Num(n) => n != 0
    case Str(s) => s != ""
    case Arr(_) => true
    case Obj(_) => true
  }

  /** `a || b`. */
  function Or(a: Json, b: Json): (r: Json)
    ensures Truthy(a) ==> r == a
    ensures !Truthy(a) ==> r == b
  {
    if Truthy(a) then a else b
  }

  /** The decimal digits of a natural number, most significant first, as
      `String(n)` writes them. The contract states only their shape (at
      least one digit, each '0'..'9'); no lemma here depends on the digits'
      value. */
  function NatToText(n: nat): (s: string)
    ensures |s| >= 1
    ensures forall i :: 0 <= i < |s| ==> '0' <= s[i] <= '9'
    decreases n
  {
    var digit := ['0' + (n % 10) as char];
    if n < 10 then digit else NatToText(n / 10) + digit
  }

  /** `String(v)` (`toString`): arrays join their elements with ',' and show
      null and undefined elements as empty. */
  function ToText(v: Json): string
  {
    match v
    case Undefined => "undefined"
    case Null => "null"
    case Bool(b) => if b then "true" else "false"
    case Num(n) => if n < 0 then "-" + NatToText(-n) else NatToText(n)
    case Str(s) => s
    case Arr(elems) => JoinElems(elems)
    case Obj(_) => "[object Object]"
  }

  function JoinElems(elems: seq<Json>): string
    decreases elems
  {
    if elems == [] then ""
    else
      var first := if Nullish(elems[0]) then "" else ToText(elems[0]);
      if |elems| == 1 then first else first + "," + JoinElems(elems[1..])
  }

  /** `Number(v)`; `None` stands for NaN. */
  function NumberOf(v: Json, parse: NumberParser): (r: Option<int>)
    ensures v.Num? ==> r == Some(v.n)
    ensures v.Null? ==> r == Some(0)
    ensures v.Undefined? ==> r.None?
    ensures v.Bool? ==> r == Some(if v.b then 1 else 0)
    ensures v.Str? ==> r == parse(v.s)
  {
    match v
    case Undefined => None
    case Null => Some(0)
    case Bool(b) => Some(if b then 1 else 0)
    case Num(n) => Some(n)
    case Str(s) => parse(s)
    case _ => parse(ToText(v))
  }

  /** The first ',' replaced by '.'. */
  function CommaToDot(s: string): (t: string)
    ensures |t| == |s|
    ensures ',' !in s ==> t == s
    ensures ',' in s ==> exists i :: 0 <= i < |s| && s[i] == ',' && ',' !in s[..i] && t == s[..i] + "." + s[i + 1..]
  {
    if ',' !in s then s
    else
      var i := IndexOf(s, ',');
      s[..i] + "." + s[i + 1..]
  }

  /** `toNum`: null for null, undefined and '', the number for a number,
      and otherwise the string form read as a number with a decimal comma
      allowed, null when that is not finite. */
  function ToNum(v: Json, parse: NumberParser): (r: Option<int>)
    ensures Nullish(v) || v == Str("") ==> r.None?
    ensures v.Num? ==> r == Some(v.n)
    ensures v.Str? && v.s != "" && ',' !in v.s ==> r == parse(v.s)
    ensures v.Str? && v.s != "" ==> r == parse(CommaToDot(v.s))
  {
    if Nullish(v) || v == Str("") then None
    else if v.Num? then Some(v.n)
    else parse(CommaToDot(ToText(v)))
  }

  /** Where `toNum` and `Number` meet: on a number, and on a non-empty
      string without a comma, both read the same value. */
  lemma ToNumIsNumber(v: Json, parse: NumberParser)
    requires v.Num? || (v.Str? && v.s != "" && ',' !in v.s)
    ensures ToNum(v, parse) == NumberOf(v, parse)
  {
  }

  /** The decimal comma: a text with a comma is read as the same text with
      its first comma as a point, so "1,5" reads as "1.5". */
  lemma {:induction false} ToNumDecimalComma(whole: string, fraction: string, parse: NumberParser)
    requires ',' !in whole
    ensures ToNum(Str(whole + "," + fraction), parse) == parse(whole + "." + fraction)
  {
    var s := whole + "," + fraction;
    assert s[|whole|] == ',';
    var i := IndexOf(s, ',');
    assert s[..|whole|] == whole;
    assert forall k :: 0 <= k < |whole| ==> s[k] == whole[k];
    assert i == |whole|;
    assert s[..i] == whole;
    assert s[i + 1..] == fraction;
  }

  /** An optional string field: the string, or undefined. */
  function OptStr(s: Option<string>): (v: Json)
    ensures s.Some? <==> v.Str?
    ensures s.Some? ==> v.s == s.value
    ensures s.None? ==> v == Undefined
  {
    if s.Some? then Str(s.value) else Undefined
  }

  /** An optional number field: the number, or undefined. */
  function OptNum(n: Option<int>): (v: Json)
    ensures n.Some? <==> v.Num?
    ensures n.Some? ==> v.n == n.value
    ensures n.None? ==> v == Undefined
  {
    if n.Some? then Num(n.value) else Undefined
  }

  /** An object's own entries in insertion order (`Object.entries`). */
  type Entries = seq<(string, Json)>

  /** The entries `prune` keeps: neither '' nor null nor undefined. */
  predicate Kept(v: Json) {
    v != Str("") && !Nullish(v)
  }

  /** `prune`: the object without its empty-string, null and undefined entries. */
  function Prune(entries: Entries): (out: Entries)
    ensures |out| <= |entries|
    ensures forall i :: 0 <= i < |out| ==> Kept(out[i].1)
  {
    if entries == [] then []
    else
      var rest := Prune(entries[1..]);
      if Kept(entries[0].1) then [entries[0]] + rest else rest
  }

  /** `prune` keeps exactly the entries whose value is kept, unchanged. */
  lemma {:induction false} PruneKeepsExactly(entries: Entries)
    ensures forall e :: e in Prune(entries) <==> e in entries && Kept(e.1)
  {
    if entries != [] {
      PruneKeepsExactly(entries[1..]);
      assert entries == [entries[0]] + entries[1..];
    }
  }

  /** Pruning works entry by entry, so it keeps the kept entries' order. */
  lemma {:induction false} PruneConcat(a: Entries, b: Entries)
    ensures Prune(a + b) == Prune(a) + Prune(b)
  {
    if a == [] {
      assert a + b == b;
    } else {
      assert (a + b)[1..] == a[1..] + b;
      PruneConcat(a[1..], b);
    }
  }

  /** Pruning twice is pruning once, and entries holding 0 or false survive. */
  lemma {:induction false} PruneIdempotent(entries: Entries)
    ensures Prune(Prune(entries)) == Prune(entries)
    ensures forall k :: (k, Num(0)) in entries ==> (k, Num(0)) in Prune(entries)
    ensures forall k :: (k, Bool(false)) in entries ==> (k, Bool(false)) in Prune(entries)
  {
    PruneKeepsExactly(entries);
    if entries != [] {
      PruneIdempotent(entries[1..]);
    }
  }

  /** Pruning an entry list whose key `entries[j].0` occurs once: that key
      is sent with its value exactly when the value is kept. */
  lemma {:induction false} PruneKey(entries: Entries, j: nat)
    requires j < |entries|
    requires forall i :: 0 <= i < |entries| && i != j ==> entries[i].0 != entries[j].0
    ensures forall v :: (entries[j].0, v) in Prune(entries) <==> v == entries[j].1 && Kept(v)
  {
    PruneKeepsExactly(entries);
    forall v
      ensures (entries[j].0, v) in entries <==> v == entries[j].1
    {
      if (entries[j].0, v) in entries {
        var i :| 0 <= i < |entries| && entries[i] == (entries[j].0, v);
      }
    }
  }
}

=== FILE: legacy_cart.dfy ===
/** The older `useState` cart (frontend/src/cart/CartContext.tsx): rows of a
    product and a qty, with `add`, `remove`, `setQty`, `clear` and the
    running `total`. Unlike the app cart, `setQty` never removes a row.
    Prices are integer cents. */
module LegacyCart {
  import opened Wrappers

  /** The part of a catalogue product the cart reads. */
  datatype ProductRef = ProductRef(id: int, name: string, price: int)

  datatype Line = Line(product: ProductRef, qty: int)

  predicate Unique(lines: seq<Line>) {
    forall i, j :: 0 <= i < j < |lines| ==> lines[i].product.id != lines[j].product.id
  }

  predicate Has(lines: seq<Line>, id: int) {
    exists i :: 0 <= i < |lines| && lines[i].product.id == id
  }

  function FindIndex(lines: seq<Line>, id: int): (r: Option<nat>)
    ensures r.Some? ==> r.value < |lines| && lines[r.value].product.id == id
    ensures r.Some? ==> forall k :: 0 <= k < r.value ==> lines[k].product.id != id
    ensures r.None? <==> !Has(lines, id)
  {
    if lines == [] then None
    else if lines[0].product.id == id then Some(0)
    else
      match FindIndex(lines[1..], id)
      case None => None
      case Some(i) => Some(i + 1)
  }

  /** `add(p, qty = 1)`: raise the product's first row (`findIndex`), or
      append a new one. */
  function Add(lines: seq<Line>, p: ProductRef, qty: Option<int>): (r: seq<Line>)
    ensures Has(lines, p.id) ==> |r| == |lines|
    ensures Has(lines, p.id) ==> var i := FindIndex(lines, p.id).value;
      && r[i] == lines[i].(qty := lines[i].qty + qty.GetOr(1))
      && forall k :: 0 <= k < |lines| && k != i ==> r[k] == lines[k]
    ensures !Has(lines, p.id) ==> r == lines + [Line(p, qty.GetOr(1))]
  {
    var q := qty.GetOr(1);
    match FindIndex(lines, p.id)
    case Some(i) => lines[i := lines[i].(qty := lines[i].qty + q)]
    case None => lines + [Line(p, q)]
  }

  /** `remove(id)`: drop the rows of that product, keeping the others in order. */
  function Remove(lines: seq<Line>, id: int): (r: seq<Line>)
    ensures forall x :: x in r <==> x in lines && x.product.id != id
    ensures !Has(r, id)
  {
    if lines == [] then []
    else
      var rest := Remove(lines[1..], id);
      if lines[0].product.id == id then rest else [lines[0]] + rest
  }

  /** Filtering keeps the surviving rows in their order, repeats included. */
  lemma {:induction false} RemoveConcat(a: seq<Line>, b: seq<Line>, id: int)
    ensures Remove(a + b, id) == Remove(a, id) + Remove(b, id)
  {
    if a != [] {
      assert (a + b)[1..] == a[1..] + b;
      RemoveConcat(a[1..], b, id);
    } else {
      assert a + b == b;
    }
  }

  /** Removing a product that has no row changes nothing. */
  lemma {:induction false} RemoveAbsent(lines: seq<Line>, id: int)
    requires !Has(lines, id)
    ensures Remove(lines, id) == lines
  {
    if lines != [] {
      assert !Has(lines[1..], id) by {
        forall i | 0 <= i < |lines[1..]|
          ensures lines[1..][i].product.id != id
        {
          assert lines[1..][i] == lines[i + 1];
        }
      }
      RemoveAbsent(lines[1..], id);
    }
  }

  /** `setQty(id, qty)`: rewrite the qty of the product's rows, whatever the value. */
  function SetQty(lines: seq<Line>, id: int, qty: int): (r: seq<Line>)
    ensures |r| == |lines|
    ensures forall i :: 0 <= i < |lines| ==>
      r[i].product == lines[i].product && r[i].qty == (if lines[i].product.id == id then qty else lines[i].qty)
  {
    seq(|lines|, i requires 0 <= i < |lines| =>
      if lines[i].product.id == id then lines[i].(qty := qty) else lines[i])
  }

  /** `clear`. */
  function Clear(): (r: seq<Line>)
    ensures r == []
  {
    []
  }

  /** `total`: the sum of price times qty. */
  function Total(lines: seq<Line>): int {
    if lines == [] then 0 else lines[0].product.price * lines[0].qty + Total(lines[1..])
  }

  lemma {:induction false} TotalOfAppend(a: seq<Line>, x: Line)
    ensures Total(a + [x]) == Total(a) + x.product.price * x.qty
  {
    if a != [] {
      assert (a + [x])[1..] == a[1..] + [x];
      TotalOfAppend(a[1..], x);
    }
  }

  lemma {:induction false} TotalOfUpdate(a: seq<Line>, i: nat, x: Line)
    requires i < |a|
    ensures Total(a[i := x]) == Total(a) - a[i].product.price * a[i].qty + x.product.price * x.qty
  {
    if i > 0 {
      assert a[i := x][1..] == a[1..][i - 1 := x];
      TotalOfUpdate(a[1..], i - 1, x);
    }
  }

  /** Raising one row's qty by `q` raises the total by `q` times its price. */
  lemma TotalOfRaise(a: seq<Line>, i: nat, q: int)
    requires i < |a|
    ensures Total(a[i := a[i].(qty := a[i].qty + q)]) == Total(a) + q * a[i].product.price
  {
    var x := a[i].(qty := a[i].qty + q);
    TotalOfUpdate(a, i, x);
    assert x.product.price * x.qty == a[i].product.price * a[i].qty + q * a[i].product.price;
  }

  /** In a cart with one row per product, `add` of a product already there
      raises that row's qty by `qty` (1 by default) and leaves every other
      row as it was. */
  lemma AddEffect(lines: seq<Line>, p: ProductRef, qty: Option<int>)
    requires Unique(lines) && Has(lines, p.id)
    ensures var r := Add(lines, p, qty);
      && |r| == |lines|
      && forall i :: 0 <= i < |lines| ==>
           r[i] == if lines[i].product.id == p.id then lines[i].(qty := lines[i].qty + qty.GetOr(1)) else lines[i]
  {
  }

  /** `add` of `qty` units raises the total by `qty` times the price stored in
      the row: for a product already in the cart that is the price it was
      first added at, not `p.price`. */
  lemma AddTotal(lines: seq<Line>, p: ProductRef, qty: Option<int>)
    ensures var q := qty.GetOr(1);
      Total(Add(lines, p, qty)) == Total(lines) + q * (match FindIndex(lines, p.id) case Some(i) => lines[i].product.price case None => p.price)
  {
    var q := qty.GetOr(1);
    match FindIndex(lines, p.id)
    case Some(i) => {
      assert Add(lines, p, qty) == lines[i := lines[i].(qty := lines[i].qty + q)];
      TotalOfRaise(lines, i, q);
    }
    case None => TotalOfAppend(lines, Line(p, q));
  }

  /** `add`, `remove`, `setQty` and `clear` keep one row per product. */
  lemma {:induction false} OperationsKeepUnique(lines: seq<Line>, p: ProductRef, qty: Option<int>, id: int, n: int)
    requires Unique(lines)
    ensures Unique(Add(lines, p, qty))
    ensures Unique(Remove(lines, id))
    ensures Unique(SetQty(lines, id, n))
    ensures Unique(Clear())
  {
    var r := Add(lines, p, qty);
    if FindIndex(lines, p.id).None? {
      assert forall i :: 0 <= i < |lines| ==> r[i] == lines[i];
    }
    RemoveKeepsUnique(lines, id);
  }

  lemma {:induction false} RemoveKeepsUnique(lines: seq<Line>, id: int)
    requires Unique(lines)
    ensures Unique(Remove(lines, id))
  {
    if lines != [] {
      var rest := Remove(lines[1..], id);
      RemoveKeepsUnique(lines[1..], id);
      if lines[0].product.id != id {
        var r := [lines[0]] + rest;
        forall i, j | 0 <= i < j < |r|
          ensures r[i].product.id != r[j].product.id
        {
          if i == 0 {
            assert r[j] in rest;
            assert r[j] in lines[1..];
          } else {
            assert r[i] == rest[i - 1] && r[j] == rest[j - 1];
          }
        }
      }
    }
  }

  /** `setQty` with qty 0 keeps the row (with qty 0), and setting a product's
      qty twice is setting it once. */
  lemma SetQtyLaws(lines: seq<Line>, id: int, a: int, b: int)
    ensures Has(lines, id) ==> Has(SetQty(lines, id, 0), id)
    ensures SetQty(SetQty(lines, id, a), id, b) == SetQty(lines, id, b)
  {
    if Has(lines, id) {
      var i :| 0 <= i < |lines| && lines[i].product.id == id;
      assert SetQty(lines, id, 0)[i].product.id == id;
    }
  }
}

=== FILE: order_lines.dfy ===
/** The `order_items` table seen from one order: which rows belong to it (in
    ascending id order), the sums `recalcTotals` folds over
    them, and the lookup `addItem` uses to find the row of a product. */
module OrderLines {
  import opened Wrappers
  import opened Entities

  type Items = map<Id, OrderItem>

  /** Row `id` exists and belongs to `order`. */
  predicate Owns(items: Items, order: Id, id: Id) {
    id in items && items[id].order == order
  }

  /** The ids below `bound` of the rows of `order`, ascending. */
  function LineIds(items: Items, order: Id, bound: nat): (ids: seq<Id>)
    ensures forall i :: 0 <= i < |ids| ==> ids[i] < bound && Owns(items, order, ids[i])
    ensures forall id: Id :: id < bound && Owns(items, order, id) ==> id in ids
    ensures forall i, j :: 0 <= i < j < |ids| ==> ids[i] < ids[j]
  {
    if bound == 0 then []
    else
      var rest := LineIds(items, order, bound - 1);
      if Owns(items, order, bound - 1) then rest + [bound - 1] else rest
  }

  /** The rows of `order` below `bound`, in id order. */
  function Lines(items: Items, order: Id, bound: nat): (lines: seq<OrderItem>)
    ensures forall i :: 0 <= i < |lines| ==> lines[i].order == order
  {
    if bound == 0 then []
    else
      var rest := Lines(items, order, bound - 1);
      if Owns(items, order, bound - 1) then rest + [items[bound - 1]] else rest
  }

  /** Each listed row is the stored row at the matching id. */
  lemma {:induction false} LinesAreRows(items: Items, order: Id, bound: nat)
    ensures |Lines(items, order, bound)| == |LineIds(items, order, bound)|
    ensures forall i :: 0 <= i < |Lines(items, order, bound)| ==>
      Lines(items, order, bound)[i] == items[LineIds(items, order, bound)[i]]
  {
    if bound > 0 {
      LinesAreRows(items, order, bound - 1);
    }
  }

  function SumLineTotal(lines: seq<OrderItem>): int {
    if lines == [] then 0 else lines[0].lineTotal + SumLineTotal(lines[1..])
  }

  function SumQuantity(lines: seq<OrderItem>): int {
    if lines == [] then 0 else lines[0].quantity + SumQuantity(lines[1..])
  }

  /** Quantity ordered of `product` over `lines`. */
  function QuantityOf(lines: seq<OrderItem>, product: Id): int {
    if lines == [] then 0
    else (if lines[0].product == product then lines[0].quantity else 0) + QuantityOf(lines[1..], product)
  }

  lemma {:induction false} SumsOfConcat(a: seq<OrderItem>, b: seq<OrderItem>)
    ensures SumLineTotal(a + b) == SumLineTotal(a) + SumLineTotal(b)
    ensures SumQuantity(a + b) == SumQuantity(a) + SumQuantity(b)
    ensures forall p :: QuantityOf(a + b, p) == QuantityOf(a, p) + QuantityOf(b, p)
    decreases |a|
  {
    if a == [] {
      assert a + b == b;
    } else {
      assert (a + b)[1..] == a[1..] + b;
      SumsOfConcat(a[1..], b);
    }
  }

  /** Row `id` as a one-element list when it is a row of `order`, else empty. */
  function Step(items: Items, order: Id, id: Id): seq<OrderItem> {
    if Owns(items, order, id) then [items[id]] else []
  }

  /** Row `id`'s contribution to the rows of `order` below `bound`. */
  function Here(items: Items, order: Id, bound: nat, id: Id): seq<OrderItem> {
    if id < bound then Step(items, order, id) else []
  }

  lemma LinesUnfold(m: Items, order: Id, bound: nat)
    requires bound > 0
    ensures Lines(m, order, bound) == Lines(m, order, bound - 1) + Step(m, order, bound - 1)
  {
  }

  /** Changing, adding or deleting the single row `id` changes the sums over an
      order's rows by exactly that row's old and new contribution. */
  lemma {:induction false} SumsAfterChange(m: Items, m': Items, order: Id, bound: nat, id: Id)
    requires forall k: Id :: k != id ==> (k in m <==> k in m')
    requires forall k: Id :: k != id && k in m ==> m[k] == m'[k]
    ensures SumLineTotal(Lines(m', order, bound))
      == SumLineTotal(Lines(m, order, bound)) - SumLineTotal(Here(m, order, bound, id)) + SumLineTotal(Here(m', order, bound, id))
    ensures SumQuantity(Lines(m', order, bound))
      == SumQuantity(Lines(m, order, bound)) - SumQuantity(Here(m, order, bound, id)) + SumQuantity(Here(m', order, bound, id))
  {
    if bound > 0 {
      var b := bound - 1;
      SumsAfterChange(m, m', order, b, id);
      LinesUnfold(m, order, bound);
      LinesUnfold(m', order, bound);
      SumsOfConcat(Lines(m, order, b), Step(m, order, b));
      SumsOfConcat(Lines(m', order, b), Step(m', order, b));
      if b != id {
        assert Step(m, order, b) == Step(m', order, b);
      }
    }
  }

  /** A list in which no product occurs twice. */
  predicate DistinctProducts(lines: seq<OrderItem>) {
    forall i, j :: 0 <= i < j < |lines| ==> lines[i].product != lines[j].product
  }

  lemma {:induction false} QuantityOfAbsent(lines: seq<OrderItem>, p: Id)
    requires forall i :: 0 <= i < |lines| ==> lines[i].product != p
    ensures QuantityOf(lines, p) == 0
  {
    if lines != [] {
      QuantityOfAbsent(lines[1..], p);
    }
  }

  /** With one row per product, a product's ordered quantity is its row's quantity. */
  lemma {:induction false} QuantityOfDistinct(lines: seq<OrderItem>, i: nat)
    requires DistinctProducts(lines)
    requires i < |lines|
    ensures QuantityOf(lines, lines[i].product) == lines[i].quantity
  {
    if i == 0 {
      QuantityOfAbsent(lines[1..], lines[0].product);
    } else {
      QuantityOfDistinct(lines[1..], i - 1);
    }
  }

  /** The rows of `order` below `bound` depend only on which rows below
      `bound` belong to it and on their contents. */
  lemma {:induction false} LinesFrame(m: Items, m': Items, order: Id, bound: nat)
    requires forall id: Id :: id < bound ==> (Owns(m, order, id) <==> Owns(m', order, id))
    requires forall id: Id :: id < bound && Owns(m, order, id) ==> id in m' && m[id] == m'[id]
    ensures LineIds(m, order, bound) == LineIds(m', order, bound)
    ensures Lines(m, order, bound) == Lines(m', order, bound)
  {
    if bound > 0 {
      LinesFrame(m, m', order, bound - 1);
    }
  }

  /** Raising the bound past ids that are not rows of `order` adds nothing. */
  lemma {:induction false} LinesBeyondKeys(m: Items, order: Id, bound: nat, bound': nat)
    requires bound <= bound'
    requires forall id: Id :: bound <= id < bound' ==> !Owns(m, order, id)
    ensures LineIds(m, order, bound') == LineIds(m, order, bound)
    ensures Lines(m, order, bound') == Lines(m, order, bound)
    decreases bound' - bound
  {
    if bound < bound' {
      LinesBeyondKeys(m, order, bound, bound' - 1);
    }
  }

  /** The lowest id below `bound` of a row of `order` for `product`. */
  function FindLine(items: Items, order: Id, product: Id, bound: nat): (r: Option<Id>)
    ensures r.Some? ==> r.value < bound && Owns(items, order, r.value) && items[r.value].product == product
    ensures r.Some? ==> forall id: Id :: id < r.value && Owns(items, order, id) ==> items[id].product != product
    ensures r.None? ==> forall id: Id :: id < bound && Owns(items, order, id) ==> items[id].product != product
  {
    if bound == 0 then None
    else
      match FindLine(items, order, product, bound - 1)
      case Some(id) => Some(id)
      case None =>
        if Owns(items, order, bound - 1) && items[bound - 1].product == product then Some(bound - 1) else None
  }
}

=== FILE: order_properties.dfy ===
/** What the order workflow keeps and what it lets through: the database
    invariant is preserved by every operation, the totals move by exactly the
    quantity changed, `pay` debits each product once, and the quirks of
    `addItem`, `pay` and `setStatus` as they are written. */
module OrderProperties {
  import opened Wrappers
  import opened Entities
  import opened OrderLines
  import opened Orders

  // ----- helpers about an order's rows -----

  lemma NoRowsNoLines(m: Items, order: Id, bound: nat)
    requires forall id: Id :: id < bound ==> !Owns(m, order, id)
    ensures Lines(m, order, bound) == []
  {
    LinesBeyondKeys(m, order, 0, bound);
  }

  /** A stored row of `order` below `bound` appears among its lines. */
  lemma RowIsListed(m: Items, order: Id, bound: nat, id: Id) returns (i: nat)
    requires id < bound && Owns(m, order, id)
    ensures i < |Lines(m, order, bound)| && Lines(m, order, bound)[i] == m[id]
  {
    LinesAreRows(m, order, bound);
    var ids := LineIds(m, order, bound);
    i :| 0 <= i < |ids| && ids[i] == id;
  }

  /** One row per (order, product) makes the products of an order's lines distinct. */
  lemma LinesDistinct(m: Items, order: Id, bound: nat)
    requires OneRowPerProduct(m)
    ensures DistinctProducts(Lines(m, order, bound))
  {
    LinesAreRows(m, order, bound);
    var ids := LineIds(m, order, bound);
    var lines := Lines(m, order, bound);
    forall i, j | 0 <= i < j < |lines|
      ensures lines[i].product != lines[j].product
    {
      assert ids[i] < ids[j];
    }
  }

  /** Changing row `id` of order `mine` leaves the sums of every other order as they were. */
  lemma OtherOrdersSums(m: Items, m': Items, bound: nat, id: Id, mine: Id, other: Id)
    requires forall k: Id :: k != id ==> (k in m <==> k in m')
    requires forall k: Id :: k != id && k in m ==> m[k] == m'[k]
    requires id in m ==> m[id].order == mine
    requires id in m' ==> m'[id].order == mine
    requires other != mine
    ensures SumLineTotal(Lines(m', other, bound)) == SumLineTotal(Lines(m, other, bound))
    ensures SumQuantity(Lines(m', other, bound)) == SumQuantity(Lines(m, other, bound))
  {
    SumsAfterChange(m, m', other, bound, id);
  }

  /** A change confined to row `id` of order `mine` (rewritten, added at the
      next id, or deleted), followed by re-totalling `mine`, keeps the invariant
      provided it keeps one row per product. */
  lemma ValidAfterRowChange(db: Db, db': Db, id: Id, mine: Id)
    requires Valid(db)
    requires db'.customers == db.customers && db'.products == db.products && db'.nextOrder == db.nextOrder
    requires db'.orders.Keys == db.orders.Keys
    requires forall o :: o in db.orders && o != mine ==> db'.orders[o] == db.orders[o]
    requires mine in db.orders && db'.orders[mine].customer == db.orders[mine].customer
    requires TotalsMatch(db', mine)
    requires forall k: Id :: k != id ==> (k in db.items <==> k in db'.items)
    requires forall k: Id :: k != id && k in db.items ==> db.items[k] == db'.items[k]
    requires id in db.items ==> db.items[id].order == mine
    requires id in db'.items ==>
      (db'.items[id].order == mine && db'.items[id].quantity > 0 && db'.items[id].product in db.products
       && id < db'.nextItem)
    requires db'.nextItem == db.nextItem || (db'.nextItem == db.nextItem + 1 && id == db.nextItem)
    requires OneRowPerProduct(db'.items)
    ensures Valid(db')
  {
    RowChangeKeepsRowsValid(db, db', id, mine);
    forall o | o in db'.orders && o != mine
      ensures TotalsMatch(db', o)
    {
      OtherOrderKeepsTotals(db, db', id, mine, o);
    }
  }

  /** The rows after such a change still sit below nextItem, belong to
      existing orders, have positive quantities and existing products. */
  lemma RowChangeKeepsRowsValid(db: Db, db': Db, id: Id, mine: Id)
    requires Valid(db)
    requires db'.products == db.products && db'.orders.Keys == db.orders.Keys && mine in db.orders
    requires forall k: Id :: k != id ==> (k in db.items <==> k in db'.items)
    requires forall k: Id :: k != id && k in db.items ==> db.items[k] == db'.items[k]
    requires id in db'.items ==>
      (db'.items[id].order == mine && db'.items[id].quantity > 0 && db'.items[id].product in db.products
       && id < db'.nextItem)
    requires db'.nextItem >= db.nextItem
    ensures forall k :: k in db'.items ==> k < db'.nextItem
    ensures forall k :: k in db'.items ==> db'.items[k].order in db'.orders && db'.items[k].quantity > 0
    ensures ItemsHaveProducts(db')
  {
  }

  /** An order other than `mine` keeps its totals when only row `id` of `mine` changes. */
  lemma OtherOrderKeepsTotals(db: Db, db': Db, id: Id, mine: Id, o: Id)
    requires Valid(db)
    requires o in db.orders && o != mine && o in db'.orders && db'.orders[o] == db.orders[o]
    requires forall k: Id :: k != id ==> (k in db.items <==> k in db'.items)
    requires forall k: Id :: k != id && k in db.items ==> db.items[k] == db'.items[k]
    requires id in db.items ==> db.items[id].order == mine
    requires id in db'.items ==> db'.items[id].order == mine
    requires db'.nextItem == db.nextItem || db'.nextItem == db.nextItem + 1
    ensures TotalsMatch(db', o)
  {
    OtherOrdersSums(db.items, db'.items, db'.nextItem, id, mine, o);
    if db.nextItem < db'.nextItem {
      LinesBeyondKeys(db.items, o, db.nextItem, db'.nextItem);
    }
    assert TotalsMatch(db, o);
  }

  /** Rewriting a row without moving it to another order or product keeps one row per product. */
  lemma RewriteKeepsOneRow(m: Items, k: Id, x: OrderItem)
    requires OneRowPerProduct(m)
    requires k in m && x.order == m[k].order && x.product == m[k].product
    ensures OneRowPerProduct(m[k := x])
  {
  }

  /** A new row at a fresh id keeps one row per product when its order has no row for its product. */
  lemma AppendKeepsOneRow(m: Items, n: Id, x: OrderItem)
    requires OneRowPerProduct(m)
    requires forall id :: id in m ==> id < n
    requires forall id: Id :: id < n && Owns(m, x.order, id) ==> m[id].product != x.product
    ensures OneRowPerProduct(m[n := x])
  {
  }

  lemma ScaleCancels(a: int, b: int, q: int)
    requires q > 0
    ensures a * q == b * q <==> a == b
  {
    if a * q == b * q {
      assert (a - b) * q == 0;
    }
  }

  // ----- the invariant is kept -----

  /** `create` keeps the invariant, and the new order has no rows. */
  lemma CreateKeepsValid(db: Db, customerId: Id)
    requires Valid(db)
    requires Create(db, customerId).Ok?
    ensures Valid(Create(db, customerId).value.db)
    ensures ItemsOf(Create(db, customerId).value.db, Create(db, customerId).value.id) == []
  {
    var rep := Create(db, customerId).value;
    NoRowsNoLines(db.items, rep.id, db.nextItem);
    assert ItemsOf(rep.db, rep.id) == [];
    forall o | o in rep.db.orders
      ensures TotalsMatch(rep.db, o)
    {
      if o != rep.id {
        assert ItemsOf(rep.db, o) == ItemsOf(db, o);
      }
    }
  }

  /** Merging into row `k` keeps the invariant and adds `quantity` to totalItems. */
  lemma AddItemMergeKeepsValid(db: Db, orderId: Id, productId: Id, quantity: int, k: Id)
    requires Valid(db)
    requires quantity > 0
    requires AddItem(db, orderId, productId, quantity).Ok?
    requires FindLine(db.items, orderId, productId, db.nextItem) == Some(k)
    ensures var rep := AddItem(db, orderId, productId, quantity).value;
      && Valid(rep.db)
      && rep.order.totalItems == db.orders[orderId].totalItems + quantity
  {
    var rep := AddItem(db, orderId, productId, quantity).value;
    RewriteKeepsOneRow(db.items, k, rep.db.items[k]);
    SumsAfterChange(db.items, rep.db.items, orderId, db.nextItem, k);
    ValidAfterRowChange(db, rep.db, k, orderId);
  }

  /** Appending a new row keeps the invariant. */
  lemma AddItemAppendKeepsValid(db: Db, orderId: Id, productId: Id, quantity: int)
    requires Valid(db)
    requires quantity > 0
    requires AddItem(db, orderId, productId, quantity).Ok?
    requires FindLine(db.items, orderId, productId, db.nextItem).None?
    ensures Valid(AddItem(db, orderId, productId, quantity).value.db)
  {
    var rep := AddItem(db, orderId, productId, quantity).value;
    var n := db.nextItem;
    AppendKeepsOneRow(db.items, n, rep.db.items[n]);
    ValidAfterRowChange(db, rep.db, n, orderId);
  }

  /** Appending a new row adds `quantity` to totalItems. */
  lemma AddItemAppendCount(db: Db, orderId: Id, productId: Id, quantity: int)
    requires Valid(db)
    requires quantity > 0
    requires AddItem(db, orderId, productId, quantity).Ok?
    requires FindLine(db.items, orderId, productId, db.nextItem).None?
    ensures AddItem(db, orderId, productId, quantity).value.order.totalItems
         == db.orders[orderId].totalItems + quantity
  {
    var rep := AddItem(db, orderId, productId, quantity).value;
    AppendedQuantity(db.items, orderId, db.nextItem, rep.db.items[db.nextItem]);
  }

  /** A row of `order` stored at a fresh id `n` adds its quantity to the order's count. */
  lemma AppendedQuantity(m: Items, order: Id, n: Id, x: OrderItem)
    requires forall id :: id in m ==> id < n
    requires x.order == order
    ensures SumQuantity(Lines(m[n := x], order, n + 1)) == SumQuantity(Lines(m, order, n)) + x.quantity
  {
    SumsAfterChange(m, m[n := x], order, n + 1, n);
    assert Here(m, order, n + 1, n) == [];
    assert Here(m[n := x], order, n + 1, n) == [x];
    LinesUnfold(m, order, n + 1);
  }

  /** `addItem` keeps the invariant (one row per product included) and adds
      exactly `quantity` to the order's totalItems. */
  lemma AddItemKeepsValid(db: Db, orderId: Id, productId: Id, quantity: int)
    requires Valid(db)
    requires quantity > 0
    requires AddItem(db, orderId, productId, quantity).Ok?
    ensures var rep := AddItem(db, orderId, productId, quantity).value;
      && Valid(rep.db)
      && rep.order.totalItems == db.orders[orderId].totalItems + quantity
  {
    match FindLine(db.items, orderId, productId, db.nextItem)
    case Some(k) => AddItemMergeKeepsValid(db, orderId, productId, quantity, k);
    case None =>
      AddItemAppendKeepsValid(db, orderId, productId, quantity);
      AddItemAppendCount(db, orderId, productId, quantity);
  }

  /** `updateItem` keeps the invariant; totalItems moves by the change of the row's quantity. */
  lemma UpdateItemKeepsValid(db: Db, orderId: Id, itemId: Id, quantity: int)
    requires Valid(db)
    requires quantity > 0
    requires UpdateItem(db, orderId, itemId, quantity).Ok?
    ensures var rep := UpdateItem(db, orderId, itemId, quantity).value;
      && Valid(rep.db)
      && rep.order.totalItems == db.orders[orderId].totalItems - db.items[itemId].quantity + quantity
  {
    var rep := UpdateItem(db, orderId, itemId, quantity).value;
    SumsAfterChange(db.items, rep.db.items, orderId, db.nextItem, itemId);
    ValidAfterRowChange(db, rep.db, itemId, orderId);
  }

  /** `removeItem` keeps the invariant; the totals lose exactly the removed row. */
  lemma RemoveItemKeepsValid(db: Db, orderId: Id, itemId: Id)
    requires Valid(db)
    requires RemoveItem(db, orderId, itemId).Ok?
    ensures var rep := RemoveItem(db, orderId, itemId).value;
      && Valid(rep.db)
      && rep.order.totalItems == db.orders[orderId].totalItems - db.items[itemId].quantity
      && rep.order.subtotal == db.orders[orderId].subtotal - db.items[itemId].lineTotal
  {
    var rep := RemoveItem(db, orderId, itemId).value;
    SumsAfterChange(db.items, rep.db.items, orderId, db.nextItem, itemId);
    ValidAfterRowChange(db, rep.db, itemId, orderId);
  }

  /** `pay` debits each product of the order by exactly its row's quantity
      (there is one row per product) and leaves every other product alone. */
  lemma PayDebits(db: Db, orderId: Id)
    requires Valid(db)
    requires Pay(db, orderId).Ok?
    requires db.orders[orderId].status != Pago
    ensures var rep := Pay(db, orderId).value; var lines := ItemsOf(db, orderId);
      && (forall i :: 0 <= i < |lines| ==>
            rep.db.products[lines[i].product].stock == db.products[lines[i].product].stock - lines[i].quantity)
      && (forall p :: p in db.products && (forall i :: 0 <= i < |lines| ==> lines[i].product != p) ==>
            rep.db.products[p] == db.products[p])
  {
    var rep := Pay(db, orderId).value;
    var lines := ItemsOf(db, orderId);
    LinesDistinct(db.items, orderId, db.nextItem);
    forall i | 0 <= i < |lines|
      ensures rep.db.products[lines[i].product].stock == db.products[lines[i].product].stock - lines[i].quantity
    {
      QuantityOfDistinct(lines, i);
    }
    forall p | p in db.products && (forall i :: 0 <= i < |lines| ==> lines[i].product != p)
      ensures rep.db.products[p] == db.products[p]
    {
      QuantityOfAbsent(lines, p);
    }
  }

  /** `pay` debits at most what is in stock, so no stock goes negative. */
  lemma PayKeepsStock(db: Db, orderId: Id)
    requires Valid(db)
    requires Pay(db, orderId).Ok?
    ensures var products := Pay(db, orderId).value.db.products;
      forall p :: p in products ==> products[p].stock >= 0
  {
    var rep := Pay(db, orderId).value;
    if db.orders[orderId].status != Pago {
      var lines := ItemsOf(db, orderId);
      PayDebits(db, orderId);
      forall p | p in rep.db.products
        ensures rep.db.products[p].stock >= 0
      {
        if i :| 0 <= i < |lines| && lines[i].product == p {
          assert Covered(db.products, lines[i]);
        }
      }
    }
  }

  /** `pay` keeps the invariant. */
  lemma PayKeepsValid(db: Db, orderId: Id)
    requires Valid(db)
    requires Pay(db, orderId).Ok?
    ensures Valid(Pay(db, orderId).value.db)
  {
    PayKeepsStock(db, orderId);
    if db.orders[orderId].status != Pago {
      var rep := Pay(db, orderId).value;
      forall o | o in rep.db.orders
        ensures TotalsMatch(rep.db, o)
      {
        assert ItemsOf(rep.db, o) == ItemsOf(db, o);
      }
    }
  }

  /** `setStatus` keeps the invariant. */
  lemma SetStatusKeepsValid(db: Db, orderId: Id, status: Status)
    requires Valid(db)
    requires SetStatus(db, orderId, status).Ok?
    ensures Valid(SetStatus(db, orderId, status).value.db)
  {
    if status == Pago {
      PayKeepsValid(db, orderId);
    } else {
      var rep := SetStatus(db, orderId, status).value;
      forall o | o in rep.db.orders
        ensures TotalsMatch(rep.db, o)
      {
        assert ItemsOf(rep.db, o) == ItemsOf(db, o);
      }
    }
  }

  // ----- pay -----

  /** Paying twice is paying once: the second call returns the paid order and changes nothing. */
  lemma PayIdempotent(db: Db, orderId: Id)
    requires Pay(db, orderId).Ok?
    ensures var rep := Pay(db, orderId).value;
      Pay(rep.db, orderId) == Ok(Reply(rep.db, orderId, rep.db.orders[orderId]))
  {
  }

  /** `pay` looks only for PAGO before proceeding, so a canceled order with
      covered rows is paid and its stock debited. */
  lemma CanceledOrderCanBePaid(db: Db, orderId: Id)
    requires orderId in db.orders && db.orders[orderId].status == Cancelado
    requires ItemsOf(db, orderId) != []
    requires forall i :: 0 <= i < |ItemsOf(db, orderId)| ==> Covered(db.products, ItemsOf(db, orderId)[i])
    ensures Pay(db, orderId).Ok?
    ensures Pay(db, orderId).value.order.status == Pago
    ensures SetStatus(db, orderId, Pago) == Pay(db, orderId)
  {
  }

  /** `setStatus` only refuses to leave PAGO: CANCELADO can be left for any other status. */
  lemma CanceledOrderCanBeReopened(db: Db, orderId: Id, status: Status)
    requires orderId in db.orders && db.orders[orderId].status == Cancelado
    requires status != Pago
    ensures SetStatus(db, orderId, status).Ok?
    ensures SetStatus(db, orderId, status).value.order.status == status
  {
  }

  // ----- addItem quirks -----

  /** Merging keeps the row's stored unitPrice but reprices lineTotal at the
      product's current price: once the price has changed since the row was
      created, lineTotal is no longer unitPrice * quantity. While the price is
      unchanged the relation carries over. */
  lemma MergeReprices(db: Db, orderId: Id, productId: Id, quantity: int, k: Id)
    requires Valid(db)
    requires quantity > 0
    requires AddItem(db, orderId, productId, quantity).Ok?
    requires FindLine(db.items, orderId, productId, db.nextItem) == Some(k)
    ensures var row := AddItem(db, orderId, productId, quantity).value.db.items[k];
      && row.unitPrice == db.items[k].unitPrice
      && row.quantity == db.items[k].quantity + quantity
      && row.lineTotal == db.products[productId].price * row.quantity
      && (row.lineTotal == row.unitPrice * row.quantity <==> db.products[productId].price == db.items[k].unitPrice)
  {
    var row := AddItem(db, orderId, productId, quantity).value.db.items[k];
    ScaleCancels(db.products[productId].price, row.unitPrice, row.quantity);
  }

  /** The stock check of `addItem` compares the requested quantity only, so a
      row can grow beyond the product's stock; `pay` then refuses the order. */
  lemma AddItemOverfillsThenPayFails(db: Db, orderId: Id, productId: Id, quantity: int, k: Id)
    requires Valid(db)
    requires quantity > 0
    requires orderId in db.orders && Editable(db.orders[orderId].status)
    requires productId in db.products && db.products[productId].stock >= quantity
    requires FindLine(db.items, orderId, productId, db.nextItem) == Some(k)
    requires db.items[k].quantity + quantity > db.products[productId].stock
    ensures AddItem(db, orderId, productId, quantity).Ok?
    ensures var rep := AddItem(db, orderId, productId, quantity).value;
      && rep.db.items[k].quantity > rep.db.products[productId].stock
      && Pay(rep.db, orderId).Err?
  {
    var rep := AddItem(db, orderId, productId, quantity).value;
    var i := RowIsListed(rep.db.items, orderId, rep.db.nextItem, k);
    assert !Covered(rep.db.products, ItemsOf(rep.db, orderId)[i]);
  }
}

=== FILE: orders.dfy ===
/** `OrdersService` (src/modules/orders/orders.service.ts): the order
    workflow over an immutable snapshot of the four repositories. Each
    operation maps a database to either the exception it throws or the new
    database plus the order it returns. The `pay` transaction becomes one
    atomic update after the stock pre-check. */
module Orders {
  import opened Wrappers
  import opened Entities
  import opened OrderLines

  datatype Db = Db(
    customers: map<Id, Customer>,
    products: map<Id, Product>,
    orders: map<Id, Order>,
    items: Items,
    nextOrder: Id,   // the next auto-increment id of `orders`
    nextItem: Id)    // the next auto-increment id of `order_items`

  /** A successful call: the database after it, and the id and row of the order it returns. */
  datatype Reply = Reply(db: Db, id: Id, order: Order)

  type Outcome = Result<Reply, Error>

  /** The `items` relation of an order, in ascending id order. */
  function ItemsOf(db: Db, id: Id): seq<OrderItem> {
    Lines(db.items, id, db.nextItem)
  }

  /** Stored totals agree with the order's current rows. */
  predicate TotalsMatch(db: Db, id: Id)
    requires id in db.orders
  {
    var o := db.orders[id];
    && o.subtotal == SumLineTotal(ItemsOf(db, id))
    && o.totalItems == SumQuantity(ItemsOf(db, id))
    && o.total == o.subtotal
  }

  /** At most one row per (order, product). */
  predicate OneRowPerProduct(items: Items) {
    forall a: Id, b: Id ::
      (a in items && b in items && items[a].order == items[b].order && items[a].product == items[b].product)
      ==> a == b
  }

  /** Every row references an existing product (the RESTRICT foreign key). */
  predicate ItemsHaveProducts(db: Db) {
    forall id :: id in db.items ==> db.items[id].product in db.products
  }

  /** The database invariant the workflow keeps. */
  predicate Valid(db: Db) {
    && (forall id :: id in db.orders ==> id < db.nextOrder)
    && (forall id :: id in db.items ==> id < db.nextItem)
    && (forall id :: id in db.orders ==> db.orders[id].customer in db.customers)
    && (forall id :: id in db.items ==> db.items[id].order in db.orders && db.items[id].quantity > 0)
    && ItemsHaveProducts(db)
    && OneRowPerProduct(db.items)
    && (forall id :: id in db.products ==> db.products[id].stock >= 0)
    && (forall id :: id in db.orders ==> TotalsMatch(db, id))
  }

  /** `getOrThrow`. */
  function GetOrThrow(db: Db, id: Id): (r: Result<Order, Error>)
    ensures r.Ok? <==> id in db.orders
    ensures r.Ok? ==> r.value == db.orders[id]
    ensures r.Err? ==> r.error == NotFound(OrderEntity)
  {
    if id in db.orders then Ok(db.orders[id]) else Err(NotFound(OrderEntity))
  }

  predicate Editable(status: Status) {
    status != Pago && status != Cancelado
  }

  /** `ensureEditable`: paid and canceled orders reject item changes, each with its own message. */
  function EnsureEditable(order: Order): (c: Check<Error>)
    ensures c.Pass? <==> Editable(order.status)
    ensures order.status == Pago ==> c == Fail(BadRequest(PaidNotEditable))
    ensures order.status == Cancelado ==> c == Fail(BadRequest(CanceledNotEditable))
  {
    if order.status == Pago then Fail(BadRequest(PaidNotEditable))
    else if order.status == Cancelado then Fail(BadRequest(CanceledNotEditable))
    else Pass
  }

  /** `recalcTotals`: subtotal and totalItems re-folded over the order's current rows; total := subtotal. */
  function RecalcTotals(db: Db, id: Id): (db': Db)
    requires id in db.orders
    ensures db'.orders.Keys == db.orders.Keys
    ensures TotalsMatch(db', id)
    ensures db'.orders[id].customer == db.orders[id].customer
    ensures db'.orders[id].status == db.orders[id].status
    ensures forall o :: o in db.orders && o != id ==> db'.orders[o] == db.orders[o]
    ensures db' == db.(orders := db'.orders)
  {
    var lines := ItemsOf(db, id);
    var subtotal := SumLineTotal(lines);
    db.(orders := db.orders[id := db.orders[id].(subtotal := subtotal, totalItems := SumQuantity(lines), total := subtotal)])
  }

  /** The reply `this.get(id)` builds. */
  function Refreshed(db: Db, id: Id): Outcome
    requires id in db.orders
  {
    Ok(Reply(db, id, db.orders[id]))
  }

  /** `create`: a new open order with zero totals for an existing customer. */
  function Create(db: Db, customerId: Id): (r: Outcome)
    ensures r.Ok? <==> customerId in db.customers
    ensures r.Err? ==> r.error == NotFound(CustomerEntity)
    ensures r.Ok? ==> var rep := r.value;
      && rep.id == db.nextOrder
      && rep.order == Order(customerId, Aberto, 0, 0, 0)
      && rep.db.orders == db.orders[rep.id := rep.order]
      && rep.db.nextOrder > rep.id
      && rep.db == db.(orders := rep.db.orders, nextOrder := rep.db.nextOrder)
  {
    if customerId !in db.customers then Err(NotFound(CustomerEntity))
    else
      var o := Order(customerId, Aberto, 0, 0, 0);
      var db' := db.(orders := db.orders[db.nextOrder := o], nextOrder := db.nextOrder + 1);
      Refreshed(db', db.nextOrder)
  }

  /** `addItem`: merge `quantity` into the order's row for the product, or
      append a new row priced at the product's current price. The stock check
      is against the requested `quantity` alone. When merging, lineTotal is
      recomputed from the product's current price while the stored unitPrice
      is kept. */
  function AddItem(db: Db, orderId: Id, productId: Id, quantity: int): (r: Outcome)
    requires quantity > 0
    ensures r.Ok? <==>
      && orderId in db.orders && Editable(db.orders[orderId].status)
      && productId in db.products && db.products[productId].stock >= quantity
    ensures orderId !in db.orders ==> r == Err(NotFound(OrderEntity))
    ensures orderId in db.orders && !Editable(db.orders[orderId].status) ==>
      r == Err(EnsureEditable(db.orders[orderId]).error)
    ensures orderId in db.orders && Editable(db.orders[orderId].status) && productId !in db.products ==>
      r == Err(NotFound(ProductEntity))
    ensures (orderId in db.orders && Editable(db.orders[orderId].status) && productId in db.products
             && db.products[productId].stock < quantity) ==> r == Err(BadRequest(InsufficientStock))
    ensures r.Ok? ==> var rep := r.value; var price := db.products[productId].price;
      && rep.id == orderId
      && rep.db.customers == db.customers && rep.db.products == db.products
      && rep.db.nextOrder == db.nextOrder
      && rep.db.orders.Keys == db.orders.Keys
      && (forall o :: o in db.orders && o != orderId ==> rep.db.orders[o] == db.orders[o])
      && rep.order == rep.db.orders[orderId]
      && rep.order.status == db.orders[orderId].status
      && rep.order.customer == db.orders[orderId].customer
      && TotalsMatch(rep.db, orderId)
      && match FindLine(db.items, orderId, productId, db.nextItem)
         case Some(k) =>
           var old_ := db.items[k];
           && rep.db.nextItem == db.nextItem
           && rep.db.items == db.items[k := old_.(quantity := old_.quantity + quantity,
                                                   lineTotal := price * (old_.quantity + quantity))]
         case None =>
           && rep.db.nextItem == db.nextItem + 1
           && rep.db.items == db.items[db.nextItem := OrderItem(orderId, productId, quantity, price, price * quantity)]
  {
    var order :- GetOrThrow(db, orderId);
    :- EnsureEditable(order);
    if productId !in db.products then Err(NotFound(ProductEntity))
    else
      var product := db.products[productId];
      if product.stock < quantity then Err(BadRequest(InsufficientStock))
      else
        var unitPrice := product.price;
        var db' :=
          match FindLine(db.items, orderId, productId, db.nextItem)
          case Some(k) =>
            var item := db.items[k];
            var q := item.quantity + quantity;
            db.(items := db.items[k := item.(quantity := q, lineTotal := unitPrice * q)])
          case None =>
            var item := OrderItem(orderId, productId, quantity, unitPrice, unitPrice * quantity);
            db.(items := db.items[db.nextItem := item], nextItem := db.nextItem + 1);
        Refreshed(RecalcTotals(db', orderId), orderId)
  }

  /** `updateItem`: set a row of this order to the absolute `quantity`
      (checked against the product's current stock) and reprice it from its
      stored unitPrice. */
  function UpdateItem(db: Db, orderId: Id, itemId: Id, quantity: int): (r: Outcome)
    requires quantity > 0
    requires ItemsHaveProducts(db)
    ensures r.Ok? <==>
      && orderId in db.orders && Editable(db.orders[orderId].status)
      && Owns(db.items, orderId, itemId)
      && db.products[db.items[itemId].product].stock >= quantity
    ensures orderId !in db.orders ==> r == Err(NotFound(OrderEntity))
    ensures orderId in db.orders && !Editable(db.orders[orderId].status) ==>
      r == Err(EnsureEditable(db.orders[orderId]).error)
    ensures orderId in db.orders && Editable(db.orders[orderId].status) && !Owns(db.items, orderId, itemId) ==>
      r == Err(NotFound(ItemEntity))
    ensures (orderId in db.orders && Editable(db.orders[orderId].status) && Owns(db.items, orderId, itemId)
             && db.products[db.items[itemId].product].stock < quantity) ==> r == Err(BadRequest(InsufficientStock))
    ensures r.Ok? ==> r.value.db.items.Keys == db.items.Keys
    ensures r.Ok? ==> var rep := r.value; var it := db.items[itemId]; var it' := rep.db.items[itemId];
      && rep.id == orderId
      && rep.db.customers == db.customers && rep.db.products == db.products
      && rep.db.nextOrder == db.nextOrder && rep.db.nextItem == db.nextItem
      && rep.db.orders.Keys == db.orders.Keys
      && (forall o :: o in db.orders && o != orderId ==> rep.db.orders[o] == db.orders[o])
      && rep.order == rep.db.orders[orderId]
      && rep.order.status == db.orders[orderId].status
      && TotalsMatch(rep.db, orderId)
      && rep.db.items.Keys == db.items.Keys
      && (forall id :: id in db.items && id != itemId ==> rep.db.items[id] == db.items[id])
      && it'.quantity == quantity
      && it'.lineTotal == it.unitPrice * quantity
      && it'.unitPrice == it.unitPrice && it'.product == it.product && it'.order == it.order
  {
    var order :- GetOrThrow(db, orderId);
    :- EnsureEditable(order);
    if !Owns(db.items, orderId, itemId) then Err(NotFound(ItemEntity))
    else
      var item := db.items[itemId];
      if db.products[item.product].stock < quantity then Err(BadRequest(InsufficientStock))
      else
        var db' := db.(items := db.items[itemId := item.(quantity := quantity, lineTotal := item.unitPrice * quantity)]);
        Refreshed(RecalcTotals(db', orderId), orderId)
  }

  /** `removeItem(orderId, itemId)`: delete that row of this order. */
  function RemoveItem(db: Db, orderId: Id, itemId: Id): (r: Outcome)
    ensures r.Ok? <==>
      orderId in db.orders && Editable(db.orders[orderId].status) && Owns(db.items, orderId, itemId)
    ensures orderId !in db.orders ==> r == Err(NotFound(OrderEntity))
    ensures orderId in db.orders && !Editable(db.orders[orderId].status) ==>
      r == Err(EnsureEditable(db.orders[orderId]).error)
    ensures orderId in db.orders && Editable(db.orders[orderId].status) && !Owns(db.items, orderId, itemId) ==>
      r == Err(NotFound(ItemEntity))
    ensures r.Ok? ==> var rep := r.value;
      && rep.id == orderId
      && rep.db.customers == db.customers && rep.db.products == db.products
      && rep.db.nextOrder == db.nextOrder && rep.db.nextItem == db.nextItem
      && rep.db.orders.Keys == db.orders.Keys
      && (forall o :: o in db.orders && o != orderId ==> rep.db.orders[o] == db.orders[o])
      && rep.order == rep.db.orders[orderId]
      && rep.order.status == db.orders[orderId].status
      && TotalsMatch(rep.db, orderId)
      && rep.db.items == db.items - {itemId}
  {
    var order :- GetOrThrow(db, orderId);
    :- EnsureEditable(order);
    if !Owns(db.items, orderId, itemId) then Err(NotFound(ItemEntity))
    else Refreshed(RecalcTotals(db.(items := db.items - {itemId}), orderId), orderId)
  }

  /** A row is covered when its product exists with at least the row's quantity in stock. */
  predicate Covered(products: map<Id, Product>, line: OrderItem) {
    line.product in products && products[line.product].stock >= line.quantity
  }

  /** The pre-check loop of `pay`: the product of the first uncovered row, if any. */
  function Shortfall(products: map<Id, Product>, lines: seq<OrderItem>): (r: Option<Id>)
    ensures r.None? <==> forall i :: 0 <= i < |lines| ==> Covered(products, lines[i])
    ensures r.Some? ==>
      exists i :: (0 <= i < |lines| && lines[i].product == r.value && !Covered(products, lines[i])
                   && forall j :: 0 <= j < i ==> Covered(products, lines[j]))
  {
    if lines == [] then None
    else if !Covered(products, lines[0]) then Some(lines[0].product)
    else
      var r := Shortfall(products, lines[1..]);
      assert forall i :: 1 <= i < |lines| ==> lines[i] == lines[1..][i - 1];
      if r.Some? then
        ghost var i :| 0 <= i < |lines[1..]| && lines[1..][i].product == r.value
          && !Covered(products, lines[1..][i]) && forall j :: 0 <= j < i ==> Covered(products, lines[1..][j]);
        assert lines[i + 1] == lines[1..][i];
        r
      else r
  }

  /** The debit loop of `pay`: every row takes its quantity off its product's stock. */
  function Debit(products: map<Id, Product>, lines: seq<OrderItem>): (r: map<Id, Product>)
    ensures r.Keys == products.Keys
    ensures forall p :: p in products ==>
      r[p] == products[p].(stock := products[p].stock - QuantityOf(lines, p))
  {
    if lines == [] then products
    else
      var l := lines[0];
      var after :=
        if l.product in products
        then products[l.product := products[l.product].(stock := products[l.product].stock - l.quantity)]
        else products;
      Debit(after, lines[1..])
  }

  /** `pay`: a no-op on a paid order; otherwise every row must be covered,
      and then all stocks are debited and the order becomes PAGO in one step.
      The status is not otherwise checked, so a canceled order can be paid. */
  function Pay(db: Db, orderId: Id): (r: Outcome)
    ensures orderId !in db.orders ==> r == Err(NotFound(OrderEntity))
    ensures orderId in db.orders && db.orders[orderId].status == Pago ==>
      r == Ok(Reply(db, orderId, db.orders[orderId]))
    ensures orderId in db.orders && db.orders[orderId].status != Pago && ItemsOf(db, orderId) == [] ==>
      r == Err(BadRequest(NoItems))
    ensures orderId in db.orders && db.orders[orderId].status != Pago && ItemsOf(db, orderId) != [] ==>
      (r.Ok? <==> forall i :: 0 <= i < |ItemsOf(db, orderId)| ==> Covered(db.products, ItemsOf(db, orderId)[i]))
    ensures r.Err? && r.error.BadRequest? && r.error.reason.InsufficientStockFor? ==>
      exists i :: 0 <= i < |ItemsOf(db, orderId)| && ItemsOf(db, orderId)[i].product == r.error.reason.product
        && !Covered(db.products, ItemsOf(db, orderId)[i])
    ensures r.Ok? && db.orders[orderId].status != Pago ==> var rep := r.value;
      && rep.id == orderId
      && rep.db.customers == db.customers && rep.db.items == db.items
      && rep.db.nextOrder == db.nextOrder && rep.db.nextItem == db.nextItem
      && rep.db.orders == db.orders[orderId := db.orders[orderId].(status := Pago)]
      && rep.order == rep.db.orders[orderId]
      && rep.db.products.Keys == db.products.Keys
      && forall p :: p in db.products ==>
           rep.db.products[p] == db.products[p].(stock := db.products[p].stock - QuantityOf(ItemsOf(db, orderId), p))
  {
    var order :- GetOrThrow(db, orderId);
    if order.status == Pago then Ok(Reply(db, orderId, order))
    else
      var lines := ItemsOf(db, orderId);
      if lines == [] then Err(BadRequest(NoItems))
      else
        match Shortfall(db.products, lines)
        case Some(p) => Err(BadRequest(InsufficientStockFor(p)))
        case None =>
          var db' := db.(products := Debit(db.products, lines),
                         orders := db.orders[orderId := order.(status := Pago)]);
          Refreshed(db', orderId)
  }

  /** `setStatus`: a paid order never changes; PAGO goes through `pay`; any
      other target, CANCELADO included, is written as is, also out of
      CANCELADO. */
  function SetStatus(db: Db, orderId: Id, status: Status): (r: Outcome)
    ensures orderId !in db.orders ==> r == Err(NotFound(OrderEntity))
    ensures orderId in db.orders && db.orders[orderId].status == Pago ==> r == Err(BadRequest(PaidCannotChange))
    ensures orderId in db.orders && db.orders[orderId].status != Pago && status == Pago ==> r == Pay(db, orderId)
    ensures orderId in db.orders && db.orders[orderId].status != Pago && status != Pago ==>
      && r.Ok?
      && r.value.id == orderId
      && r.value.order == db.orders[orderId].(status := status)
      && r.value.db == db.(orders := db.orders[orderId := r.value.order])
  {
    var order :- GetOrThrow(db, orderId);
    if order.status == Pago then Err(BadRequest(PaidCannotChange))
    else if status == Pago then Pay(db, orderId)
    else if status == Cancelado then
      var o := order.(status := Cancelado);
      Ok(Reply(db.(orders := db.orders[orderId := o]), orderId, o))
    else
      var o := order.(status := status);
      Ok(Reply(db.(orders := db.orders[orderId := o]), orderId, o))
  }
}

=== FILE: orders_api.dfy ===
/** The orders API helpers of the frontend (frontend/src/features/orders/api.ts):
    `normalizeOrder`, which turns whatever the server sent into the UI's
    order with totals filled in from the items when they are missing, the
    paged `listOrders`, and the request sequence of `createOrderFromCart`.
    The HTTP calls themselves are left out: a response is an input. */
module OrdersApi {
  import opened Wrappers
  import opened Json
  import opened ApiLists
  import Entities
  import OrderLines
  import Orders

  /** The totals-relevant part of a normalized order line. */
  datatype NormalizedItem = NormalizedItem(quantity: Option<int>, unitPrice: Option<int>, lineTotal: Option<int>)

  /** The totals-relevant part of a normalized order; `None` is null (or NaN). */
  datatype NormalizedOrder = NormalizedOrder(
    id: Option<int>, status: Json, items: Option<seq<NormalizedItem>>,
    subtotal: Option<int>, total: Option<int>, totalItems: Option<int>)

  /** The line of `normalizeOrder`'s `items.map`: the quantity reads `quantity`
      then `qty`; the unit price reads `unitPrice`, `unit_price` then `price`;
      a missing line total is the unit price (`unitPrice` or `price`, else 0)
      times `quantity` alone. */
  function NormalizeItem(it: Json, parse: NumberParser): (n: NormalizedItem)
    ensures Get(it, "quantity").Num? ==> n.quantity == Some(Get(it, "quantity").n)
    ensures Nullish(Get(it, "quantity")) && Nullish(Get(it, "qty")) ==> n.quantity == Some(0)
    ensures Get(it, "unitPrice").Num? ==> n.unitPrice == Some(Get(it, "unitPrice").n)
    ensures Get(it, "lineTotal").Num? ==> n.lineTotal == Some(Get(it, "lineTotal").n)
    ensures Nullish(Get(it, "lineTotal")) && Nullish(Get(it, "line_total"))
            && Get(it, "quantity").Num? && Get(it, "unitPrice").Num? ==>
      n.lineTotal == Some(Get(it, "unitPrice").n * Get(it, "quantity").n)
  {
    var quantity := NumberOf(Coalesce(Get(it, "quantity"), Coalesce(Get(it, "qty"), Num(0))), parse);
    var unitPrice := ToNum(Coalesce(Get(it, "unitPrice"), Coalesce(Get(it, "unit_price"), Get(it, "price"))), parse);
    var explicit := Coalesce(Get(it, "lineTotal"), Get(it, "line_total"));
    var lineTotal :=
      if !Nullish(explicit) then ToNum(explicit, parse)
      else
        var price := ToNum(Coalesce(Get(it, "unitPrice"), Get(it, "price")), parse).GetOr(0);
        match NumberOf(Coalesce(Get(it, "quantity"), Num(0)), parse)
        case Some(q) => Some(price * q)
        case None => None;
    NormalizedItem(quantity, unitPrice, lineTotal)
  }

  /** The sum of the lines' totals, a line without one counting 0. */
  function SumLineTotals(items: seq<NormalizedItem>): int {
    if items == [] then 0 else items[0].lineTotal.GetOr(0) + SumLineTotals(items[1..])
  }

  /** The sum of the lines' quantities, a line without a numeric one
      counting 0. */
  function SumQuantities(items: seq<NormalizedItem>): int {
    if items == [] then 0 else items[0].quantity.GetOr(0) + SumQuantities(items[1..])
  }

  /** `normalizeOrder` reads a property of the order and of every line, so
      it throws on a null order or a null line. */
  predicate Readable(o: Json) {
    && !Nullish(o)
    && (Get(o, "items").Arr? ==> forall i :: 0 <= i < |Get(o, "items").elems| ==> !Nullish(Get(o, "items").elems[i]))
  }

  /** `normalizeOrder`: the subtotal is the server's, else the sum of the line
      totals; the total is the server's `total` (or, when that is missing,
      `totalValue`) when it reads as a number, else the subtotal; totalItems
      is the sum of the quantities. Without an items array, totalItems is
      null, and so is the subtotal when the server sent none. */
  function NormalizeOrder(o: Json, parse: NumberParser): (r: Result<NormalizedOrder, Throw>)
    ensures r.Ok? <==> Readable(o)
    ensures r.Err? ==> r.error == PropertyOfNullish
    ensures r.Ok? ==> var n := r.value;
      && (n.items.Some? <==> Get(o, "items").Arr?)
      && (n.items.Some? ==>
            && |n.items.value| == |Get(o, "items").elems|
            && forall i :: 0 <= i < |n.items.value| ==> n.items.value[i] == NormalizeItem(Get(o, "items").elems[i], parse))
      && (n.totalItems.Some? <==> n.items.Some?)
      && (n.items.Some? ==> n.totalItems == Some(SumQuantities(n.items.value)))
      && (ToNum(Get(o, "subtotal"), parse).Some? ==> n.subtotal == ToNum(Get(o, "subtotal"), parse))
      && (ToNum(Get(o, "subtotal"), parse).None? && n.items.Some? ==> n.subtotal == Some(SumLineTotals(n.items.value)))
      && (ToNum(Get(o, "subtotal"), parse).None? && n.items.None? ==> n.subtotal.None?)
      && (Get(o, "total").Num? ==> n.total == Some(Get(o, "total").n))
      && (Nullish(Get(o, "total")) && Nullish(Get(o, "totalValue")) ==> n.total == n.subtotal)
      && (ToNum(Coalesce(Get(o, "total"), Get(o, "totalValue")), parse).Some? ==>
            n.total == ToNum(Coalesce(Get(o, "total"), Get(o, "totalValue")), parse))
      && (ToNum(Coalesce(Get(o, "total"), Get(o, "totalValue")), parse).None? ==> n.total == n.subtotal)
      && (Nullish(Get(o, "status")) ==> n.status == Str("pending"))
  {
    if !Readable(o) then Err(PropertyOfNullish)
    else
      var items :=
        if Get(o, "items").Arr? then
          var raw := Get(o, "items").elems;
          Some(seq(|raw|, i requires 0 <= i < |raw| => NormalizeItem(raw[i], parse)))
        else None;
      var subtotal :=
        match ToNum(Get(o, "subtotal"), parse)
        case Some(s) => Some(s)
        case None => if items.Some? then Some(SumLineTotals(items.value)) else None;
      var totalItems := if items.Some? then Some(SumQuantities(items.value)) else None;
      var total :=
        match ToNum(Coalesce(Get(o, "total"), Get(o, "totalValue")), parse)
        case Some(t) => Some(t)
        case None => subtotal;
      Ok(NormalizedOrder(NumberOf(Get(o, "id"), parse), Coalesce(Get(o, "status"), Str("pending")),
                         items, subtotal, total, totalItems))
  }

  /** The JSON the backend sends for an order line. */
  function RenderItem(it: Entities.OrderItem): Json {
    Obj(map["quantity" := Num(it.quantity), "unitPrice" := Num(it.unitPrice), "lineTotal" := Num(it.lineTotal)])
  }

  /** The JSON the backend sends for an order with its `items` relation. */
  function RenderOrder(o: Entities.Order, items: seq<Entities.OrderItem>): Json {
    Obj(map["subtotal" := Num(o.subtotal), "total" := Num(o.total), "totalItems" := Num(o.totalItems),
            "items" := Arr(seq(|items|, i requires 0 <= i < |items| => RenderItem(items[i])))])
  }

  lemma {:induction false} RenderedSums(items: seq<Entities.OrderItem>, parse: NumberParser)
    ensures var n := seq(|items|, i requires 0 <= i < |items| => NormalizeItem(RenderItem(items[i]), parse));
      && SumLineTotals(n) == OrderLines.SumLineTotal(items)
      && SumQuantities(n) == OrderLines.SumQuantity(items)
  {
    var n := seq(|items|, i requires 0 <= i < |items| => NormalizeItem(RenderItem(items[i]), parse));
    if items != [] {
      RenderedSums(items[1..], parse);
      var n' := seq(|items[1..]|, i requires 0 <= i < |items[1..]| => NormalizeItem(RenderItem(items[1..][i]), parse));
      assert n[1..] == n';
      assert Get(RenderItem(items[0]), "lineTotal") == Num(items[0].lineTotal);
      assert Get(RenderItem(items[0]), "quantity") == Num(items[0].quantity);
    }
  }

  /** A rendered order normalizes to its own subtotal and total, and to the
      sum of its lines' quantities. */
  lemma NormalizeRendered(o: Entities.Order, items: seq<Entities.OrderItem>, parse: NumberParser)
    ensures var r := NormalizeOrder(RenderOrder(o, items), parse);
      && r.Ok?
      && r.value.subtotal == Some(o.subtotal)
      && r.value.total == Some(o.total)
      && r.value.totalItems == Some(OrderLines.SumQuantity(items))
  {
    var rendered := seq(|items|, i requires 0 <= i < |items| => RenderItem(items[i]));
    var json := RenderOrder(o, items);
    assert Get(json, "items") == Arr(rendered);
    assert Get(json, "subtotal") == Num(o.subtotal);
    assert Get(json, "total") == Num(o.total);
    assert Readable(json);
    var n := NormalizeOrder(json, parse).value;
    assert n.items.value == seq(|items|, i requires 0 <= i < |items| => NormalizeItem(RenderItem(items[i]), parse));
    RenderedSums(items, parse);
  }

  /** What the UI shows for an order of a valid database agrees with the
      stored totals: subtotal and total as stored, and totalItems equal to
      the stored count of units. */
  lemma NormalizeStoredOrder(db: Orders.Db, id: Entities.Id, parse: NumberParser)
    requires Orders.Valid(db) && id in db.orders
    ensures var o := db.orders[id];
      var r := NormalizeOrder(RenderOrder(o, Orders.ItemsOf(db, id)), parse);
      && r.Ok?
      && r.value.subtotal == Some(o.subtotal)
      && r.value.total == Some(o.total)
      && r.value.totalItems == Some(o.totalItems)
      && r.value.subtotal == Some(OrderLines.SumLineTotal(Orders.ItemsOf(db, id)))
  {
    NormalizeRendered(db.orders[id], Orders.ItemsOf(db, id), parse);
    assert Orders.TotalsMatch(db, id);
  }

  /** A line carrying only a quantity and a unit price. */
  function BareItem(quantity: int, unitPrice: int): Json {
    Obj(map["quantity" := Num(quantity), "unitPrice" := Num(unitPrice)])
  }

  /** An order sent as nothing but its lines. */
  function BareOrder(lines: seq<(int, int)>): Json {
    Obj(map["items" := Arr(seq(|lines|, i requires 0 <= i < |lines| => BareItem(lines[i].0, lines[i].1)))])
  }

  /** The reference sum of quantity times unit price. */
  function Amount(lines: seq<(int, int)>): int {
    if lines == [] then 0 else lines[0].0 * lines[0].1 + Amount(lines[1..])
  }

  function Units(lines: seq<(int, int)>): int {
    if lines == [] then 0 else lines[0].0 + Units(lines[1..])
  }

  lemma {:induction false} BareSums(lines: seq<(int, int)>, n: seq<NormalizedItem>, parse: NumberParser)
    requires |n| == |lines|
    requires forall i :: 0 <= i < |n| ==> n[i] == NormalizeItem(BareItem(lines[i].0, lines[i].1), parse)
    ensures SumLineTotals(n) == Amount(lines) && SumQuantities(n) == Units(lines)
  {
    if lines != [] {
      BareSums(lines[1..], n[1..], parse);
      var it := BareItem(lines[0].0, lines[0].1);
      assert Get(it, "quantity") == Num(lines[0].0) && Get(it, "unitPrice") == Num(lines[0].1);
      assert Get(it, "lineTotal") == Undefined && Get(it, "line_total") == Undefined;
    }
  }

  /** An order sent without any totals gets them from its lines: subtotal and
      total are the sum of quantity times unit price, totalItems the sum of
      the quantities. */
  lemma TotalsFromLines(lines: seq<(int, int)>, parse: NumberParser)
    ensures var r := NormalizeOrder(BareOrder(lines), parse);
      && r.Ok?
      && r.value.subtotal == Some(Amount(lines))
      && r.value.total == Some(Amount(lines))
      && r.value.totalItems == Some(Units(lines))
  {
    var o := BareOrder(lines);
    var bare := Get(o, "items").elems;
    assert Readable(o);
    var n := NormalizeOrder(o, parse).value;
    forall i | 0 <= i < |lines|
      ensures n.items.value[i] == NormalizeItem(BareItem(lines[i].0, lines[i].1), parse)
    {
      assert bare[i] == BareItem(lines[i].0, lines[i].1);
    }
    BareSums(lines, n.items.value, parse);
    assert Get(o, "subtotal") == Undefined && Get(o, "total") == Undefined && Get(o, "totalValue") == Undefined;
  }

  /** A line that gives its quantity as `qty` keeps it as its quantity, but its
      fallback line total reads `quantity` alone and so comes out as 0. */
  lemma QtyAliasLineTotal(q: int, price: int, parse: NumberParser)
    ensures var n := NormalizeItem(Obj(map["qty" := Num(q), "price" := Num(price)]), parse);
      n.quantity == Some(q) && n.unitPrice == Some(price) && n.lineTotal == Some(0)
  {
    var it := Obj(map["qty" := Num(q), "price" := Num(price)]);
    assert Get(it, "quantity") == Undefined && Get(it, "qty") == Num(q);
    assert Get(it, "unitPrice") == Undefined && Get(it, "unit_price") == Undefined && Get(it, "price") == Num(price);
    assert Get(it, "lineTotal") == Undefined && Get(it, "line_total") == Undefined;
  }

  /** `OrderQuery`. */
  datatype OrderQuery = OrderQuery(
    search: Option<string>, status: Option<string>, page: Option<int>, limit: Option<int>,
    userId: Option<int>, customerId: Option<int>)

  /** The object `listOrders` hands to `prune`: page and limit (1 and 12 by
      default), the filters, `customerId` falling back to `userId`, and the
      skip/take/offset aliases of the page window. */
  function ParamEntries(q: OrderQuery): Entries {
    var page := q.page.GetOr(1);
    var limit := q.limit.GetOr(12);
    [("page", Num(page)), ("limit", Num(limit)), ("search", OptStr(q.search)), ("status", OptStr(q.status)),
     ("userId", OptNum(q.userId)), ("customerId", OptNum(if q.customerId.Some? then q.customerId else q.userId)),
     ("skip", Num((page - 1) * limit)), ("take", Num(limit)), ("offset", Num((page - 1) * limit))]
  }

  /** The query parameters `listOrders` sends: the entries `prune` keeps. */
  function ListParams(q: OrderQuery): (params: Entries)
    ensures forall i :: 0 <= i < |params| ==> Kept(params[i].1)
  {
    Prune(ParamEntries(q))
  }

  /** The page window is always sent: page and limit, 1 and 12 by default. */
  lemma ListParamsWindow(q: OrderQuery)
    ensures forall n :: ("page", Num(n)) in ListParams(q) <==> n == q.page.GetOr(1)
    ensures forall n :: ("limit", Num(n)) in ListParams(q) <==> n == q.limit.GetOr(12)
  {
    var e := ParamEntries(q);
    PruneKey(e, 0); PruneKey(e, 1);
  }

  /** The window is also sent as the skip and take aliases. */
  lemma ListParamsAliases(q: OrderQuery)
    ensures forall n :: ("skip", Num(n)) in ListParams(q) <==> n == (q.page.GetOr(1) - 1) * q.limit.GetOr(12)
    ensures forall n :: ("take", Num(n)) in ListParams(q) <==> n == q.limit.GetOr(12)
  {
    var e := ParamEntries(q);
    PruneKey(e, 6); PruneKey(e, 7);
  }

  /** The text filters are sent exactly when given and not empty. */
  lemma ListParamsFilters(q: OrderQuery)
    ensures forall s :: ("search", Str(s)) in ListParams(q) <==> q.search == Some(s) && s != ""
    ensures forall s :: ("status", Str(s)) in ListParams(q) <==> q.status == Some(s) && s != ""
  {
    var e := ParamEntries(q);
    PruneKey(e, 2); PruneKey(e, 3);
  }

  /** `customerId` is sent when given, falling back to `userId`. */
  lemma ListParamsCustomer(q: OrderQuery)
    ensures forall c :: ("customerId", Num(c)) in ListParams(q) <==>
      (q.customerId == Some(c) || (q.customerId.None? && q.userId == Some(c)))
  {
    PruneKey(ParamEntries(q), 5);
  }

  /** `Paged<Order>`. */
  datatype OrderPage = OrderPage(items: seq<NormalizedOrder>, total: Option<int>, page: int, limit: int)

  /** `listOrders`, given the response body `data`. */
  function ListOrders(q: OrderQuery, data: Json, parse: NumberParser): (r: Result<OrderPage, Throw>)
    ensures r.Ok? ==> r.value.page == q.page.GetOr(1) && r.value.limit == q.limit.GetOr(12)
    ensures Nullish(data) ==> r == Err(PropertyOfNullish)
    ensures r.Ok? ==> var listing := CoerceListAndTotal(data, parse);
      && listing.Ok?
      && r.value.total == listing.value.total
      && var rows := PageRows(data, listing.value.itemsRaw, q.page.GetOr(1), q.limit.GetOr(12));
         && |r.value.items| == |rows|
         && forall i :: 0 <= i < |rows| ==> NormalizeOrder(rows[i], parse) == Ok(r.value.items[i])
    ensures r.Err? ==> r.error == PropertyOfNullish
    ensures r.Ok? <==>
      && CoerceListAndTotal(data, parse).Ok?
      && var rows := PageRows(data, CoerceListAndTotal(data, parse).value.itemsRaw, q.page.GetOr(1), q.limit.GetOr(12));
         forall i :: 0 <= i < |rows| ==> Readable(rows[i])
  {
    var page := q.page.GetOr(1);
    var limit := q.limit.GetOr(12);
    var listing :- CoerceListAndTotal(data, parse);
    var rows := PageRows(data, listing.itemsRaw, page, limit);
    if exists i :: 0 <= i < |rows| && !Readable(rows[i]) then Err(PropertyOfNullish)
    else
      Ok(OrderPage(seq(|rows|, i requires 0 <= i < |rows| => NormalizeOrder(rows[i], parse).value), listing.total, page, limit))
  }

  /** A server that returns every order as a bare array is paginated on the
      client: page `p` shows the orders from `(p - 1) * limit` on, at most
      `limit` of them, and the total is the array's length. */
  lemma ClientPagedOrders(orders: seq<Json>, page: int, limit: int, parse: NumberParser)
    requires forall i :: 0 <= i < |orders| ==> Readable(orders[i])
    requires page >= 1 && limit >= 0
    ensures var r := ListOrders(OrderQuery(None, None, Some(page), Some(limit), None, None), Arr(orders), parse);
      && r.Ok?
      && r.value.total == Some(|orders|)
      && |r.value.items| <= limit
      && forall i :: 0 <= i < |r.value.items| ==>
           0 <= (page - 1) * limit + i < |orders|
           && NormalizeOrder(orders[(page - 1) * limit + i], parse) == Ok(r.value.items[i])
  {
    var data := Arr(orders);
    assert ClientSide(data);
    var rows := PageRows(data, orders, page, limit);
    forall i | 0 <= i < |rows| ensures Readable(rows[i]) {
      assert rows[i] == orders[(page - 1) * limit + i];
    }
  }

  /** A server page wrapped as `{ data: { items, total } }` is unwrapped for
      the rows and the total, but the client-side slice looks at the outer
      object, which has neither `items` nor `rows`: the page is sliced again,
      so asking for page 2 of a server's page 2 shows nothing. */
  lemma WrappedPageIsSlicedAgain(orders: seq<Json>, n: int, limit: int, parse: NumberParser)
    requires limit >= 1 && |orders| <= limit
    ensures var data := Obj(map["data" := Obj(map["items" := Arr(orders), "total" := Num(n)])]);
      var r := ListOrders(OrderQuery(None, None, Some(2), Some(limit), None, None), data, parse);
      && r.Ok?
      && r.value.items == []
      && r.value.total == Some(if n != 0 then n else |orders|)
  {
    var data := Obj(map["data" := Obj(map["items" := Arr(orders), "total" := Num(n)])]);
    DataEnvelopeShape(orders, n, parse);
    assert Get(data, "items") == Undefined && Get(data, "rows") == Undefined;
    assert PageRows(data, orders, 2, limit) == [];
  }

  /** A line of the cart checked out: `{ productId, qty, unitPrice }`. */
  datatype CartLine = CartLine(productId: int, qty: int, unitPrice: int)

  /** The requests `createOrderFromCart` sends, in order: the order body,
      then one item body per cart line; a final read fetches the order. */
  datatype Checkout = Checkout(orderBody: Entries, itemBodies: seq<Entries>)

  const MissingCustomer := "customerId obrigatório para finalizar compra."
  const EmptyCart := "Carrinho vazio."

  /** `createOrderFromCart`: it throws before any request when the customer
      id is missing or 0, or when there are no lines; otherwise it creates the
      order for the customer with the given status (ABERTO by default) and
      adds every line as it is. */
  function CreateOrderFromCart(customerId: Option<int>, status: Option<string>, items: Option<seq<CartLine>>)
    : (r: Result<Checkout, Throw>)
    ensures customerId.None? || customerId == Some(0) ==> r == Err(Error(MissingCustomer))
    ensures customerId.Some? && customerId != Some(0) && (items.None? || items.value == []) ==> r == Err(Error(EmptyCart))
    ensures r.Ok? <==> customerId.Some? && customerId.value != 0 && items.Some? && items.value != []
    ensures r.Ok? ==> var c := customerId.value; var body := r.value.orderBody;
      && ("userId", Num(c)) in body && ("customerId", Num(c)) in body
      && (forall s :: ("status", Str(s)) in body <==> s == status.GetOr("ABERTO") && s != "")
      && (forall v :: ("code", v) !in body && ("total", v) !in body)
    ensures r.Ok? ==>
      && |r.value.itemBodies| == |items.value|
      && forall i :: 0 <= i < |items.value| ==>
           r.value.itemBodies[i] == [("productId", Num(items.value[i].productId)), ("quantity", Num(items.value[i].qty)),
                                     ("unitPrice", Num(items.value[i].unitPrice))]
  {
    if customerId.None? || customerId.value == 0 then Err(Error(MissingCustomer))
    else if items.None? || items.value == [] then Err(Error(EmptyCart))
    else
      var c := customerId.value;
      var lines := items.value;
      var entries := [("code", Undefined), ("userId", Num(c)), ("customerId", Num(c)),
                      ("status", Str(status.GetOr("ABERTO"))), ("total", Undefined)];
      PruneKey(entries, 0); PruneKey(entries, 1); PruneKey(entries, 2); PruneKey(entries, 3); PruneKey(entries, 4);
      var body := Prune(entries);
      Ok(Checkout(body, seq(|lines|, i requires 0 <= i < |lines| =>
        [("productId", Num(lines[i].productId)), ("quantity", Num(lines[i].qty)), ("unitPrice", Num(lines[i].unitPrice))])))
  }
}

=== FILE: orders_dist.dfy ===
/** The compiled copy of the orders module (dist/modules/orders/orders.service.js)
    where it departs from the source: a paged `OrdersService.findAll`, and an
    `OrderService.removeItem(orderId)` that deletes every row of the order.
    Its other operations are those of the `Orders` module. */
module OrdersDist {
  import opened Wrappers
  import opened Entities
  import opened OrderLines
  import opened Orders
  import opened Paging
  import opened OrderProperties

  /** `OrdersService.findAll`: `rows` are the orders matching the customer,
      status and text filters, newest first, as the query returns them. */
  function FindAll(rows: seq<Order>, page: Option<int>, limit: Option<int>): (r: Page<Order>)
    ensures r.page >= 1 && 1 <= r.limit <= 100
    ensures page.Some? && page.value >= 1 ==> r.page == page.value
    ensures page.None? || page.value < 1 ==> r.page == 1
    ensures limit.None? ==> r.limit == 12
    ensures limit.Some? && 1 <= limit.value <= 100 ==> r.limit == limit.value
    ensures limit.Some? && limit.value < 1 ==> r.limit == 1
    ensures limit.Some? && limit.value > 100 ==> r.limit == 100
    ensures r.total == |rows| && |r.items| <= r.limit
    ensures forall i :: 0 <= i < |r.items| ==>
      0 <= (r.page - 1) * r.limit + i < |rows| && r.items[i] == rows[(r.page - 1) * r.limit + i]
  {
    ClampsAgree(limit);
    PageOf(rows, ClampPage(page), ClampLimitOuter(limit))
  }

  /** The rows left after deleting every row of `order`. */
  function WithoutOrder(items: Items, order: Id): (m: Items)
    ensures forall id :: id in m <==> id in items && items[id].order != order
    ensures forall id :: id in m ==> m[id] == items[id]
  {
    map id | id in items && items[id].order != order :: items[id]
  }

  /** The variant's `removeItem(orderId)`: every row of the order is deleted;
      when none was deleted it fails with "Item not found". */
  function RemoveAllItems(db: Db, orderId: Id): (r: Outcome)
    ensures r.Ok? <==>
      && orderId in db.orders && Editable(db.orders[orderId].status)
      && (exists id :: Owns(db.items, orderId, id))
    ensures orderId !in db.orders ==> r == Err(NotFound(OrderEntity))
    ensures orderId in db.orders && !Editable(db.orders[orderId].status) ==>
      r == Err(EnsureEditable(db.orders[orderId]).error)
    ensures (orderId in db.orders && Editable(db.orders[orderId].status)
            && forall id :: id in db.items ==> db.items[id].order != orderId) ==>
      r == Err(NotFound(ItemEntity))
    ensures r.Ok? ==> var rep := r.value;
      && rep.id == orderId
      && rep.db.items == WithoutOrder(db.items, orderId)
      && rep.db.customers == db.customers && rep.db.products == db.products
      && rep.db.nextOrder == db.nextOrder && rep.db.nextItem == db.nextItem
      && rep.db.orders.Keys == db.orders.Keys
      && (forall o :: o in db.orders && o != orderId ==> rep.db.orders[o] == db.orders[o])
      && rep.order == rep.db.orders[orderId]
      && rep.order.customer == db.orders[orderId].customer
      && rep.order.status == db.orders[orderId].status
      && rep.order.subtotal == 0 && rep.order.totalItems == 0 && rep.order.total == 0
  {
    var order :- GetOrThrow(db, orderId);
    :- EnsureEditable(order);
    var kept := WithoutOrder(db.items, orderId);
    if kept == db.items then
      assert forall id :: id in db.items ==> db.items[id].order != orderId;
      Err(NotFound(ItemEntity))
    else
      assert exists id :: Owns(db.items, orderId, id) by {
        assert exists id :: id in db.items && id !in kept;
        var id :| id in db.items && id !in kept;
        assert Owns(db.items, orderId, id);
      }
      var db' := db.(items := kept);
      NoRowsNoLines(kept, orderId, db.nextItem);
      Refreshed(RecalcTotals(db', orderId), orderId)
  }

  /** The variant's `removeItem` keeps the database invariant, and leaves
      the order with no rows and the other orders' rows as they were. */
  lemma RemoveAllItemsKeepsValid(db: Db, orderId: Id)
    requires Valid(db)
    requires RemoveAllItems(db, orderId).Ok?
    ensures var rep := RemoveAllItems(db, orderId).value;
      && Valid(rep.db)
      && ItemsOf(rep.db, orderId) == []
      && forall o :: o != orderId ==> ItemsOf(rep.db, o) == ItemsOf(db, o)
  {
    var rep := RemoveAllItems(db, orderId).value;
    var kept := rep.db.items;
    NoRowsNoLines(kept, orderId, db.nextItem);
    forall o | o != orderId
      ensures ItemsOf(rep.db, o) == ItemsOf(db, o)
    {
      LinesFrame(db.items, kept, o, db.nextItem);
    }
    forall o | o in rep.db.orders
      ensures TotalsMatch(rep.db, o)
    {
      if o != orderId {
        assert ItemsOf(rep.db, o) == ItemsOf(db, o);
        assert TotalsMatch(db, o);
      }
    }
    assert OneRowPerProduct(kept) by {
      assert forall id :: id in kept ==> id in db.items && kept[id] == db.items[id];
    }
  }
}

=== FILE: paging.dfy ===
/** Offset pagination as the list endpoints do it: clamp the requested page
    and page size, skip `(page - 1) * limit` rows, take `limit`, and report
    the page count as the ceiling of `total / limit`. */
module Paging {
  import opened Wrappers

  /** `Math.max(1, page ?? 1)`: a page number of at least 1, default 1. */
  function ClampPage(page: Option<int>): (p: int)
    ensures p >= 1
    ensures page.Some? && page.value >= 1 ==> p == page.value
    ensures page.None? || page.value < 1 ==> p == 1
  {
    var requested := page.GetOr(1);
    if requested < 1 then 1 else requested
  }

  /** `Math.min(100, Math.max(1, limit ?? 12))`, the product list's clamp. */
  function ClampLimit(limit: Option<int>): (l: int)
    ensures 1 <= l <= 100
    ensures limit.Some? && 1 <= limit.value <= 100 ==> l == limit.value
    ensures limit.None? ==> l == 12
    ensures limit.Some? && limit.value < 1 ==> l == 1
    ensures limit.Some? && limit.value > 100 ==> l == 100
  {
    var requested := limit.GetOr(12);
    var atLeastOne := if requested < 1 then 1 else requested;
    if atLeastOne > 100 then 100 else atLeastOne
  }

  /** `Math.max(1, Math.min(100, limit ?? 12))`, the order list's clamp, written
      with the two bounds applied in the other order. */
  function ClampLimitOuter(limit: Option<int>): (l: int)
    ensures 1 <= l <= 100
    ensures limit.Some? && 1 <= limit.value <= 100 ==> l == limit.value
    ensures limit.None? ==> l == 12
    ensures limit.Some? && limit.value < 1 ==> l == 1
    ensures limit.Some? && limit.value > 100 ==> l == 100
  {
    var requested := limit.GetOr(12);
    var atMostHundred := if requested > 100 then 100 else requested;
    if atMostHundred < 1 then 1 else atMostHundred
  }

  /** The two clamps agree on every input. */
  lemma ClampsAgree(limit: Option<int>)
    ensures ClampLimit(limit) == ClampLimitOuter(limit)
  {
  }

  /** Clamping is idempotent: a clamped value passes through unchanged. */
  lemma ClampIdempotent(page: Option<int>, limit: Option<int>)
    ensures ClampPage(Some(ClampPage(page))) == ClampPage(page)
    ensures ClampLimit(Some(ClampLimit(limit))) == ClampLimit(limit)
  {
  }

  /** The database's `skip`/`take` over the full ordered result. */
  function Window<T>(rows: seq<T>, skip: nat, take: nat): (w: seq<T>)
    ensures |w| <= take
    ensures skip <= |rows| ==> |w| == Min(take, |rows| - skip)
    ensures skip >= |rows| ==> w == []
    ensures forall i :: 0 <= i < |w| ==> skip + i < |rows| && w[i] == rows[skip + i]
  {
    var from := Min(skip, |rows|);
    rows[from..Min(skip + take, |rows|)]
  }

  function Min(a: int, b: int): int {
    if a <= b then a else b
  }

  /** What a paged list endpoint returns: the rows of the page, the count of
      all matching rows, and the page number and size it used. */
  datatype Page<T> = Page(items: seq<T>, total: nat, page: int, limit: int)

  /** Page `page` of size `limit` over `rows`. */
  function PageOf<T>(rows: seq<T>, page: int, limit: int): (r: Page<T>)
    requires page >= 1 && limit >= 1
    ensures r.total == |rows| && r.page == page && r.limit == limit
    ensures |r.items| <= limit
    ensures forall i :: 0 <= i < |r.items| ==>
      0 <= (page - 1) * limit + i < |rows| && r.items[i] == rows[(page - 1) * limit + i]
  {
    NonNegativeProduct(page - 1, limit);
    Page(Window(rows, (page - 1) * limit, limit), |rows|, page, limit)
  }

  lemma NonNegativeProduct(a: int, b: int)
    requires a >= 0 && b >= 0
    ensures a * b >= 0
  {
  }

  /** The rows of pages 1 to `n`, one page after the other. */
  function FirstPages<T>(rows: seq<T>, n: nat, limit: int): seq<T>
    requires limit >= 1
  {
    if n == 0 then [] else FirstPages(rows, n - 1, limit) + PageOf(rows, n, limit).items
  }

  /** Reading pages 1, 2, ... in turn yields the rows in order, each exactly
      once; the first `TotalPages` pages yield all of them. */
  lemma {:induction false} PagesTileRows<T>(rows: seq<T>, n: nat, limit: int)
    requires limit >= 1
    ensures FirstPages(rows, n, limit) == rows[..Min(n * limit, |rows|)]
    ensures n == TotalPages(|rows|, limit) ==> FirstPages(rows, n, limit) == rows
  {
    if n > 0 {
      PagesTileRows(rows, n - 1, limit);
      assert n * limit == (n - 1) * limit + limit;
      NonNegativeProduct(n - 1, limit);
      var w := PageOf(rows, n, limit).items;
      assert rows[..Min(n * limit, |rows|)] == rows[..Min((n - 1) * limit, |rows|)] + w;
    }
    if n == TotalPages(|rows|, limit) {
      TotalPagesIsCeiling(|rows|, limit);
      assert rows[..|rows|] == rows;
    }
  }

  /** `Math.ceil(total / limit)`. */
  function TotalPages(total: nat, limit: int): (n: nat)
    requires limit >= 1
  {
    (total + limit - 1) / limit
  }

  /** The page count is the least number of pages of size `limit` that hold `total` rows. */
  lemma {:induction false} TotalPagesIsCeiling(total: nat, limit: int)
    requires limit >= 1
    ensures TotalPages(total, limit) * limit >= total
    ensures TotalPages(total, limit) > 0 ==> (TotalPages(total, limit) - 1) * limit < total
    ensures TotalPages(total, limit) == 0 <==> total == 0
  {
    var n := TotalPages(total, limit);
    var r := (total + limit - 1) % limit;
    assert total + limit - 1 == n * limit + r;
  }

  /** A page has rows exactly when its number is at most the page count. */
  lemma {:induction false} PageNonEmptyIff<T>(rows: seq<T>, page: int, limit: int)
    requires page >= 1 && limit >= 1
    ensures PageOf(rows, page, limit).items != [] <==> page <= TotalPages(|rows|, limit)
  {
    TotalPagesIsCeiling(|rows|, limit);
    var n := TotalPages(|rows|, limit);
    if page <= n {
      assert (page - 1) * limit <= (n - 1) * limit;
    } else {
      assert (page - 1) * limit >= n * limit;
    }
  }
}

=== FILE: products.dfy ===
/** The two `ProductsService`s: the source one
    (src/modules/products/products.service.ts) with a clamped, searchable
    `findAll`, and the compiled one (dist/modules/products/products.service.js)
    with the filtered, sorted `findPaged` and a category-checking `update`.
    The database answers queries; what is modelled is the query each call
    builds, the page it cuts from the answer, and the not-found rules. */
module Products {
  import opened Wrappers
  import opened Entities
  import opened Text
  import opened Paging

  /** The `products` table, the ids of the `categories` table, and the
      product ids that rows of `order_items` point at. */
  datatype Catalog = Catalog(products: map<Id, Product>, categories: set<Id>, referenced: set<Id>)

  /** The two foreign keys into and out of `products` hold: each product's
      category exists (Product.category is not nullable), and each product an
      order row points at exists (OrderItem.product is RESTRICT). */
  predicate Valid(c: Catalog) {
    && (forall k :: k in c.products ==> c.products[k].category in c.categories)
    && c.referenced <= c.products.Keys
  }

  /** The optional column values of an update body; `None` leaves a column as it is. */
  datatype ProductPatch = ProductPatch(
    name: Option<string>,
    description: Option<string>,
    price: Option<int>,
    stock: Option<int>,
    active: Option<bool>,
    imageUrl: Option<string>)

  const NoChange := ProductPatch(None, None, None, None, None, None)

  /** `Object.assign(product, data)` over the columns the patch carries. */
  function Apply(p: Product, patch: ProductPatch): (q: Product)
    ensures q.category == p.category
    ensures patch.name.Some? ==> q.name == patch.name.value
    ensures patch.name.None? ==> q.name == p.name
    ensures patch.description.Some? ==> q.description == patch.description
    ensures patch.description.None? ==> q.description == p.description
    ensures patch.price.Some? ==> q.price == patch.price.value
    ensures patch.price.None? ==> q.price == p.price
    ensures patch.stock.Some? ==> q.stock == patch.stock.value
    ensures patch.stock.None? ==> q.stock == p.stock
    ensures patch.active.Some? ==> q.active == patch.active.value
    ensures patch.active.None? ==> q.active == p.active
    ensures patch.imageUrl.Some? ==> q.imageUrl == patch.imageUrl
    ensures patch.imageUrl.None? ==> q.imageUrl == p.imageUrl
  {
    Product(
      patch.name.GetOr(p.name),
      if patch.description.Some? then patch.description else p.description,
      patch.price.GetOr(p.price),
      patch.stock.GetOr(p.stock),
      patch.active.GetOr(p.active),
      if patch.imageUrl.Some? then patch.imageUrl else p.imageUrl,
      p.category)
  }

  /** An empty patch changes nothing, and a patch applied twice acts once. */
  lemma ApplyLaws(p: Product, patch: ProductPatch)
    ensures Apply(p, NoChange) == p
    ensures Apply(Apply(p, patch), patch) == Apply(p, patch)
  {
  }

  // ----- src/modules/products/products.service.ts -----

  /** The search term `findAll` filters by: `search?.trim()`, and no filter
      when that is missing or empty. */
  function SearchTerm(search: Option<string>): (term: Option<string>)
    ensures term.None? <==> search.None? || AllSpace(search.value)
    ensures term.Some? ==> term.value != "" && term.value == Trim(search.value)
    ensures term.Some? ==> !IsSpace(term.value[0]) && !IsSpace(term.value[|term.value| - 1])
  {
    match search
    case None => None
    case Some(s) =>
      TrimEmptyIffBlank(s);
      var t := Trim(s);
      if t == "" then None else Some(t)
  }

  /** A term that is already a search term is its own search term. */
  lemma SearchTermIdempotent(search: Option<string>)
    ensures SearchTerm(search).Some? ==> SearchTerm(SearchTerm(search)) == SearchTerm(search)
  {
    if SearchTerm(search).Some? {
      TrimIdempotent(search.value);
    }
  }

  /** The request `findAll` sends to `findAndCount`. */
  datatype ListQuery = ListQuery(term: Option<string>, page: int, limit: int)

  function ListQueryOf(page: Option<int>, limit: Option<int>, search: Option<string>): (q: ListQuery)
    ensures q.page >= 1 && 1 <= q.limit <= 100
    ensures q.page == ClampPage(page) && q.limit == ClampLimit(limit)
    ensures q.term == SearchTerm(search)
  {
    ListQuery(SearchTerm(search), ClampPage(page), ClampLimit(limit))
  }

  /** `findAll`: it sends `ListQueryOf(page, limit, search)` to the
      repository, and `rows` are the products matching that query's term
      (all products when it has none), in the repository's order. */
  function FindAll(rows: seq<Product>, page: Option<int>, limit: Option<int>, search: Option<string>): (r: Page<Product>)
    ensures r.page >= 1 && 1 <= r.limit <= 100
    ensures r.total == |rows| && |r.items| <= r.limit
    ensures page.Some? && page.value >= 1 ==> r.page == page.value
    ensures page.None? || page.value < 1 ==> r.page == 1
    ensures limit.Some? && 1 <= limit.value <= 100 ==> r.limit == limit.value
    ensures limit.None? ==> r.limit == 12
    ensures limit.Some? && limit.value < 1 ==> r.limit == 1
    ensures limit.Some? && limit.value > 100 ==> r.limit == 100
    ensures forall i :: 0 <= i < |r.items| ==>
      0 <= (r.page - 1) * r.limit + i < |rows| && r.items[i] == rows[(r.page - 1) * r.limit + i]
  {
    PageOf(rows, ClampPage(page), ClampLimit(limit))
  }

  /** `findOne`. */
  function FindOne(c: Catalog, id: Id): (r: Result<Product, Error>)
    ensures r.Ok? <==> id in c.products
    ensures r.Ok? ==> r.value == c.products[id]
    ensures r.Err? ==> r.error == NotFound(ProductEntity)
  {
    if id in c.products then Ok(c.products[id]) else Err(NotFound(ProductEntity))
  }

  /** `update`: overwrite the given columns of an existing product; a
      `category` that is given replaces the product's one, and `save` then
      fails on the product's category key when it names no category. */
  function Update(c: Catalog, id: Id, patch: ProductPatch, category: Option<Id>): (r: Result<(Catalog, Product), Error>)
    ensures r.Ok? <==> id in c.products && (category.Some? ==> category.value in c.categories)
    ensures id !in c.products ==> r == Err(NotFound(ProductEntity))
    ensures id in c.products && category.Some? && category.value !in c.categories ==>
      r == Err(ForeignKey(CategoryEntity))
    ensures r.Ok? ==> var (c', p) := r.value;
      && p == Apply(c.products[id], patch).(category := category.GetOr(c.products[id].category))
      && c' == c.(products := c.products[id := p])
  {
    var product :- FindOne(c, id);
    if category.Some? && category.value !in c.categories then Err(ForeignKey(CategoryEntity))
    else
      var p := Apply(product, patch).(category := category.GetOr(product.category));
      Ok((c.(products := c.products[id := p]), p))
  }

  /** `remove`: an existing product, which the database refuses to delete
      while order rows point at it. */
  function Remove(c: Catalog, id: Id): (r: Result<Catalog, Error>)
    ensures r.Ok? <==> id in c.products && id !in c.referenced
    ensures id !in c.products ==> r == Err(NotFound(ProductEntity))
    ensures id in c.products && id in c.referenced ==> r == Err(ForeignKey(ProductEntity))
    ensures r.Ok? ==>
      && r.value.products.Keys == c.products.Keys - {id}
      && (forall k :: k in r.value.products ==> r.value.products[k] == c.products[k])
      && r.value.categories == c.categories
      && r.value.referenced == c.referenced
  {
    var _ :- FindOne(c, id);
    if id in c.referenced then Err(ForeignKey(ProductEntity))
    else Ok(c.(products := c.products - {id}))
  }

  /** Updating a product touches no other product; updating with an empty
      patch and no category leaves the catalog as it was. */
  lemma UpdateLocal(c: Catalog, id: Id, patch: ProductPatch, category: Option<Id>)
    requires id in c.products
    ensures Update(c, id, patch, category).Ok? ==> forall k :: k in c.products && k != id ==>
      Update(c, id, patch, category).value.0.products[k] == c.products[k]
    ensures Update(c, id, NoChange, None) == Ok((c, c.products[id]))
  {
    ApplyLaws(c.products[id], patch);
    assert c.products[id := c.products[id]] == c.products;
  }

  /** A successful `update` keeps both foreign keys: the database never
      holds a product without its category. */
  lemma UpdateKeepsValid(c: Catalog, id: Id, patch: ProductPatch, category: Option<Id>)
    requires Valid(c)
    ensures Update(c, id, patch, category).Ok? ==> Valid(Update(c, id, patch, category).value.0)
  {
  }

  /** A successful `remove` keeps both foreign keys: no order row is left
      pointing at a deleted product. */
  lemma RemoveKeepsValid(c: Catalog, id: Id)
    requires Valid(c)
    ensures Remove(c, id).Ok? ==> Valid(Remove(c, id).value)
  {
  }

  // ----- dist/modules/products/products.service.js -----

  datatype SortField = ById | ByName | ByPrice | ByStock
  datatype Direction = Asc | Desc

  /** The column names the sort whitelist accepts. */
  function FieldName(f: SortField): string {
    match f
    case ById => "id"
    case ByName => "name"
    case ByPrice => "price"
    case ByStock => "stock"
  }

  /** The whitelist: a known column name, and `id` for anything else. */
  function FieldNamed(s: string): (f: SortField)
    ensures f != ById ==> FieldName(f) == s
  {
    if s == "name" then ByName
    else if s == "price" then ByPrice
    else if s == "stock" then ByStock
    else ById
  }

  lemma FieldNameRoundTrip(f: SortField)
    ensures FieldNamed(FieldName(f)) == f
  {
  }

  /** `(sort[1] ?? 'desc').toUpperCase() === 'ASC'`. */
  predicate IsAsc(s: string) {
    ToUpper(s) == "ASC"
  }

  /** The texts that upper-case to "ASC": three letters, a or A, then s, S or
      the long s, then c or C. */
  lemma IsAscLetters(s: string)
    ensures IsAsc(s) <==>
      && |s| == 3
      && (s[0] == 'a' || s[0] == 'A')
      && (s[1] == 's' || s[1] == 'S' || s[1] as int == 0x17F)
      && (s[2] == 'c' || s[2] == 'C')
  {
    if IsAsc(s) {
      assert UpperChar(s[0]) == 'A' && UpperChar(s[1]) == 'S' && UpperChar(s[2]) == 'C';
    }
    if && |s| == 3
       && (s[0] == 'a' || s[0] == 'A')
       && (s[1] == 's' || s[1] == 'S' || s[1] as int == 0x17F)
       && (s[2] == 'c' || s[2] == 'C') {
      assert ToUpper(s) == "ASC";
    }
  }

  datatype Sort = Sort(field: SortField, dir: Direction)

  const DefaultSort := "id:desc"

  /** The `orderBy` of `findPaged`: `sort ?? 'id:desc'` split on ':'; the
      first part through the whitelist, the second (default 'desc') ascending
      only when it upper-cases to 'ASC'. */
  function ParseSort(sort: Option<string>): (r: Sort)
    ensures var text := sort.GetOr(DefaultSort);
      r.dir == Asc ==> ':' in text
    ensures var text := sort.GetOr(DefaultSort);
      ':' !in text ==> r == Sort(FieldNamed(text), Desc)
  {
    var parts := Split(sort.GetOr(DefaultSort), ':');
    var field := FieldNamed(parts[0]);
    if |parts| >= 2 && IsAsc(parts[1]) then Sort(field, Asc) else Sort(field, Desc)
  }

  function DirName(d: Direction): string {
    match d
    case Asc => "asc"
    case Desc => "desc"
  }

  /** Writing a sort as "field:dir" and parsing it gives it back. */
  lemma SortRoundTrip(s: Sort)
    ensures ParseSort(Some(FieldName(s.field) + ":" + DirName(s.dir))) == s
  {
    var f := FieldName(s.field);
    var d := DirName(s.dir);
    assert ':' !in f && ':' !in d;
    SortPair(f, d);
    FieldNameRoundTrip(s.field);
    IsAscLetters(d);
  }

  /** A sort text "field:dir" with separator-free parts picks the field
      through the whitelist and the direction by `IsAsc`. */
  lemma SortPair(field: string, dir: string)
    requires ':' !in field && ':' !in dir
    ensures ParseSort(Some(field + ":" + dir)) == Sort(FieldNamed(field), if IsAsc(dir) then Asc else Desc)
  {
    SplitPair(field, dir, ':');
  }

  /** With no sort given, the order is newest id first. */
  lemma DefaultSortIsNewestFirst()
    ensures ParseSort(None) == Sort(ById, Desc)
  {
    assert DefaultSort == "id" + ":" + "desc";
    SplitPair("id", "desc", ':');
    IsAscLetters("desc");
  }

  /** A field outside the whitelist sorts by id, whatever follows it. */
  lemma UnknownFieldSortsById(field: string, rest: string)
    requires ':' !in field
    requires field != "name" && field != "price" && field != "stock"
    ensures ParseSort(Some(field + ":" + rest)).field == ById
  {
    SplitHead(field, rest, ':');
  }

  /** `q.active`: the strings 'true' and 'false' select a flag; anything else
      applies no filter. */
  function ParseActive(active: Option<string>): (r: Option<bool>)
    ensures r == Some(true) <==> active == Some("true")
    ensures r == Some(false) <==> active == Some("false")
  {
    if active == Some("true") then Some(true)
    else if active == Some("false") then Some(false)
    else None
  }

  /** The query string of `findPaged`; the DTO rejects page or limit below 1. */
  datatype PagedQuery = PagedQuery(
    search: Option<string>,
    categoryId: Option<int>,
    minPrice: Option<string>,
    maxPrice: Option<string>,
    active: Option<string>,
    page: Option<int>,
    limit: Option<int>,
    sort: Option<string>)

  /** JavaScript truthiness of an optional string and an optional number. */
  predicate TruthyText(s: Option<string>) { s.Some? && s.value != "" }
  predicate TruthyNumber(n: Option<int>) { n.Some? && n.value != 0 }

  /** The query builder state: each filter present only when its parameter is truthy. */
  datatype Filter = Filter(
    nameLike: Option<string>,
    category: Option<int>,
    active: Option<bool>,
    minPrice: Option<string>,
    maxPrice: Option<string>)

  datatype Plan = Plan(filter: Filter, sort: Sort, page: int, limit: int, skip: nat)

  function PlanOf(q: PagedQuery): (p: Plan)
    requires q.page.Some? ==> q.page.value >= 1
    requires q.limit.Some? ==> q.limit.value >= 1
    ensures p.filter.nameLike.Some? <==> TruthyText(q.search)
    ensures p.filter.nameLike.Some? ==> p.filter.nameLike == q.search
    ensures p.filter.category.Some? <==> TruthyNumber(q.categoryId)
    ensures p.filter.category.Some? ==> p.filter.category == q.categoryId
    ensures p.filter.active == ParseActive(q.active)
    ensures p.filter.minPrice.Some? <==> TruthyText(q.minPrice)
    ensures p.filter.maxPrice.Some? <==> TruthyText(q.maxPrice)
    ensures p.sort == ParseSort(q.sort)
    ensures p.page == q.page.GetOr(1) && p.limit == q.limit.GetOr(10)
    ensures p.page >= 1 && p.limit >= 1
  {
    var filter := Filter(
      if TruthyText(q.search) then q.search else None,
      if TruthyNumber(q.categoryId) then q.categoryId else None,
      ParseActive(q.active),
      if TruthyText(q.minPrice) then q.minPrice else None,
      if TruthyText(q.maxPrice) then q.maxPrice else None);
    var page := q.page.GetOr(1);
    var limit := q.limit.GetOr(10);
    NonNegativeProduct(page - 1, limit);
    Plan(filter, ParseSort(q.sort), page, limit, (page - 1) * limit)
  }

  datatype Meta = Meta(page: int, limit: int, total: nat, totalPages: nat)
  datatype Paged = Paged(data: seq<Product>, meta: Meta)

  /** `findPaged`: `rows` are all the products that pass the plan's filter,
      in the plan's order, as `getManyAndCount` sees them. */
  function FindPaged(q: PagedQuery, rows: seq<Product>): (r: Paged)
    requires q.page.Some? ==> q.page.value >= 1
    requires q.limit.Some? ==> q.limit.value >= 1
    ensures r.meta.page == q.page.GetOr(1) && r.meta.limit == q.limit.GetOr(10)
    ensures r.meta.total == |rows|
    ensures r.meta.totalPages * r.meta.limit >= |rows|
    ensures r.meta.totalPages > 0 ==> (r.meta.totalPages - 1) * r.meta.limit < |rows|
    ensures r.data != [] <==> r.meta.page <= r.meta.totalPages
    ensures r.data == PageOf(rows, r.meta.page, r.meta.limit).items
  {
    var plan := PlanOf(q);
    TotalPagesIsCeiling(|rows|, plan.limit);
    PageNonEmptyIff(rows, plan.page, plan.limit);
    Paged(Window(rows, plan.skip, plan.limit), Meta(plan.page, plan.limit, |rows|, TotalPages(|rows|, plan.limit)))
  }

  /** The compiled `update`: an existing product; a truthy `categoryId` must
      name an existing category and becomes the product's category. */
  function UpdateChecked(c: Catalog, id: Id, patch: ProductPatch, categoryId: Option<int>)
    : (r: Result<(Catalog, Product), Error>)
    ensures r.Ok? <==> id in c.products && (TruthyNumber(categoryId) ==> categoryId.value in c.categories)
    ensures id !in c.products ==> r == Err(NotFound(ProductEntity))
    ensures id in c.products && TruthyNumber(categoryId) && categoryId.value !in c.categories ==>
      r == Err(NotFound(CategoryEntity))
    ensures r.Ok? ==> var (c', p) := r.value;
      && c'.categories == c.categories
      && c'.products == c.products[id := p]
      && p.category == (if TruthyNumber(categoryId) then categoryId.value else c.products[id].category)
      && p == Apply(c.products[id], patch).(category := p.category)
  {
    if id !in c.products then Err(NotFound(ProductEntity))
    else
      var product := c.products[id];
      if TruthyNumber(categoryId) && categoryId.value !in c.categories then Err(NotFound(CategoryEntity))
      else
        var category := if TruthyNumber(categoryId) then categoryId.value as Id else product.category;
        var p := Apply(product, patch).(category := category);
        Ok((c.(products := c.products[id := p]), p))
  }

  /** Every product the compiled `update` writes points at an existing
      category when it did before. */
  lemma UpdateCheckedKeepsCategories(c: Catalog, id: Id, patch: ProductPatch, categoryId: Option<int>)
    requires forall k :: k in c.products ==> c.products[k].category in c.categories
    requires UpdateChecked(c, id, patch, categoryId).Ok?
    ensures var c' := UpdateChecked(c, id, patch, categoryId).value.0;
      forall k :: k in c'.products ==> c'.products[k].category in c'.categories
  {
  }
}

=== FILE: roles.dfy ===
/** `RolesGuard.canActivate` (src/auth/roles.guard.ts): the decision whether a
    request may reach a handler, given the handler's `roles` metadata and the
    role of the authenticated user. */
module Roles {
  import opened Wrappers

  /** `user?.role`: `None` when there is no user or the user has no role. */
  type UserRole = Option<string>

  function CanActivate(roles: Option<seq<string>>, role: UserRole): (allowed: bool)
    ensures roles.None? ==> allowed
    ensures roles.Some? && roles.value == [] ==> allowed
    ensures roles.Some? && roles.value != [] ==> (allowed <==> role.Some? && role.value in roles.value)
  {
    match roles
    case None => true
    case Some(list) => list == [] || Includes(list, role)
  }

  /** `Array.prototype.includes` of a possibly undefined value. */
  function Includes(list: seq<string>, role: UserRole): (found: bool)
    ensures found <==> exists i :: 0 <= i < |list| && role == Some(list[i])
  {
    if list == [] then false
    else role == Some(list[0]) || Includes(list[1..], role)
  }

  /** Without a user only unrestricted handlers are reachable. */
  lemma NoUserOnlyUnrestricted(roles: Option<seq<string>>)
    ensures CanActivate(roles, None) <==> roles.None? || roles.value == []
  {
  }

  /** Widening a non-empty role list never revokes access, and a role is
      admitted by any list that names it. */
  lemma {:induction false} WideningKeepsAccess(list: seq<string>, more: seq<string>, role: UserRole)
    requires list != []
    ensures CanActivate(Some(list), role) ==> CanActivate(Some(list + more), role)
    ensures role.Some? ==> CanActivate(Some(list + [role.value] + more), role)
  {
    if CanActivate(Some(list), role) {
      var i :| 0 <= i < |list| && role == Some(list[i]);
      assert (list + more)[i] == list[i];
    }
    if role.Some? {
      assert (list + [role.value] + more)[|list|] == role.value;
    }
  }
}

=== FILE: text.dfy ===
/** The JavaScript string operations the core relies on: `trim`, `split`
    on one character, and `toUpperCase` as far as the sort-direction test
    needs it. */
module Text {

  /** ECMAScript WhiteSpace and LineTerminator code points, the set `trim` removes. */
  predicate IsSpace(c: char) {
    var n := c as int;
    || n == 0x09 || n == 0x0A || n == 0x0B || n == 0x0C || n == 0x0D || n == 0x20
    || n == 0xA0 || n == 0x1680 || (0x2000 <= n <= 0x200A)
    || n == 0x2028 || n == 0x2029 || n == 0x202F || n == 0x205F || n == 0x3000 || n == 0xFEFF
  }

  predicate AllSpace(s: string) {
    forall k :: 0 <= k < |s| ==> IsSpace(s[k])
  }

  /** The first index from `i` on that is not white space (`|s|` if none). */
  function SkipLeading(s: string, i: nat): (j: nat)
    requires i <= |s|
    ensures i <= j <= |s|
    ensures forall k :: i <= k < j ==> IsSpace(s[k])
    ensures j == |s| || !IsSpace(s[j])
    decreases |s| - i
  {
    if i == |s| || !IsSpace(s[i]) then i else SkipLeading(s, i + 1)
  }

  /** The end of `s[lo..j]` once its trailing white space is dropped. */
  function SkipTrailing(s: string, lo: nat, j: nat): (e: nat)
    requires lo <= j <= |s|
    ensures lo <= e <= j
    ensures forall k :: e <= k < j ==> IsSpace(s[k])
    ensures e == lo || !IsSpace(s[e - 1])
    decreases j - lo
  {
    if j == lo || !IsSpace(s[j - 1]) then j else SkipTrailing(s, lo, j - 1)
  }

  /** Where the kept part of `s` begins. */
  function Start(s: string): nat {
    SkipLeading(s, 0)
  }

  /** `String.prototype.trim`: the string without its leading and trailing
      white space. */
  function Trim(s: string): (t: string)
    ensures t == "" || (!IsSpace(t[0]) && !IsSpace(t[|t| - 1]))
    ensures Start(s) + |t| <= |s| && t == s[Start(s)..Start(s) + |t|]
    ensures AllSpace(s[..Start(s)]) && AllSpace(s[Start(s) + |t|..])
  {
    s[Start(s)..SkipTrailing(s, Start(s), |s|)]
  }

  /** A string trims to nothing exactly when it is all white space. */
  lemma TrimEmptyIffBlank(s: string)
    ensures Trim(s) == "" <==> AllSpace(s)
  {
    var t := Trim(s);
    var i := Start(s);
    if t == "" {
      assert s == s[..i] + s[i..];
    } else {
      assert t[0] == s[i];
    }
  }

  /** Trimming twice is trimming once. */
  lemma TrimIdempotent(s: string)
    ensures Trim(Trim(s)) == Trim(s)
  {
    var t := Trim(s);
    assert Start(t) == 0;
    assert SkipTrailing(t, 0, |t|) == |t|;
  }

  /** Index of the first `c` in `s`. */
  function IndexOf(s: string, c: char): (i: nat)
    requires c in s
    ensures i < |s| && s[i] == c && c !in s[..i]
  {
    if s[0] == c then 0
    else
      assert c in s[1..];
      var i := IndexOf(s[1..], c);
      assert s[..i + 1] == [s[0]] + s[1..][..i];
      i + 1
  }

  /** The parts joined back with `sep` between them (`Array.prototype.join`). */
  function Join(parts: seq<string>, sep: char): string
    requires |parts| >= 1
  {
    if |parts| == 1 then parts[0] else parts[0] + [sep] + Join(parts[1..], sep)
  }

  /** `String.prototype.split` on a one-character separator. */
  function Split(s: string, sep: char): (parts: seq<string>)
    ensures |parts| >= 1
    ensures forall i :: 0 <= i < |parts| ==> sep !in parts[i]
    ensures Join(parts, sep) == s
    decreases |s|
  {
    if sep !in s then [s]
    else
      var i := IndexOf(s, sep);
      var rest := Split(s[i + 1..], sep);
      assert s == s[..i] + [sep] + s[i + 1..];
      [s[..i]] + rest
  }

  /** Splitting undoes joining parts that do not contain the separator. */
  lemma {:induction false} SplitJoin(parts: seq<string>, sep: char)
    requires |parts| >= 1
    requires forall i :: 0 <= i < |parts| ==> sep !in parts[i]
    ensures Split(Join(parts, sep), sep) == parts
  {
    if |parts| > 1 {
      var s := Join(parts, sep);
      var head := parts[0];
      assert s == head + [sep] + Join(parts[1..], sep);
      assert s[|head|] == sep;
      assert s[..|head|] == head;
      assert IndexOf(s, sep) == |head|;
      assert s[|head| + 1..] == Join(parts[1..], sep);
      SplitJoin(parts[1..], sep);
    }
  }

  /** The first separator of `a + [sep] + b` is the one after `a` when `a` has none. */
  lemma {:induction false} IndexOfAfterPrefix(a: string, b: string, sep: char)
    requires sep !in a
    ensures sep in a + [sep] + b && IndexOf(a + [sep] + b, sep) == |a|
  {
    var s := a + [sep] + b;
    assert s[|a|] == sep;
    if a != [] {
      assert s[1..] == a[1..] + [sep] + b;
      IndexOfAfterPrefix(a[1..], b, sep);
    }
  }

  /** Splitting yields first the text before the first separator. */
  lemma SplitHead(a: string, b: string, sep: char)
    requires sep !in a
    ensures Split(a + [sep] + b, sep)[0] == a
  {
    var s := a + [sep] + b;
    IndexOfAfterPrefix(a, b, sep);
    assert s[..|a|] == a;
  }

  /** Two separator-free parts joined by the separator split back into the two. */
  lemma SplitPair(a: string, b: string, sep: char)
    requires sep !in a && sep !in b
    ensures Split(a + [sep] + b, sep) == [a, b]
  {
    var s := a + [sep] + b;
    IndexOfAfterPrefix(a, b, sep);
    assert s[..|a|] == a;
    assert s[|a| + 1..] == b;
  }

  /** `toUpperCase` on one code point for the letters it maps to a single
      upper-case letter: a-z, and U+017F (long s) to 'S'. */
  function UpperChar(c: char): char {
    if 'a' <= c <= 'z' then (c as int - 32) as char
    else if c as int == 0x17F then 'S'
    else c
  }

  function ToUpper(s: string): (u: string)
    ensures |u| == |s|
    ensures forall k :: 0 <= k < |s| ==> u[k] == UpperChar(s[k])
  {
    seq(|s|, k requires 0 <= k < |s| => UpperChar(s[k]))
  }
}

=== FILE: users_api.dfy ===
/** The users API helpers of the frontend (frontend/src/features/users/api.ts),
    which present the backend's customers as UI users: `normalizeCustomer`,
    the paged `listUsers`, and the body `createUser` and `updateUser` send.
    The HTTP calls themselves are left out: a response is an input. */
module UsersApi {
  import opened Wrappers
  import opened Text
  import opened Json
  import opened ApiLists
  import Entities

  /** The UI's `User`; `email` and `role` are JSON values, null when missing. */
  datatype User = User(id: Option<int>, username: string, email: Json, role: Json)

  /** `normalizeCustomer`: the username is `name`, else `username`, else '',
      as text; a missing email or role becomes null. */
  function NormalizeCustomer(c: Json, parse: NumberParser): (r: Result<User, Throw>)
    ensures r.Err? <==> Nullish(c)
    ensures r.Err? ==> r.error == PropertyOfNullish
    ensures r.Ok? ==> var u := r.value;
      && (Get(c, "name").Str? ==> u.username == Get(c, "name").s)
      && (Nullish(Get(c, "name")) && Get(c, "username").Str? ==> u.username == Get(c, "username").s)
      && (Nullish(Get(c, "name")) && Nullish(Get(c, "username")) ==> u.username == "")
      && (Nullish(Get(c, "email")) ==> u.email == Null)
      && (!Nullish(Get(c, "email")) ==> u.email == Get(c, "email"))
      && (Nullish(Get(c, "role")) ==> u.role == Null)
      && (!Nullish(Get(c, "role")) ==> u.role == Get(c, "role"))
      && u.id == NumberOf(Get(c, "id"), parse)
  {
    if Nullish(c) then Err(PropertyOfNullish)
    else
      Ok(User(NumberOf(Get(c, "id"), parse),
              ToText(Coalesce(Get(c, "name"), Coalesce(Get(c, "username"), Str("")))),
              Coalesce(Get(c, "email"), Null),
              Coalesce(Get(c, "role"), Null)))
  }

  /** The JSON the backend sends for a customer. */
  function RenderCustomer(id: Entities.Id, c: Entities.Customer): Json {
    Obj(map["id" := Num(id), "name" := Str(c.name), "email" := Str(c.email)])
  }

  /** A customer as the backend sends it becomes the user with the same id,
      its name as username, its email, and no role. */
  lemma NormalizeStoredCustomer(id: Entities.Id, c: Entities.Customer, parse: NumberParser)
    ensures NormalizeCustomer(RenderCustomer(id, c), parse) == Ok(User(Some(id), c.name, Str(c.email), Null))
  {
    var json := RenderCustomer(id, c);
    assert Get(json, "id") == Num(id) && Get(json, "name") == Str(c.name) && Get(json, "email") == Str(c.email);
    assert Get(json, "role") == Undefined;
  }

  /** `??` only skips null and undefined: an empty `name` wins over a
      non-empty `username`. */
  lemma EmptyNameWins(username: string, parse: NumberParser)
    ensures var r := NormalizeCustomer(Obj(map["name" := Str(""), "username" := Str(username)]), parse);
      r.Ok? && r.value.username == ""
  {
    var json := Obj(map["name" := Str(""), "username" := Str(username)]);
    assert Get(json, "name") == Str("");
  }

  /** `UserQuery`. */
  datatype UserQuery = UserQuery(search: Option<string>, page: Option<int>, limit: Option<int>)

  /** The object `listUsers` hands to `prune`: page and limit (1 and 12 by
      default), the search, and the skip/take/offset aliases. */
  function ParamEntries(q: UserQuery): Entries {
    var page := q.page.GetOr(1);
    var limit := q.limit.GetOr(12);
    [("page", Num(page)), ("limit", Num(limit)), ("search", OptStr(q.search)),
     ("skip", Num((page - 1) * limit)), ("take", Num(limit)), ("offset", Num((page - 1) * limit))]
  }

  /** The query parameters `listUsers` sends: the entries `prune` keeps. */
  function ListParams(q: UserQuery): (params: Entries)
    ensures forall i :: 0 <= i < |params| ==> Kept(params[i].1)
  {
    Prune(ParamEntries(q))
  }

  /** The page window is always sent: page and limit (1 and 12 by default)
      and the skip alias. */
  lemma ListParamsWindow(q: UserQuery)
    ensures forall n :: ("page", Num(n)) in ListParams(q) <==> n == q.page.GetOr(1)
    ensures forall n :: ("limit", Num(n)) in ListParams(q) <==> n == q.limit.GetOr(12)
    ensures forall n :: ("skip", Num(n)) in ListParams(q) <==> n == (q.page.GetOr(1) - 1) * q.limit.GetOr(12)
  {
    var e := ParamEntries(q);
    PruneKey(e, 0); PruneKey(e, 1); PruneKey(e, 3);
  }

  /** The search is sent exactly when it is given and not empty. */
  lemma ListParamsSearch(q: UserQuery)
    ensures forall s :: ("search", Str(s)) in ListParams(q) <==> q.search == Some(s) && s != ""
  {
    PruneKey(ParamEntries(q), 2);
  }

  /** `Paged<User>`. */
  datatype UserPage = UserPage(items: seq<User>, total: Option<int>, page: int, limit: int)

  /** `listUsers`, given the response body `data`. */
  function ListUsers(q: UserQuery, data: Json, parse: NumberParser): (r: Result<UserPage, Throw>)
    ensures r.Ok? ==> r.value.page == q.page.GetOr(1) && r.value.limit == q.limit.GetOr(12)
    ensures Nullish(data) ==> r == Err(PropertyOfNullish)
    ensures r.Err? ==> r.error == PropertyOfNullish
    ensures r.Ok? ==> var listing := CoerceListAndTotal(data, parse);
      && listing.Ok?
      && r.value.total == listing.value.total
      && var rows := PageRows(data, listing.value.itemsRaw, q.page.GetOr(1), q.limit.GetOr(12));
         && |r.value.items| == |rows|
         && forall i :: 0 <= i < |rows| ==> NormalizeCustomer(rows[i], parse) == Ok(r.value.items[i])
    ensures r.Ok? <==>
      && CoerceListAndTotal(data, parse).Ok?
      && var rows := PageRows(data, CoerceListAndTotal(data, parse).value.itemsRaw, q.page.GetOr(1), q.limit.GetOr(12));
         forall i :: 0 <= i < |rows| ==> !Nullish(rows[i])
  {
    var page := q.page.GetOr(1);
    var limit := q.limit.GetOr(12);
    var listing :- CoerceListAndTotal(data, parse);
    var rows := PageRows(data, listing.itemsRaw, page, limit);
    if exists i :: 0 <= i < |rows| && Nullish(rows[i]) then Err(PropertyOfNullish)
    else
      Ok(UserPage(seq(|rows|, i requires 0 <= i < |rows| => NormalizeCustomer(rows[i], parse).value), listing.total, page, limit))
  }

  /** A server that returns `{ items, total }` is taken as already paged:
      every row is shown, and the total is the server's (or the row count
      when the server says 0). */
  lemma ServerPagedUsers(customers: seq<Json>, n: int, q: UserQuery, parse: NumberParser)
    requires forall i :: 0 <= i < |customers| ==> !Nullish(customers[i])
    ensures var r := ListUsers(q, Obj(map["items" := Arr(customers), "total" := Num(n)]), parse);
      && r.Ok?
      && r.value.total == Some(if n != 0 then n else |customers|)
      && |r.value.items| == |customers|
      && forall i :: 0 <= i < |customers| ==> NormalizeCustomer(customers[i], parse) == Ok(r.value.items[i])
  {
    var data := Obj(map["items" := Arr(customers), "total" := Num(n)]);
    ItemsTotalShape(customers, n, parse);
    assert Get(data, "items") == Arr(customers);
    assert !ClientSide(data);
  }

  /** The object `createUser` and `updateUser` hand to `prune`, given the
      name already trimmed. */
  function UserEntries(name: Option<string>, email: Option<string>, role: Option<string>): Entries {
    [("name", OptStr(name)), ("email", OptStr(email)), ("role", OptStr(role))]
  }

  /** `payload.username?.trim()`. */
  function TrimmedName(username: Option<string>): (name: Option<string>)
    ensures name.Some? <==> username.Some?
    ensures name.Some? ==> name.value == Trim(username.value)
  {
    if username.Some? then Some(Trim(username.value)) else None
  }

  /** The `createUser` / `updateUser` body for an already trimmed name:
      the entries `prune` keeps. */
  function Body(name: Option<string>, email: Option<string>, role: Option<string>): (body: Entries)
    ensures forall i :: 0 <= i < |body| ==> Kept(body[i].1)
    ensures |body| <= 3
  {
    Prune(UserEntries(name, email, role))
  }

  /** Each field is sent exactly when it is given and not empty. */
  lemma BodyFields(name: Option<string>, email: Option<string>, role: Option<string>)
    ensures forall s :: ("name", Str(s)) in Body(name, email, role) <==> name == Some(s) && s != ""
    ensures forall s :: ("email", Str(s)) in Body(name, email, role) <==> email == Some(s) && s != ""
    ensures forall s :: ("role", Str(s)) in Body(name, email, role) <==> role == Some(s) && s != ""
  {
    var e := UserEntries(name, email, role);
    PruneKey(e, 0); PruneKey(e, 1); PruneKey(e, 2);
  }

  /** `createUser` / `updateUser`: the body for the trimmed username. */
  function UserBody(username: Option<string>, email: Option<string>, role: Option<string>): (body: Entries)
    ensures |body| <= 3
  {
    Body(TrimmedName(username), email, role)
  }

  /** The name is sent trimmed, and exactly when a username is given and is
      not blank. */
  lemma UserBodyName(username: Option<string>, email: Option<string>, role: Option<string>)
    ensures forall s :: ("name", Str(s)) in UserBody(username, email, role) <==>
      username.Some? && s == Trim(username.value) && !AllSpace(username.value)
  {
    var name := TrimmedName(username);
    BodyFields(name, email, role);
    assert UserBody(username, email, role) == Body(name, email, role);
    if username.Some? {
      TrimEmptyIffBlank(username.value);
    }
  }

  /** A name sent is never blank and never padded. */
  lemma UserBodyNameIsClean(username: Option<string>, email: Option<string>, role: Option<string>)
    ensures forall s :: ("name", Str(s)) in UserBody(username, email, role) ==>
      s != "" && !IsSpace(s[0]) && !IsSpace(s[|s| - 1])
  {
    var name := TrimmedName(username);
    BodyFields(name, email, role);
    assert UserBody(username, email, role) == Body(name, email, role);
  }
}

=== FILE: wrappers.dfy ===
/** Failure-compatible wrappers shared by every module of the model.
    - Option<T> stands for a value that may be missing (JavaScript's null/undefined).
    - Result<T, E> stands for an operation that either returns a value or throws. */
module Wrappers {

  datatype Option<+T> = None | Some(value: T) {

    predicate IsFailure() {
      None?
    }

    function PropagateFailure<U>(): Option<U>
      requires None?
    {
      None
    }

    function Extract(): T
      requires Some?
    {
      value
    }

    /** The `??` operator: the held value, or `default` when missing. */
    function GetOr(default: T): T {
      match this
      case Some(v) => v
      case None => default
    }
  }

  datatype Result<+T, +E> = Ok(value: T) | Err(error: E) {

    predicate IsFailure() {
      Err?
    }

    function PropagateFailure<U>(): Result<U, E>
      requires Err?
    {
      Err(error)
    }

    function Extract(): T
      requires Ok?
    {
      value
    }
  }

  /** Succeeds with nothing when `condition` holds, fails with `error` otherwise. */
  datatype Check<+E> = Pass | Fail(error: E) {

    predicate IsFailure() {
      Fail?
    }

    function PropagateFailure<U>(): Result<U, E>
      requires Fail?
    {
      Err(error)
    }
  }

  function Need<E>(condition: bool, error: E): (c: Check<E>)
    ensures c.Pass? <==> condition
  {
    if condition then Pass else Fail(error)
  }
}
